=== FILE: README.md ===
# riyaz core in Dafny

A model of the core of riyaz, a small course-publishing tool, with proofs about it. The model covers four parts.

- **The document store** (`riyaz/db.py`). This is a schemaless store over one SQLite table, `document(id, doctype, key, data)`.
  - The query builder `DBQuery` (`Query` module) keeps each constraint in structured form. The SQL text and parameter list `make_query` produces are derived from it.
  - Running a query (`Store` module) filters the ordered sequence of rows with the meaning SQLite gives the clauses.
  - Modelled on top of that: `get`, `get_many`, `query`, `find`, the `save` upsert, `Document.find` and `Document.save`.
  - The import-time SQLite version gate is in the `SqliteVersion` module. The module's docstring asks for SQLite 3.8.0 or later, but the gate and its error message say 3.38.0; the model follows the code.
- **Course documents** (`riyaz/doctypes.py`).
  - Module and lesson indexes and stepping to the next or previous lesson, over the outline a course stores (`Outline`, `StoredOutline` and `Doctypes` modules). Navigation reads the stored value as Python does, touching only the fields it subscripts; `StoredOutline` proves it agrees with the decoded outline wherever the stored value reads back as one.
  - `create_outline_without_content`.
  - Finding a lesson of a course.
  - The documents and keys `Course.save_from_model` writes.
- **Course-definition validation** (`riyaz/disk.py`). `DiskCourse` and `DiskChapter` as pydantic 1 checks them, applied to an already-parsed mapping. The file system is a parameter: the paths that exist and which of them are files. This is the `Disk` module.
- **The live-reload script's course name** (`riyaz/static/poll.js`). `getCourseName` on a page path, and how it reads the paths `Lesson.get_url` writes (`Poll` module).

Shared pieces:
- `Wrappers` holds `Option` and `Result`.
- `Strings` holds the string functions: Python's `split`, `join`, `str(n)` and string `<`.
- `Values` holds a JSON-like value shape (null, booleans, integers, text, lists, objects with text keys).

The model makes these choices explicit:
- The table is a sequence of rows in rowid order.
- An insert appends a row whose id is one more than the largest in use.
- An update changes the row where it stands.
- A comparison `data->>'$.f' = ?` follows SQLite's rules:
  - booleans read as 0 and 1;
  - NULL equals nothing;
  - lists, objects and integers beyond 64 bits cannot be bound.
- The doctype registry is a set of doctype names passed as a parameter.

## Model

| member | source | states |
|---|---|---|
| Query.Where | riyaz/db.py:158-172 | Fails with `InvalidField(name)` exactly when the name does not match `^\w+$`, with `\w` taken as the ASCII word characters (letters, digits, `_`). Otherwise it returns a query on the same table with no limit or offset. Its constraints are the old ones plus one on the column the name selects: `key` and `doctype` are real columns, any other name is a JSON field. |
| Query.WhereAppendsClause | riyaz/db.py:162-183 | After `where`, the earlier clause texts and parameters are unchanged, and exactly one clause follows them. The new clause is `field op ?`, or `field op (?, …)` for a list. The parameters grow by the value, or by the list's items in order. |
| Query.Clone | riyaz/db.py:155-156 | The copy has the same table, clause texts and parameters, and neither limit nor offset. |
| Query.FieldNameIsInert | riyaz/db.py:144 | A name the regular expression accepts holds only ASCII word characters, plus possibly a final newline. So it has no `?`, quote, space or dot that could change the SQL. |
| Query.FieldNameExamples | riyaz/db.py:144 | `abc\n` passes, because Python's `$` matches before a final newline. `key` and `multiple_of_3` pass. The empty name, `\n`, `a.b`, `a'b` and `a\n\n` do not. |
| Query.PlaceholderCount | riyaz/db.py:176-179 | A placeholder group for a list of n values holds exactly n question marks; an empty list gives `()`. |
| Query.PrepareWhere | riyaz/db.py:174-183 | Defined as `_prepare_where`: a list value gives a parenthesised group of one `?` per item, with the items as parameters; any other value gives one `?`, with itself as the parameter. PlaceholderCount states the count of `?`. |
| Query.MakeQuery | riyaz/db.py:185-199 | Defined as `make_query`: the fixed SELECT, the WHERE part, then one ` LIMIT ?` per bound that is set; the parameters are the clause parameters, then the bounds. MakeQueryShape, MakeQueryBounds, MakeQueryBoundParams and MakeQueryPlaceholders state its properties. |
| Query.MakeQueryShape | riyaz/db.py:185-188 | The SQL text always starts with `SELECT id, doctype, key, data FROM document`. It continues with ` WHERE ` exactly when there are clauses; with no clauses only the bound marks follow. |
| Query.MakeQueryIgnoresTable | riyaz/db.py:186 | Changing `table` changes neither the text nor the parameters of `make_query`. |
| Query.MakeQueryBounds | riyaz/db.py:192-198 | The text ends in one ` LIMIT ?` per bound that is set, so an offset is written as a second `LIMIT`, never as `OFFSET`. With no bound the text is the select and the WHERE part only. |
| Query.MakeQueryBoundParams | riyaz/db.py:190-198 | The parameter list is the clause parameters, then the limit, then the offset; its length counts each set bound once. |
| Query.MakeQueryPlaceholders | riyaz/db.py:185-199 | For a query built from valid names and `?`-free operators, the number of `?` in the text equals the number of parameters. |
| Query.WherePreservesWellBuilt | riyaz/db.py:158-172 | `where` with a `?`-free operator keeps a query in that well-built form, so the placeholder count keeps matching. |
| Store.Select | riyaz/db.py:201-208 | Running a WHERE part returns exactly the rows that satisfy every clause. Its first row is the first satisfying row in storage order, and increasing ids stay increasing. |
| Store.ApplyLimit | riyaz/db.py:192-194 | A `LIMIT` keeps a prefix of the rows. Without a bound, or with a negative one, it keeps all of them; with a bound n >= 0 it keeps the first n, or all when fewer are selected. |
| Store.BoundValue | riyaz/db.py:192-198 | The integer SQLite takes from a bound parameter is always 64-bit. An integer is itself when in range, a boolean is 0 or 1, and `None`, lists and dicts are refused. |
| Store.TextBoundAsInt | riyaz/db.py:192-198 | The decimal text of any 64-bit integer, given as a bound, reads as that integer. |
| Store.Execute | riyaz/db.py:185-208 | A query runs exactly when three things hold: SQLite accepts every clause, limit and offset are not both set (`LIMIT ? LIMIT ?` is a syntax error), and the bound reads as a 64-bit integer (an integer, a boolean, or text holding a signed decimal). Its result is a prefix of the selected rows, and without bounds it is all of them. With a bound n it holds n rows when 0 <= n is below the number selected, and all of them otherwise. |
| Store.ReservedNamesValid | riyaz/db.py:162-165 | `doctype` and `key` are valid field names and select the real columns. |
| Store.GetQueryShape | riyaz/db.py:219-222 | `get` builds the two constraints `doctype = ?` and `key = ?` on a fresh query. |
| Store.Get | riyaz/db.py:216-225 | Never fails. Returns nothing exactly when no row has that doctype and key; otherwise it returns the first such row in storage order. |
| Store.GetUnique | riyaz/db.py:216-225 | Under the store invariant (increasing ids, one row per doctype and key), `get` returns the stored row for its doctype and key. |
| Store.SatisfiesKeyIn | riyaz/db.py:230-233 | A row meets `doctype = ? AND key IN (?, …)` exactly when it has the doctype and its key is one of the keys. |
| Store.ByKey | riyaz/db.py:235 | The dictionary built from the rows has exactly their keys, and maps each key to one of the rows with that key. |
| Store.Collect | riyaz/db.py:236 | The lookup succeeds exactly when every key is present, giving one row per key in the keys' order. Otherwise it fails with the first missing key. |
| Store.GetMany | riyaz/db.py:227-236 | Succeeds exactly when every key has a row of the doctype. It then returns one row per key, in the order the keys are given. A failure names a key that has no such row. |
| Store.GetManyAgreesWithGet | riyaz/db.py:216-236 | Under the store invariant, each row `get_many` returns is what `get` returns for that key. A key it fails on is one `get` does not find. |
| Store.Without | riyaz/db.py:247 | `**where` collects exactly the keywords whose names are not named parameters, keeping their order. |
| Store.EqCondMeaning | riyaz/db.py:162-183 | SQLite accepts `name = ?` exactly when the value can be bound: a scalar (an integer within 64 bits) or a one-element list of one. A row then meets it exactly when its key, its doctype, or its JSON field equals the value (numbers, booleans included, by value; text by text). |
| Store.WhereEach | riyaz/db.py:252-253 | The loop of `where` calls fails exactly when some keyword name is invalid, with an error naming it. Otherwise it appends one `=` constraint per keyword in order and leaves no bounds. |
| Store.QueryStart | riyaz/db.py:250-251 | The limit and offset given to `DBQuery` are gone after the first `where`. |
| Store.QueryCondsAccepted | riyaz/db.py:250-256 | SQLite accepts the clauses `query` builds exactly when every keyword value can be compared. |
| Store.QueryCondsHold | riyaz/db.py:250-256 | A row satisfies those clauses exactly when they are accepted and the row has the doctype and meets every keyword constraint. |
| Store.QueryDocs | riyaz/db.py:247-256 | A `doctype` keyword is a duplicate-argument error. Otherwise `query` succeeds exactly when every keyword is a valid name with a comparable value, and an invalid name is an `InvalidField` error. It then returns exactly the matching rows, in storage order, the first being the first match. |
| Store.QueryIgnoresBounds | riyaz/db.py:247-256 | Two calls that differ only in `limit` and `offset` return the same, so neither bound takes effect. |
| Store.Find | riyaz/db.py:238-245 | `doctype` or `limit` as a keyword is a duplicate-argument error. Otherwise `find` fails exactly when `query` does, and returns the first matching row in storage order, or nothing when no row matches. |
| Store.FindAccepted | riyaz/db.py:238-245 | `find` succeeds whenever its keywords are valid names with comparable values and none is reserved. |
| Store.GetAgreesWithFind | riyaz/db.py:216-245 | `find(doctype, key=k)` and `get(doctype, k)` return the same. |
| Store.FindKeywordsFacts | riyaz/db.py:107-108 | Adding `key` to the keywords makes `find` match the other keywords and the key. It brings in neither `doctype` nor `limit`. With a key and no other keyword, every constraint is accepted. |
| Store.GetShortcut | riyaz/db.py:104-105 | The `get` shortcut keeps the promise of `Document.find`: never an error, and the first row of the doctype with the key, or nothing when there is none. |
| Store.FindWithKey | riyaz/db.py:106-109 | The `find` branch keeps the same promise. It returns the first row meeting the keywords and the key, or nothing. A reserved keyword is a duplicate-argument error. |
| Store.DocumentFind | riyaz/db.py:93-109 | `Document.find` with or without a key returns the first row of the class's doctype meeting every constraint, or nothing. With only a key it never fails, and reserved keywords are duplicate-argument errors. |
| Store.DocumentFindUnkeyed | riyaz/db.py:106-109 | Without a key, `Document.find(**q)` is `find(doctype, **q)`. |
| Store.InsertGet | riyaz/db.py:265-267 | After inserting a new key, `get` returns the new row, whose id is one past the largest in use. |
| Store.InsertValid | riyaz/db.py:265-267 | Inserting a key `get` does not find keeps the store invariant. |
| Store.UpdateGet | riyaz/db.py:262-264 | After updating the row `get` found, `get` returns that row with the new data. |
| Store.UpdateInPlace | riyaz/db.py:262-264 | Under the store invariant, the update by id replaces exactly that one row, where it stands, and keeps the invariant. |
| Store.Save | riyaz/db.py:258-278 | `save` never fails, and afterwards `get` returns the saved row, which holds exactly the new data. An existing row keeps its id and the table keeps its size. A new key appends one row whose id exceeds every earlier id. |
| Store.SaveUpdated | riyaz/db.py:261-264 | The update branch: `get` sees the new data on the same row, the size is unchanged, and the invariant holds. |
| Store.SaveInserted | riyaz/db.py:265-267 | The insert branch: one row is appended with a fresh, largest id, and the invariant holds. |
| Store.SaveKeepsValid | riyaz/db.py:258-278 | A save keeps the store invariant. On an existing key it replaces that row in place. |
| Store.SaveFrame | riyaz/db.py:258-278 | A save leaves every other doctype and key as `get` sees them. |
| Store.SaveTwiceSameId | riyaz/db.py:258-278 | Saving a key twice keeps the same id, adds no row, and `get` then returns the second data. |
| Store.SaveAll | riyaz/db.py:258-278 | A sequence of saves keeps the store invariant and never shrinks the table. |
| Store.SaveAllLastWins | riyaz/db.py:258-278 | After a sequence of saves, `get` returns the data of the last save to a key. A key no save touched reads as before. |
| Store.DocumentSave | riyaz/db.py:128-142 | `Document.save` stores the object's data under its doctype and key. The object takes the stored id only when its id was `None`, and is otherwise unchanged. |
| Store.Materialize | riyaz/db.py:210-214 | A row read back keeps its id, key and data. It keeps its doctype exactly when that doctype is registered or is `document`. |
| Store.MaterializeFixed | riyaz/db.py:210-214 | With the doctype passed to the constructor, every field of the row is kept. |
| Store.MaterializeRegistered | riyaz/db.py:210-214 | For a registered doctype, the code as written and the corrected form agree. |
| Store.MaterializeLosesDoctype | riyaz/db.py:210-214 | As written, a row of an unregistered doctype that is read, changed and saved back leaves the row unchanged. The save instead creates a new row under doctype `document`. |
| Store.MaterializeFixedRoundTrip | riyaz/db.py:210-214 | Corrected, reading a row, changing its data and saving it back updates that row in place and keeps its id. |
| SqliteVersion.ListLess | riyaz/db.py:45 | Defined as Python's `<` on lists of strings: the first differing position decides by string order, and a proper prefix is smaller. ListLessThree states it against `['3', '38']`. |
| SqliteVersion.Accepts | riyaz/db.py:44-46 | Defined as the gate as written: the version passes unless its dot-separated pieces are smaller than `['3', '38']` as a list of strings. TextualRefuses3100, TextualRefuses10 and TextualAccepts34 show what that lets through. |
| SqliteVersion.AcceptsNumeric | riyaz/db.py:44-46 | The numeric gate fails exactly when a dot-separated piece is not a decimal number. |
| SqliteVersion.AcceptsNumericMeaning | riyaz/db.py:44-46 | The numeric gate accepts `a.b.c` exactly when it is at least 3.38, the version the error message names. |
| SqliteVersion.SplitVersionText | riyaz/db.py:44 | Splitting the text of `a.b.c` at dots gives the three numbers' texts. |
| SqliteVersion.ListLessThree | riyaz/db.py:45 | Python's list `<` against `['3', '38']`: the first differing piece decides, compared as strings. |
| SqliteVersion.TextualRefuses3100 | riyaz/db.py:44-46 | The gate as written refuses `3.100.0`, which is newer than 3.38. |
| SqliteVersion.TextualRefuses10 | riyaz/db.py:44-46 | The gate as written refuses `10.0.0`. |
| SqliteVersion.TextualAccepts34 | riyaz/db.py:44-46 | The gate as written accepts `3.4.0`, which is older than 3.38. |
| SqliteVersion.BothAccept338 | riyaz/db.py:44-46 | Both gates accept `3.38.0`. |
| Outline.ModuleIndex | riyaz/doctypes.py:20-30 | The 1-based position of the first module with the name, or nothing exactly when no module has it. |
| Outline.LessonIndexIn | riyaz/doctypes.py:38-45 | The 1-based position of the first lesson with the name within a module, or nothing exactly when none has it. |
| Outline.LessonIndex | riyaz/doctypes.py:32-47 | The module's index and the first matching lesson's position within it. It is nothing exactly when the module is missing or that module has no such lesson. |
| Outline.Flatten | riyaz/doctypes.py:50-54 | Defined as every module's lesson places, modules in order. FlattenAt and FlattenMembers state where each place sits. |
| Outline.FlattenAt | riyaz/doctypes.py:50-54 | The lesson j of module i sits in the flattened list at the count of earlier modules' lessons plus j. |
| Outline.FlattenMembers | riyaz/doctypes.py:50-54 | A place is in the flattened list exactly when it is the module name and lesson name of some lesson of the outline. |
| Outline.FirstIndex | riyaz/doctypes.py:55-57 | `list.index`: nothing exactly when the entry is absent, else the position of its first occurrence. |
| Outline.NextPlace | riyaz/doctypes.py:49-62 | Fails exactly when the place is not in the flattened outline. Otherwise it gives the entry after the place's first occurrence, or nothing exactly when that occurrence is last. |
| Outline.PreviousPlace | riyaz/doctypes.py:64-77 | Fails exactly when the place is not in the flattened outline. Otherwise it gives the entry before the first occurrence, or nothing exactly when that occurrence is first. |
| Outline.FirstIndexDistinct | riyaz/doctypes.py:55-57 | Without repeats, `list.index` finds an entry at its only position. |
| Outline.NextPreviousInverse | riyaz/doctypes.py:49-77 | When no place repeats, q is next after p exactly when p is previous before q. |
| Outline.BackAfterNext | riyaz/doctypes.py:49-77 | When no place repeats, stepping back from the next place returns to the start. |
| Outline.ForwardAfterPrevious | riyaz/doctypes.py:49-77 | When no place repeats, stepping forward from the previous place returns to the start. |
| Outline.NextWithinModule | riyaz/doctypes.py:49-62 | When no place repeats, the next place after a lesson that is not its module's last is the following lesson of that module. |
| Outline.NextAcrossModules | riyaz/doctypes.py:49-62 | When no place repeats, the next place after a module's last lesson is the first lesson of the next module, if that module has lessons. |
| Outline.NextWithinAndAcross | riyaz/doctypes.py:49-62 | Both of the above for any lesson of the outline. |
| Outline.NextAt | riyaz/doctypes.py:49-62 | When no place repeats, the entry at k steps to the entry at k+1. |
| Outline.StepsAt | riyaz/doctypes.py:49-77 | At the first occurrence k of a place, next is entry k+1 (nothing at the end) and previous is entry k-1 (nothing at the start). |
| Outline.Ends | riyaz/doctypes.py:49-77 | The first place has no previous place. When no place repeats, the last has no next place. |
| Outline.WithoutContent | riyaz/doctypes.py:159-171 | Stripping keeps the number and order of modules and lessons. It keeps each name and title, and drops every other field. |
| Outline.WithoutContentIdempotent | riyaz/doctypes.py:159-171 | Stripping twice is stripping once. |
| Outline.WithoutContentFlatten | riyaz/doctypes.py:159-171 | Stripping keeps the flattened list of places. |
| Outline.ModuleIndexByNames | riyaz/doctypes.py:20-30 | The module index depends only on the modules' names. |
| Outline.LessonIndexInByNames | riyaz/doctypes.py:38-45 | The lesson position depends only on the lessons' names. |
| Outline.WithoutContentIndexes | riyaz/doctypes.py:159-171 | Module and lesson indexes are the same on the stripped outline. |
| Outline.WithoutContentSteps | riyaz/doctypes.py:159-171 | Next and previous places are the same on the stripped outline. |
| Outline.AlphaModuleIndexes | tests/test_doctypes.py:111-116 | On the sample outline, `uno-module` has index 1 and an unknown module has none. |
| Outline.AlphaLessonIndexes | tests/test_doctypes.py:119-124 | `(uno-module, moonu-lesson)` is at (1, 3). `(uno-module, naalu-lesson)` has no index. |
| Outline.AlphaNextWithinModule | tests/test_doctypes.py:127-132 | After `onnu-lesson` comes `rendu-lesson` of the same module. |
| Outline.AlphaNextAcrossModules | tests/test_doctypes.py:134-138 | After the last lesson of `uno-module` comes `naalu-lesson` of `dos-module`. |
| Outline.AlphaNextAtEnd | tests/test_doctypes.py:140-142 | The last lesson has no next lesson. |
| Outline.AlphaPreviousAtStart | tests/test_doctypes.py:145-148 | The first lesson has no previous lesson. |
| Outline.AlphaPreviousAcrossModules | tests/test_doctypes.py:156-160 | Before the first lesson of `dos-module` comes the last lesson of `uno-module`. |
| StoredOutline.DecodeEncodeOutline | riyaz/doctypes.py:89-91 | An outline stored on a course document reads back as the outline stored. |
| StoredOutline.EncodeDecodeOutline | riyaz/doctypes.py:89-91 | Anything that reads back as an outline is the stored form of what it reads back as. |
| StoredOutline.WithoutContentStorable | riyaz/doctypes.py:159-171 | A stripped outline has no field that would shadow `name`, `title` or `lessons`, so it can be stored and read back. |
| StoredOutline.ModuleIndexRead | riyaz/doctypes.py:20-30 | Defined as `get_module_index` on the stored value: an outline that is not a list fails, otherwise its items are scanned by name. ModuleIndexReadDecoded states that it agrees with Outline.ModuleIndex. |
| StoredOutline.LessonIndexRead | riyaz/doctypes.py:32-47 | A module that is not found gives nothing, as `if not module_i: return` does. Otherwise the module's `lessons` are scanned by name. LessonIndexReadFound and LessonIndexReadDecoded state what it finds. |
| StoredOutline.FlatEntries | riyaz/doctypes.py:50-54 | Defined as the comprehension over the stored value: each module's `name` paired with each of its lessons' `name`, failing where an item cannot be subscripted or iterated. FlatEntriesDecoded states that it agrees with Outline.Flatten. |
| StoredOutline.ScanNamed | riyaz/doctypes.py:21-28 | `next` over `enumerate(items, 1)` with `item["name"] == name`. It finds the 1-based first item named so, every earlier item having a name. It finds nothing exactly when every item has a name and none matches. It raises exactly when an item without a name comes before any match. |
| StoredOutline.ModuleIndexReadDecoded | riyaz/doctypes.py:20-30 | On a stored value that reads back as an outline, reading the module index from the raw value gives the module index of the decoded outline. |
| StoredOutline.LessonIndexReadFound | riyaz/doctypes.py:32-47 | A lesson index read from the stored value names the module `get_module_index` finds. Its lesson is the first one so named in that module's `lessons` list, which must be a list. |
| StoredOutline.LessonIndexReadDecoded | riyaz/doctypes.py:32-47 | On a stored value that reads back as an outline, reading the lesson index from the raw value gives the lesson index of the decoded outline. |
| StoredOutline.FlatEntriesDecoded | riyaz/doctypes.py:50-54 | On a stored value that reads back as an outline, `flattened_lessons` read from the raw value is the flattened decoded outline. |
| StoredOutline.LiftFirstIndex | riyaz/doctypes.py:55-57 | `list.index` of a text place finds the same position among the raw entries as among the places. |
| StoredOutline.UntitledModuleRead | riyaz/doctypes.py:20-30 | A module without a `title` does not read back as an outline, yet `get_module_index` finds it, since only `name` is read. |
| StoredOutline.ItemsAfterMatchUnread | riyaz/doctypes.py:20-30 | An outline with a non-mapping item after the match does not read back, yet `get_module_index` finds the match, since `next` stops there. |
| Doctypes.CourseOutline | riyaz/db.py:80-84 | `course.outline` is missing exactly when the field is absent. It reads back as an outline exactly when the field has the shape `save_from_model` writes, and is then the outline the field stores. Navigation does not require this and reads the raw value. |
| Doctypes.GetModuleIndex | riyaz/doctypes.py:20-30 | `get_module_index` reads the stored value itself. A missing outline is an attribute error. An error is otherwise a malformed outline, and a list of named items never gives one. A found index k is 1-based: item k is named so and no earlier item is. Nothing means the outline reads as a list of named items, none of them named so. On an outline that reads back, it is the decoded outline's module index. |
| Doctypes.GetLessonIndex | riyaz/doctypes.py:32-47 | `get_lesson_index` reads the stored value. A missing outline is an attribute error, and a missing module gives nothing. A found pair names the module `get_module_index` finds, and within that module's `lessons` list the first lesson named so. On an outline that reads back, it is the decoded outline's lesson index. |
| Doctypes.LessonPlace | riyaz/doctypes.py:55-57 | `{"module_name": lesson.module, "lesson_name": lesson.name}`: an attribute error names the first missing field. Otherwise it is the two stored values, whatever they hold. |
| Doctypes.CoursePlaces | riyaz/doctypes.py:50-54 | `flattened_lessons` read from the stored value: a missing outline is an attribute error. On an outline that reads back, it is the flattened decoded outline. |
| Doctypes.LessonQueryAccepted | riyaz/doctypes.py:15-18 | The keywords `get_lesson` passes are valid names with comparable values, and none is reserved. |
| Doctypes.LessonQueryMeaning | riyaz/doctypes.py:15-18 | A row matches `Lesson.find(course=…, module=…, name=…)` exactly when it is a lesson document of that course, module and name. |
| Doctypes.GetLesson | riyaz/doctypes.py:15-18 | Never fails. Returns the first lesson document in storage order whose `course`, `module` and `name` are the course's key and the two names, or nothing exactly when there is none. So a lesson of another course is never returned. |
| Doctypes.LessonFind | riyaz/doctypes.py:15-18 | `Lesson.find` with those three keywords is the first lesson document of that course and place. |
| Doctypes.NextLesson | riyaz/doctypes.py:49-62 | An outline or attribute error is passed on. A lesson whose place is not among the flattened entries is an error, exactly then. Otherwise, at the place's first occurrence k, the result is nothing when k is last and otherwise the lookup of entry k+1. |
| Doctypes.LessonAt | riyaz/doctypes.py:15-18 | Looking up a flattened entry fails only as a store lookup. For text names it is `get_lesson` at that place. |
| Doctypes.PreviousLesson | riyaz/doctypes.py:64-77 | The same for the previous entry, with nothing at the first one. |
| Doctypes.NextLessonDecoded | riyaz/doctypes.py:49-62 | On an outline that reads back, a lesson whose names are not both text is not found. Otherwise the next lesson is an error exactly when its place is not in the outline, and nothing at the last place. Otherwise it is the course's lesson document at the next place, or nothing exactly when no document is stored there. |
| Doctypes.PreviousLessonDecoded | riyaz/doctypes.py:64-77 | The same for the previous place, with nothing at the first place. |
| Doctypes.UntitledOutlineSteps | riyaz/doctypes.py:49-62 | On a stored outline whose module has no `title`, which does not read back, the lesson after `a/x` is still looked up at `a/y`. |
| Doctypes.NextLessonPlace | riyaz/doctypes.py:49-62 | On an outline that reads back, a next lesson found has text names, and its place is the outline place after the lesson's own. |
| Doctypes.PreviousLessonAt | riyaz/doctypes.py:64-77 | On an outline that reads back, with the previous place of a lesson's text place known, the previous lesson is the lesson looked up there. |
| Doctypes.NextThenPrevious | riyaz/doctypes.py:49-77 | On an outline that reads back with no place repeated, when `get_lesson` at a lesson's own place returns that lesson, the previous lesson of its next lesson is that lesson again. |
| Doctypes.ModuleWritesMembers | riyaz/doctypes.py:96-110 | The module loop saves a module document for each module and a lesson document for each lesson, and nothing else. |
| Doctypes.ModuleWritesSound | riyaz/doctypes.py:96-110 | Every save of the loop is one of a module's or a lesson's. |
| Doctypes.ModuleWritesComplete | riyaz/doctypes.py:96-110 | Every module and lesson gets its save. |
| Doctypes.SaveFromModel | riyaz/doctypes.py:88-112 | Saving a course definition keeps the store invariant. It returns the course object with its id set, keyed by the course name, holding the definition's fields and the stripped outline. |
| Doctypes.LessonKeyInjective | riyaz/doctypes.py:104 | With module names free of `/`, a lesson key `<module>/<lesson>` names one module and one lesson. |
| Doctypes.SavedCourse | riyaz/doctypes.py:89-93 | After `save_from_model`, `get` finds the course document under its name with the returned id. Its stored outline reads back as the stripped outline. |
| Doctypes.SavedCourseNavigation | riyaz/doctypes.py:89-91 | On the saved course, module and lesson indexes and next and previous places are those of the definition's full outline. |
| Doctypes.SavedModule | riyaz/doctypes.py:96-100 | After `save_from_model`, each module's name has a module document holding the fields of a module of that name and the course's key. |
| Doctypes.SavedModuleData | riyaz/doctypes.py:96-100 | The last save under a module name is the data of a module with that name. |
| Doctypes.SavedLessonData | riyaz/doctypes.py:102-110 | With module names free of `/`, the last save under a lesson key carries this course's key, that module's name and that lesson's name. |
| Doctypes.WrittenLessonStored | riyaz/doctypes.py:102-110 | With module names free of `/`, after the module loop every lesson of the definition has a lesson document of that course, module and name. |
| Doctypes.SavedLessonStored | riyaz/doctypes.py:88-112 | With module names free of `/`, after `save_from_model` the table holds a lesson document of that course, module and name for every lesson of the definition. |
| Doctypes.SavedLessonFound | riyaz/doctypes.py:88-112 | After `save_from_model`, `get_lesson` finds every lesson of the definition, provided module names are free of `/`. |
| Doctypes.LessonPresent | riyaz/doctypes.py:15-18 | A stored lesson document of a course and place is found by `get_lesson`. |
| Doctypes.ModuleKeysShared | riyaz/doctypes.py:98-100 | Module keys are not scoped by course. After a second course with a module of the same name is saved, that module document carries the second course's key. |
| Doctypes.LessonKeysShared | riyaz/doctypes.py:103-110 | Lesson keys are not scoped by course. After a second course is saved, each of its lesson keys holds its own lesson, carrying the second course's key. |
| Disk.KeptParts | riyaz/disk.py:46 | The parts pathlib keeps are non-empty, never `.`, and each one of the given parts. When every given part qualifies, all are kept. |
| Disk.PathRoot | riyaz/disk.py:46 | Defined as the root POSIX pathlib keeps: exactly two leading slashes stay two, one or three or more become one. |
| Disk.NormPath | riyaz/disk.py:46 | Defined as `str(Path(s))`: the root, then the kept parts joined by `/`, or `.` when nothing is left. NormPathIdempotent states that writing it out again changes nothing. |
| Disk.AuthorFilePath | riyaz/disk.py:45-46 | Defined as the `Path` form of `authors/<name>.md`. AuthorFilePathInverse, AuthorFilePathPlain and LeadingSlashSameFile state what that form is. |
| Disk.AuthorFilePathInverse | riyaz/disk.py:45-46 | For a name without `/`, `str(Path(f"authors/{name}.md"))` gives the author's name back. |
| Disk.AuthorFilePathInjective | riyaz/disk.py:45-46 | Different names without `/` have different author files. |
| Disk.NormPathIdempotent | riyaz/disk.py:46 | Writing a path out again changes nothing: `str(Path(str(Path(s))))` is `str(Path(s))`. |
| Disk.AuthorFilePathPlain | riyaz/disk.py:45-46 | For a name without `/`, the author file is written exactly as formatted, `authors/<name>.md`. |
| Disk.LeadingSlashSameFile | riyaz/disk.py:45-46 | A name with a leading `/` has the same author file as the name without it, because `Path` drops the empty part. |
| Disk.AsMapping | riyaz/disk.py:42 | `dict(v)` as `parse_obj` tries it: a mapping is taken as it is, an empty string or list is the empty mapping, and anything else is refused. |
| Disk.FilePathValue | riyaz/disk.py:18 | A lesson path is accepted exactly when it is text whose `Path` form exists and is a regular file. The value kept is that `Path` form, and a form that does not exist is reported as missing. |
| Disk.AuthorValue | riyaz/disk.py:29-35 | An author is accepted exactly when it is `str`-like and its author file exists; the name kept is its `str` form. A value that is not `str`-like keeps pydantic's error; otherwise a missing file is reported with its path. |
| Disk.StrValue | riyaz/disk.py:22-25 | pydantic's `str` accepts exactly text, integers and booleans, and keeps text as it is. `None` is refused as not allowed. |
| Disk.ItemIssues | riyaz/disk.py:26-27 | A list has no issues exactly when no item has any. Each item's issue is reported under that item's index. |
| Disk.StrIssuesNone | riyaz/disk.py:22-25 | A required `str` field has no issue exactly when it is present and `str`-like. |
| Disk.ChapterIssues | riyaz/disk.py:15-18 | Defined as: `None` is refused, a value `dict` cannot convert is not a mapping, and otherwise the issues are those of `name`, `title`, then `lessons`. ChapterIssuesNone states when there are none. |
| Disk.CourseIssues | riyaz/disk.py:21-35 | Defined as: a value `dict` cannot convert gives one issue at `__root__`, and otherwise the issues are those of each field in declaration order. CourseIssuesNone and CourseIssuesOrder state when there are none and in what order they come. |
| Disk.ChapterIssuesNone | riyaz/disk.py:15-18 | A chapter has no issue exactly when it is a mapping with `str`-like `name` and `title` and a list of existing lesson files. |
| Disk.AuthorsIssuesNone | riyaz/disk.py:26-35 | `authors` has no issue exactly when it is a list whose every item is `str`-like and has an existing author file. |
| Disk.OutlineIssuesNone | riyaz/disk.py:15-27 | `outline` has no issue exactly when it is a list of valid chapters. |
| Disk.CourseIssuesNone | riyaz/disk.py:21-35 | Validation finds no issue exactly when the definition is valid. |
| Disk.CourseIssuesOrder | riyaz/disk.py:21-27 | Every issue of a mapping is located under one of the six declared fields, and the issues come in declaration order: `name`, `title`, `short_description`, `description`, then `authors`, then `outline`. So every issue of a text field precedes every issue of `authors`, and those precede every issue of `outline`. |
| Disk.Validate | riyaz/disk.py:38-42 | Parsing succeeds exactly when the definition is valid, and a failure reports at least one issue. A success carries the definition field by field: `str` fields as `str` reads them, `short_description` as given or `None`, the authors in order with existing author files, and each chapter's name, title and lesson paths in order, each path written as `Path` writes it and an existing regular file. |
| Disk.BuildCourseKeeps | riyaz/disk.py:15-42 | The course built from a valid definition carries it field by field, as `Validate` states. |
| Disk.ValidateKeepsAuthors | riyaz/disk.py:26-35 | Author names given as text come back unchanged and in order. |
| Disk.MissingAuthorFile | riyaz/disk.py:29-35 | An author without a file fails validation, with an issue at that author's index naming `authors/<name>.md`. |
| Disk.RequiredFields | riyaz/disk.py:21-27 | A missing `name`, `title`, `description`, `authors` or `outline` fails validation with a field-required issue at that field. |
| Disk.ShortDescriptionOptional | riyaz/disk.py:24 | Leaving `short_description` out is the same as giving `None`. |
| Disk.WrongShapeRefused | riyaz/disk.py:26-27 | An `authors` or `outline` value that is neither a list nor null fails validation, with a not-a-list issue at that field. |
| Disk.ChapterNotDictRefused | riyaz/disk.py:27 | A chapter that is neither a mapping nor `None`, nor an empty string or list, fails validation with a not-a-dict issue at its index. |
| Disk.MissingLessonInChapter | riyaz/disk.py:15-18 | Within a chapter, a lesson path whose `Path` form does not exist is reported at its index in `lessons`. |
| Disk.MissingLessonFile | riyaz/disk.py:18 | A lesson path whose `Path` form does not exist fails validation, with an issue naming that path at its chapter and lesson index. |
| Disk.RootNotMapping | riyaz/disk.py:42 | A definition `dict` cannot convert is refused with exactly one issue, at `__root__`. |
| Disk.EmptyRootFieldsRequired | riyaz/disk.py:21-27 | An empty string or list as the definition is the empty mapping, so validation reports exactly the five required fields as missing, in declaration order. |
| Disk.EmptyChapterFieldsRequired | riyaz/disk.py:15-18 | An empty string or list as a chapter is the empty mapping, so its `name` is reported missing at `outline[i].name`. |
| Poll.SplitLimit | riyaz/static/poll.js:7 | `split(sep, limit)` is the full split cut to at most `limit` pieces. |
| Poll.CourseSegment | riyaz/static/poll.js:7 | A path under `/courses/` splits into at least three pieces. The third is the text after the prefix up to the next `/`. |
| Poll.GetCourseName | riyaz/static/poll.js:1-14 | The result is undefined exactly when the path does not start with `/courses/`. A result never contains `/`. |
| Poll.GetCourseNameMeaning | riyaz/static/poll.js:1-14 | The course name is the text after `/courses/` up to the next `/` or the end. Further segments do not matter, and the length guard never fires. |
| Poll.BarePrefix | riyaz/static/poll.js:8-13 | `/courses/` alone yields the empty name, not undefined. |
| Poll.LessonUrlCourse | riyaz/doctypes.py:155-156 | On a page at a lesson's URL, the script finds that lesson's course, provided the course name is a segment the path keeps as written: unreserved URL characters only, and neither `.` nor `..`. |
| Poll.SlashInCourse | riyaz/doctypes.py:155-156 | A course name with a `/` is not found: the script returns only the part before the first `/`. |

## Left out

- Connections, cursors and `print` logging (riyaz/db.py:42-43, 47, 51-52, 203-206): the model works on a value of the table rather than a database file, and logging has no observable effect on results.
- JSON encoding and decoding of `data`: stored values are kept as they are, and floating-point numbers are not part of the value shape.
- SQL operators other than `=` and `IN`: `where` accepts any operator text, but only these two are given a meaning; any other is an `UnsupportedOperator` error.
- `Document.__getattr__`, `__setattr__`, `__getitem__` and `__setitem__` (riyaz/db.py:74-90): document fields are read as map lookups, and a missing one is an attribute error where the model needs it.
- The model registry (riyaz/db.py:54-60) is a set of registered doctype names; `register_model` itself is left out.
- `Document.find_all`, `Course.lessons`, `Course.modules`, `Module.lessons`, `Module.get_course`, `Lesson.get_module`, `Lesson.get_course` and the `Lesson.index`, `next` and `previous` properties: each is a one-line call of an operation the model covers, through a course lookup.
- `Module.index` (riyaz/doctypes.py:125-128): it passes a keyword `get_course` does not accept, so it always raises.
- Reading the YAML file in `read_config` (riyaz/disk.py:38-42): validation starts from the parsed mapping, and the file system is a parameter.
- pydantic details beyond the fields checked: coercion of floats and bytes to `str`, and resolution of relative paths against the working directory.
- YAML kinds outside the JSON-like value shape, which `yaml.safe_load` can also produce: floats, dates and timestamps, sets, and mapping keys that are not text. pydantic refuses a date in a `str` field. A non-text key makes `cls(**obj)` raise `TypeError` rather than a validation error.
- The polling loop, `fetch` and page reload (riyaz/static/poll.js:16-45): network and browser I/O.
- riyaz/models.py, riyaz/app.py, riyaz/courses.py, the CLI, live reload, riyaz/migrate.py and riyaz/sample_data.py are not part of this model.
- Store.Save: the `raise Exception("bah")` branch for a save whose re-read finds nothing is modelled as a `NotSaved` error, and the contract shows it is never taken.
- Doctypes.NextThenPrevious: assumes no outline place repeats and that the lesson is the first document at its place, because `list.index` and `find` pick first occurrences.
- Query.Where: `\w` is taken as the ASCII word characters. Python's `re` on `str` also accepts Unicode letters and digits, so a name such as `é` is refused here but accepted by the source.
- Query.FieldNameIsInert: states the ASCII form of `\w` only, for the same reason.
- Store.EqCondMeaning: a stored list or object, whose `->>` is its JSON text, is treated as equal to no bound value. The JSON text is not rendered, and object key order is not kept by the value shape.
- Store.EqCondMeaning: stored integers beyond 64 bits are compared as the unbounded integers they are, not as SQLite's lossy reading of them.
- Store.Execute: a text bound in real or exponent notation or with spaces (such as `5.0` or ` 5`), which SQLite also turns into an integer, is refused here.
- Store.BoundValue: the same texts are not read as integers.
- Doctypes.NextLesson: entries are compared by structural equality, whereas Python's `==` also equates `True` with `1` and `False` with `0` in a module or lesson name.
- Doctypes.PreviousLesson: the same comparison as `NextLesson`.
- Doctypes.SaveFromModel: `_course.dict()` is taken to have the subscripted shape `save_from_model` reads: the course name, its other fields, and an outline of modules with `name`, `title` and `lessons`, each lesson with `name` and `title`. riyaz/models.py defines `Course` without `dict()` and calls `register_model` with two arguments at import time, which `db.register_model` does not accept, so the module as written fails to import; the model assumes it imports.
- Doctypes.SaveFromModel is not given a parsed `DiskCourse`. `DiskChapter.lessons` is `List[FilePath]` (riyaz/disk.py:18), so the `dict()` of a parsed `DiskCourse` holds each lesson as a `Path`. `lesson["name"]` in `create_outline_without_content` (riyaz/doctypes.py:166) would then raise `TypeError` before anything is saved. That failure is not modelled.
- Poll.LessonUrlCourse: only course names that are unreserved URL segments are covered. Percent-encoding, the cut at `?` or `#`, and dot segments are not modelled.
- Disk.AuthorFilePathInjective: promised only for names without `/`. `Path` normalises the text, so names with `/` can share a file, as Disk.LeadingSlashSameFile shows for `a` and `/a`.
- Disk.AuthorFilePathInverse: promised only for names without `/`, for the same reason.
- Disk.Validate: `dict()` of a non-empty list of key-value pairs, at the root or for a chapter, is not modelled; such a value is refused as not a mapping.
- Disk.ChapterNotDictRefused: covers the same refusal, so a chapter given as a non-empty list of pairs is reported as not a dict.

## Findings

| source | as written | input that shows it | evidently intended | confidence | as-written member | corrected member |
|---|---|---|---|---|---|---|
| riyaz/db.py:44-46 | The version pieces are compared with `['3', '38']` as strings | `3.100.0` and `10.0.0` are refused; `3.4.0` is accepted | Compare the pieces as numbers, so that exactly versions at least 3.38.0 pass, as the error message says | high, not executed | SqliteVersion.TextualRefuses3100 | SqliteVersion.AcceptsNumericMeaning |
| riyaz/db.py:210-214 | `process_row` builds the object without passing the row's doctype, so an unregistered doctype reads back as `document` | A row `("number", "one")` read by `get` and saved back via `Document.save` creates a second row under doctype `document` | Pass the row's doctype to the constructor, which accepts one, so that reading and saving back updates the same row | medium, not executed | Store.MaterializeLosesDoctype | Store.MaterializeFixedRoundTrip |

=== FILE: disk.dfy ===
/** The course definition read from disk (riyaz/disk.py): the `DiskCourse`
    and `DiskChapter` field requirements as pydantic 1 enforces them on the
    mapping a `course.yml` parses to, and the check that every author has a
    file `authors/<name>.md`.

    The file system is a parameter: the paths that exist and those of them
    that are regular files, relative to the working directory. Validation
    reports every problem it finds, each with its location, in the order the
    fields are declared. */
module Disk {
  import opened Wrappers
  import opened Strings
  import opened Values

  /** The file system: the paths that exist and those of them that are
      regular files, each written as `str(Path(...))` writes it. */
  datatype FileSystem = FileSystem(existing: set<string>, files: set<string>)

  // ---------------------------------------------------------------------------
  // Paths

  /** The parts of a path `pathlib` keeps: empty parts and `.` are dropped. */
  function KeptParts(parts: seq<string>): (r: seq<string>)
    ensures forall k :: 0 <= k < |r| ==> r[k] != "" && r[k] != "." && r[k] in parts
    ensures (forall k :: 0 <= k < |parts| ==> parts[k] != "" && parts[k] != ".") ==> r == parts
    decreases |parts|
  {
    if |parts| == 0 then []
    else
      var rest := KeptParts(parts[1..]);
      assert forall k :: 1 <= k < |parts| ==> parts[k] == parts[1..][k - 1];
      if parts[0] == "" || parts[0] == "." then rest else [parts[0]] + rest
  }

  /** The root `PurePosixPath` keeps: exactly two leading slashes stay two,
      one or three and more become one. */
  function PathRoot(s: string): string
  {
    if |s| >= 2 && s[0] == '/' && s[1] == '/' && (|s| == 2 || s[2] != '/') then "//"
    else if |s| >= 1 && s[0] == '/' then "/"
    else ""
  }

  /** `str(Path(s))`: the root, then the kept parts joined by `/`; `.` when
      nothing is left. `..` is kept as it is. */
  function NormPath(s: string): string
  {
    var parts := KeptParts(Split(s, '/'));
    if |parts| == 0 then (if PathRoot(s) == "" then "." else PathRoot(s))
    else PathRoot(s) + Join(parts, "/")
  }

  lemma JoinStarts(parts: seq<string>, sep: string)
    requires |parts| >= 1
    ensures parts[0] <= Join(parts, sep)
  {
  }

  lemma SplitWithout(s: string, sep: char)
    requires sep !in s
    ensures Split(s, sep) == [s]
  {
  }

  /** A path that is only a root, or `.`, is written as it is. */
  lemma NormPathBare()
    ensures NormPath(".") == "." && NormPath("/") == "/" && NormPath("//") == "//"
  {
    SplitWithout(".", '/');
    SplitWithout("", '/');
    assert "/" == "" + ['/'] + "";
    SplitAfter("", '/', "");
    assert KeptParts(["", ""]) == [] by {
      assert ["", ""][1..] == [""];
      assert KeptParts([""]) == [];
    }
    assert "//" == "" + ['/'] + "/";
    SplitAfter("", '/', "/");
    assert KeptParts(["", "", ""]) == [] by {
      assert ["", "", ""][1..] == ["", ""];
      assert ["", ""][1..] == [""];
      assert KeptParts([""]) == [];
    }
  }

  lemma NormPathFrom(s: string, root: string, parts: seq<string>)
    requires |parts| >= 1 && PathRoot(s) == root && KeptParts(Split(s, '/')) == parts
    ensures NormPath(s) == root + Join(parts, "/")
  {
  }

  lemma KeptPartsSkipEmpty(parts: seq<string>)
    ensures KeptParts([""] + parts) == KeptParts(parts)
  {
    assert ([""] + parts)[1..] == parts;
  }

  lemma SplitLeadingSlash(s: string)
    ensures Split("/" + s, '/') == [""] + Split(s, '/')
  {
    assert "/" + s == "" + ['/'] + s;
    SplitAfter("", '/', s);
  }

  /** Kept parts joined by `/` start with the first part. */
  lemma JoinedParts(parts: seq<string>)
    requires |parts| >= 1
    requires forall k :: 0 <= k < |parts| ==> parts[k] != "" && parts[k] != "." && '/' !in parts[k]
    ensures var j := Join(parts, "/"); |j| > 0 && j[0] != '/' && KeptParts(Split(j, '/')) == parts
  {
    var j := Join(parts, "/");
    SplitJoin(parts, '/');
    JoinStarts(parts, "/");
    assert j[0] == parts[0][0] && j[0] != '/' by {
      assert parts[0][0] in parts[0];
    }
  }

  lemma RootOfSlash(j: string)
    requires |j| > 0 && j[0] != '/'
    ensures PathRoot("/" + j) == "/" && PathRoot("//" + j) == "//" && PathRoot(j) == ""
  {
  }

  /** No root, one slash or two in front of a path `j` whose kept parts are
      `parts`: the root stays and the parts are joined. */
  lemma NormPathNoRoot(j: string, parts: seq<string>)
    requires |parts| >= 1 && |j| > 0 && j[0] != '/' && KeptParts(Split(j, '/')) == parts
    ensures NormPath(j) == Join(parts, "/")
  {
    RootOfSlash(j);
    NormPathFrom(j, "", parts);
  }

  lemma NormPathSlashRoot(j: string, parts: seq<string>)
    requires |parts| >= 1 && |j| > 0 && j[0] != '/' && KeptParts(Split(j, '/')) == parts
    ensures NormPath("/" + j) == "/" + Join(parts, "/")
  {
    RootOfSlash(j);
    SplitLeadingSlash(j);
    KeptPartsSkipEmpty(Split(j, '/'));
    NormPathFrom("/" + j, "/", parts);
  }

  lemma SplitDoubleSlash(j: string)
    ensures Split("//" + j, '/') == ["", ""] + Split(j, '/')
  {
    assert "//" + j == "/" + ("/" + j);
    SplitLeadingSlash("/" + j);
    SplitLeadingSlash(j);
    assert [""] + ([""] + Split(j, '/')) == ["", ""] + Split(j, '/');
  }

  lemma KeptPartsSkipTwo(parts: seq<string>)
    ensures KeptParts(["", ""] + parts) == KeptParts(parts)
  {
    assert ["", ""] + parts == [""] + ([""] + parts);
    KeptPartsSkipEmpty([""] + parts);
    KeptPartsSkipEmpty(parts);
  }

  lemma NormPathDoubleRoot(j: string, parts: seq<string>)
    requires |parts| >= 1 && |j| > 0 && j[0] != '/' && KeptParts(Split(j, '/')) == parts
    ensures NormPath("//" + j) == "//" + Join(parts, "/")
  {
    RootOfSlash(j);
    SplitDoubleSlash(j);
    KeptPartsSkipTwo(Split(j, '/'));
    NormPathFrom("//" + j, "//", parts);
  }

  /** A root followed by kept parts joined by `/` is written as it is. */
  lemma NormPathJoined(root: string, parts: seq<string>)
    requires root == "" || root == "/" || root == "//"
    requires |parts| >= 1
    requires forall k :: 0 <= k < |parts| ==> parts[k] != "" && parts[k] != "." && '/' !in parts[k]
    ensures NormPath(root + Join(parts, "/")) == root + Join(parts, "/")
  {
    var j := Join(parts, "/");
    JoinedParts(parts);
    if root == "" {
      NormPathNoRoot(j, parts);
      assert "" + j == j;
    } else if root == "/" {
      NormPathSlashRoot(j, parts);
    } else {
      NormPathDoubleRoot(j, parts);
    }
  }

  /** Writing a path out again changes nothing: `str(Path(str(Path(s))))` is
      `str(Path(s))`. */
  lemma NormPathIdempotent(s: string)
    ensures NormPath(NormPath(s)) == NormPath(s)
  {
    var parts := KeptParts(Split(s, '/'));
    if |parts| == 0 {
      NormPathBare();
    } else {
      forall k | 0 <= k < |parts| ensures '/' !in parts[k] {
        var m :| 0 <= m < |Split(s, '/')| && Split(s, '/')[m] == parts[k];
      }
      NormPathJoined(PathRoot(s), parts);
    }
  }

  // ---------------------------------------------------------------------------
  // Author files

  /** `get_author_file_path(name)`: the path `authors/<name>.md`. */
  function AuthorFilePath(name: string): string
  {
    NormPath("authors/" + name + ".md")
  }

  /** The author an author file path names, if it has that shape. */
  function AuthorOf(path: string): Option<string>
  {
    if |path| >= 11 && path[..8] == "authors/" && path[|path| - 3..] == ".md" then Some(path[8..|path| - 3])
    else None
  }

  /** `<name>.md` for a name without `/` is one part pathlib keeps. */
  lemma MdFile(name: string)
    requires '/' !in name
    ensures '/' !in name + ".md" && name + ".md" != "" && name + ".md" != "."
  {
    var file := name + ".md";
    assert forall k :: 0 <= k < |file| ==> file[k] == if k < |name| then name[k] else ".md"[k - |name|];
    assert |file| >= 3;
  }

  /** For a name without `/`, the path is written as formatted. */
  lemma AuthorFilePathPlain(name: string)
    requires '/' !in name
    ensures AuthorFilePath(name) == "authors/" + name + ".md"
  {
    var file := name + ".md";
    MdFile(name);
    var path := "authors/" + name + ".md";
    assert path == "authors" + ['/'] + file;
    SplitAfter("authors", '/', file);
    SplitWithout(file, '/');
    assert KeptParts(["authors", file]) == ["authors", file];
    assert path[0] == 'a';
    NormPathFrom(path, "", ["authors", file]);
    assert Join(["authors", file], "/") == "authors" + "/" + file;
  }

  /** For a name without `/`, the author file path gives the name back. */
  lemma AuthorFilePathInverse(name: string)
    requires '/' !in name
    ensures AuthorOf(AuthorFilePath(name)) == Some(name)
  {
    AuthorFilePathPlain(name);
    var p := AuthorFilePath(name);
    assert p[..8] == "authors/" && p[|p| - 3..] == ".md" && p[8..|p| - 3] == name;
  }

  /** Distinct names without `/` have distinct author files. */
  lemma AuthorFilePathInjective(a: string, b: string)
    requires '/' !in a && '/' !in b
    requires AuthorFilePath(a) == AuthorFilePath(b)
    ensures a == b
  {
    AuthorFilePathInverse(a);
    AuthorFilePathInverse(b);
  }

  lemma SplitDoubledSlash(file: string)
    requires '/' !in file
    ensures Split("authors" + ['/'] + ("/" + file), '/') == ["authors", "", file]
  {
    SplitAfter("authors", '/', "/" + file);
    SplitLeadingSlash(file);
    SplitWithout(file, '/');
  }

  lemma KeptDoubled(file: string)
    requires file != "" && file != "."
    ensures KeptParts(["authors", "", file]) == ["authors", file]
  {
    assert ["authors", "", file][1..] == [""] + [file];
    KeptPartsSkipEmpty([file]);
  }

  lemma NormDoubled(file: string)
    requires '/' !in file && file != "" && file != "."
    ensures NormPath("authors" + ['/'] + ("/" + file)) == "authors" + "/" + file
  {
    var path := "authors" + ['/'] + ("/" + file);
    SplitDoubledSlash(file);
    KeptDoubled(file);
    assert path[0] == 'a';
    NormPathFrom(path, "", ["authors", file]);
    assert Join(["authors", file], "/") == "authors" + "/" + file;
  }

  /** A name with a leading `/` shares the file of the name without it:
      `authors//<name>.md` is written `authors/<name>.md`. */
  lemma LeadingSlashSameFile(name: string)
    requires '/' !in name
    ensures AuthorFilePath("/" + name) == AuthorFilePath(name)
  {
    AuthorFilePathPlain(name);
    MdFile(name);
    NormDoubled(name + ".md");
    assert "authors/" + ("/" + name) + ".md" == "authors" + ['/'] + ("/" + (name + ".md"));
    assert "authors/" + name + ".md" == "authors" + "/" + (name + ".md");
  }

  // ---------------------------------------------------------------------------
  // Problems and where they are

  /** pydantic's error kinds, plus the author validator's own. */
  datatype Problem =
    | FieldRequired                     // "field required"
    | NoneNotAllowed                    // "none is not an allowed value"
    | NotStr                            // "str type expected"
    | NotList                           // "value is not a valid list"
    | NotDict                           // "value is not a valid dict"
    | ExpectedDict                      // "DiskCourse expected dict not ...", at `__root__`
    | NotPath                           // "value is not a valid path"
    | PathMissing(path: string)         // "file or directory at path ... does not exist"
    | NotAFile(path: string)            // "path ... does not point to a file"
    | AuthorFileMissing(path: string)   // "author file ... does not exist"

  datatype Loc = Field(name: string) | Item(index: nat)

  datatype Issue = Issue(loc: seq<Loc>, problem: Problem)

  /** The issues of a nested value, located under `at`. */
  function Within(at: seq<Loc>, issues: seq<Issue>): (r: seq<Issue>)
    ensures |r| == |issues|
    ensures forall n :: 0 <= n < |issues| ==> r[n] == Issue(at + issues[n].loc, issues[n].problem)
  {
    seq(|issues|, n requires 0 <= n < |issues| => Issue(at + issues[n].loc, issues[n].problem))
  }

  /** A failed check of a single value as an issue at that value. */
  function Reported<T>(r: Result<T, Problem>): seq<Issue>
  {
    if r.Ok? then [] else [Issue([], r.error)]
  }

  /** The issues of every item from the `i`-th on, each located by its index
      under `at`. */
  function ItemIssues(items: seq<Value>, at: seq<Loc>, issuesOf: Value -> seq<Issue>, i: nat): (r: seq<Issue>)
    requires i <= |items|
    ensures |r| == 0 <==> forall k :: i <= k < |items| ==> |issuesOf(items[k])| == 0
    ensures forall k, n :: i <= k < |items| && 0 <= n < |issuesOf(items[k])| ==>
              Issue(at + [Item(k)] + issuesOf(items[k])[n].loc, issuesOf(items[k])[n].problem) in r
    decreases |items| - i
  {
    if i == |items| then []
    else
      var here := Within(at + [Item(i)], issuesOf(items[i]));
      var rest := ItemIssues(items, at, issuesOf, i + 1);
      assert forall n :: 0 <= n < |issuesOf(items[i])| ==>
               here[n] == Issue(at + [Item(i)] + issuesOf(items[i])[n].loc, issuesOf(items[i])[n].problem);
      here + rest
  }

  // ---------------------------------------------------------------------------
  // Field types

  /** pydantic's `str`: text as it is, an integer or a boolean as Python's
      `str` writes it; `None`, a list or a mapping is refused. */
  function StrValue(v: Value): (r: Result<string, Problem>)
    ensures r.Ok? <==> v.Text? || v.Int? || v.Bool?
    ensures v.Text? ==> r == Ok(v.s)
    ensures v.Null? ==> r == Err(NoneNotAllowed)
  {
    match v
    case Null => Err(NoneNotAllowed)
    case Text(s) => Ok(s)
    case Int(i) => Ok(IntToString(i))
    case Bool(b) => Ok(if b then "True" else "False")
    case _ => Err(NotStr)
  }

  /** pydantic's `List[...]`: the items of a list. */
  function ListItems(v: Value): Result<seq<Value>, Problem>
  {
    if v.Arr? then Ok(v.items) else if v.Null? then Err(NoneNotAllowed) else Err(NotList)
  }

  /** pydantic's `FilePath`: `Path(v)`, which must exist and be a regular
      file; the path kept is the one `Path` writes. */
  function FilePathValue(v: Value, fs: FileSystem): (r: Result<string, Problem>)
    ensures r.Ok? <==> LessonPathOk(v, fs)
    ensures r.Ok? ==> r.value == NormPath(v.s)
    ensures v.Text? && NormPath(v.s) !in fs.existing ==> r == Err(PathMissing(NormPath(v.s)))
  {
    if v.Null? then Err(NoneNotAllowed)
    else if !v.Text? then Err(NotPath)
    else
      var p := NormPath(v.s);
      if p !in fs.existing then Err(PathMissing(p))
      else if p !in fs.files then Err(NotAFile(p))
      else Ok(p)
  }

  /** `dict(v)` as pydantic tries it on a value that is not a mapping: an
      empty string or list is the empty mapping, and anything else is
      refused. */
  function AsMapping(v: Value): (r: Option<Fields>)
    ensures v.Obj? ==> r == Some(v.fields)
    ensures v == Text("") || v == Arr([]) ==> r == Some(map[])
    ensures r.Some? <==> v.Obj? || v == Text("") || v == Arr([])
  {
    match v
    case Obj(fields) => Some(fields)
    case Text(s) => if |s| == 0 then Some(map[]) else None
    case Arr(items) => if |items| == 0 then Some(map[]) else None
    case _ => None
  }

  /** An `authors` item: a `str`, whose author file must exist. */
  function AuthorValue(v: Value, fs: FileSystem): (r: Result<string, Problem>)
    ensures r.Ok? <==> AuthorOk(v, fs)
    ensures r.Ok? ==> r.value == StrValue(v).value
    ensures StrValue(v).Err? ==> r == Err(StrValue(v).error)
    ensures AuthorOk(v, fs) || StrValue(v).Err? || r == Err(AuthorFileMissing(AuthorFilePath(StrValue(v).value)))
  {
    var name :- StrValue(v);
    if AuthorFilePath(name) in fs.existing then Ok(name) else Err(AuthorFileMissing(AuthorFilePath(name)))
  }

  /** The issues of a required `str` field. */
  function StrIssues(fields: Fields, name: string): seq<Issue>
  {
    if name !in fields then [Issue([Field(name)], FieldRequired)]
    else Within([Field(name)], Reported(StrValue(fields[name])))
  }

  /** The issues of an `Optional[str]` field, which may be absent or `None`. */
  function OptionalStrIssues(fields: Fields, name: string): seq<Issue>
  {
    if name !in fields || fields[name].Null? then []
    else Within([Field(name)], Reported(StrValue(fields[name])))
  }

  /** The issues of a required list field whose items `issuesOf` checks. */
  function ListIssues(fields: Fields, name: string, issuesOf: Value -> seq<Issue>): seq<Issue>
  {
    if name !in fields then [Issue([Field(name)], FieldRequired)]
    else
      var items := ListItems(fields[name]);
      if items.Err? then [Issue([Field(name)], items.error)]
      else ItemIssues(items.value, [Field(name)], issuesOf, 0)
  }

  // ---------------------------------------------------------------------------
  // The models

  datatype DiskChapter = DiskChapter(name: string, title: string, lessons: seq<string>)

  datatype DiskCourse = DiskCourse(
    name: string,
    title: string,
    shortDescription: Option<string>,
    description: string,
    authors: seq<string>,
    outline: seq<DiskChapter>)

  /** The issues of a `DiskChapter`, relative to the chapter. */
  function ChapterIssues(v: Value, fs: FileSystem): seq<Issue>
  {
    if v.Null? then [Issue([], NoneNotAllowed)]
    else
      match AsMapping(v)
      case None => [Issue([], NotDict)]
      case Some(f) =>
        StrIssues(f, "name") + StrIssues(f, "title") + ListIssues(f, "lessons", LessonCheck(fs))
  }

  function LessonCheck(fs: FileSystem): Value -> seq<Issue>
  {
    (p: Value) => Reported(FilePathValue(p, fs))
  }

  function AuthorCheck(fs: FileSystem): Value -> seq<Issue>
  {
    (a: Value) => Reported(AuthorValue(a, fs))
  }

  function ChapterCheck(fs: FileSystem): Value -> seq<Issue>
  {
    (c: Value) => ChapterIssues(c, fs)
  }

  /** The issues of a `DiskCourse`, field by field in declaration order;
      `parse_obj` refuses a value `dict` cannot convert at `__root__`. */
  function CourseIssues(v: Value, fs: FileSystem): seq<Issue>
  {
    match AsMapping(v)
    case None => [Issue([Field("__root__")], ExpectedDict)]
    case Some(f) =>
      StrIssues(f, "name") + StrIssues(f, "title") + OptionalStrIssues(f, "short_description")
      + StrIssues(f, "description")
      + ListIssues(f, "authors", AuthorCheck(fs))
      + ListIssues(f, "outline", ChapterCheck(fs))
  }

  // ---------------------------------------------------------------------------
  // What a valid definition is

  predicate StrOk(fields: Fields, name: string)
  {
    name in fields && StrValue(fields[name]).Ok?
  }

  predicate OptionalStrOk(fields: Fields, name: string)
  {
    name !in fields || fields[name].Null? || StrValue(fields[name]).Ok?
  }

  predicate AuthorOk(v: Value, fs: FileSystem)
  {
    StrValue(v).Ok? && AuthorFilePath(StrValue(v).value) in fs.existing
  }

  predicate LessonPathOk(v: Value, fs: FileSystem)
  {
    v.Text? && NormPath(v.s) in fs.existing && NormPath(v.s) in fs.files
  }

  predicate ChapterOk(v: Value, fs: FileSystem)
  {
    && v.Obj? && StrOk(v.fields, "name") && StrOk(v.fields, "title")
    && "lessons" in v.fields && v.fields["lessons"].Arr?
    && forall k :: 0 <= k < |v.fields["lessons"].items| ==> LessonPathOk(v.fields["lessons"].items[k], fs)
  }

  /** A course definition pydantic accepts: a mapping with text-like `name`,
      `title` and `description`, an optional `short_description`, a list of
      authors each with an author file, and a list of chapters each with a
      text-like `name` and `title` and a list of lesson files. */
  predicate CourseValid(v: Value, fs: FileSystem)
  {
    && v.Obj?
    && StrOk(v.fields, "name") && StrOk(v.fields, "title") && StrOk(v.fields, "description")
    && OptionalStrOk(v.fields, "short_description")
    && "authors" in v.fields && v.fields["authors"].Arr?
    && (forall i :: 0 <= i < |v.fields["authors"].items| ==> AuthorOk(v.fields["authors"].items[i], fs))
    && "outline" in v.fields && v.fields["outline"].Arr?
    && (forall i :: 0 <= i < |v.fields["outline"].items| ==> ChapterOk(v.fields["outline"].items[i], fs))
  }

  lemma StrIssuesNone(fields: Fields, name: string)
    ensures |StrIssues(fields, name)| == 0 <==> StrOk(fields, name)
  {
  }

  lemma ChapterIssuesNone(v: Value, fs: FileSystem)
    ensures |ChapterIssues(v, fs)| == 0 <==> ChapterOk(v, fs)
  {
    if v.Obj? && "lessons" in v.fields && v.fields["lessons"].Arr? {
      var items := v.fields["lessons"].items;
      assert ListIssues(v.fields, "lessons", LessonCheck(fs)) == ItemIssues(items, [Field("lessons")], LessonCheck(fs), 0);
      assert forall k :: 0 <= k < |items| ==> (|LessonCheck(fs)(items[k])| == 0 <==> LessonPathOk(items[k], fs));
    }
  }

  lemma AuthorsIssuesNone(f: Fields, fs: FileSystem)
    ensures |ListIssues(f, "authors", AuthorCheck(fs))| == 0 <==>
      && "authors" in f && f["authors"].Arr?
      && forall i :: 0 <= i < |f["authors"].items| ==> AuthorOk(f["authors"].items[i], fs)
  {
    if "authors" in f && f["authors"].Arr? {
      var items := f["authors"].items;
      assert ListIssues(f, "authors", AuthorCheck(fs)) == ItemIssues(items, [Field("authors")], AuthorCheck(fs), 0);
      assert forall k :: 0 <= k < |items| ==> (|AuthorCheck(fs)(items[k])| == 0 <==> AuthorOk(items[k], fs));
    }
  }

  lemma OutlineIssuesNone(f: Fields, fs: FileSystem)
    ensures |ListIssues(f, "outline", ChapterCheck(fs))| == 0 <==>
      && "outline" in f && f["outline"].Arr?
      && forall i :: 0 <= i < |f["outline"].items| ==> ChapterOk(f["outline"].items[i], fs)
  {
    if "outline" in f && f["outline"].Arr? {
      var items := f["outline"].items;
      assert ListIssues(f, "outline", ChapterCheck(fs)) == ItemIssues(items, [Field("outline")], ChapterCheck(fs), 0);
      forall k | 0 <= k < |items| ensures |ChapterCheck(fs)(items[k])| == 0 <==> ChapterOk(items[k], fs) {
        ChapterIssuesNone(items[k], fs);
      }
    }
  }

  /** Validation finds no issue exactly when the definition is valid. */
  lemma CourseIssuesNone(v: Value, fs: FileSystem)
    ensures |CourseIssues(v, fs)| == 0 <==> CourseValid(v, fs)
  {
    if v.Obj? {
      AuthorsIssuesNone(v.fields, fs);
      OutlineIssuesNone(v.fields, fs);
    }
  }

  // ---------------------------------------------------------------------------
  // Validation

  function BuildChapter(v: Value, fs: FileSystem): (c: DiskChapter)
    requires ChapterOk(v, fs)
  {
    var items := v.fields["lessons"].items;
    DiskChapter(StrValue(v.fields["name"]).value, StrValue(v.fields["title"]).value,
                seq(|items|, k requires 0 <= k < |items| => NormPath(items[k].s)))
  }

  function BuildCourse(v: Value, fs: FileSystem): (c: DiskCourse)
    requires CourseValid(v, fs)
  {
    var f := v.fields;
    var authors := f["authors"].items;
    var chapters := f["outline"].items;
    DiskCourse(
      StrValue(f["name"]).value,
      StrValue(f["title"]).value,
      if "short_description" !in f || f["short_description"].Null? then None
      else Some(StrValue(f["short_description"]).value),
      StrValue(f["description"]).value,
      seq(|authors|, i requires 0 <= i < |authors| => StrValue(authors[i]).value),
      seq(|chapters|, i requires 0 <= i < |chapters| => BuildChapter(chapters[i], fs)))
  }

  /** `DiskCourse.parse_obj(config)`: the course, or every issue found. The
      course carries the given values as `str` reads them, the authors in
      order, and each chapter's lesson paths in order as `Path` writes them;
      each of those is an existing regular file. */
  function Validate(v: Value, fs: FileSystem): (r: Result<DiskCourse, seq<Issue>>)
    ensures r.Ok? <==> CourseValid(v, fs)
    ensures r.Err? ==> |r.error| > 0
    ensures r.Ok? ==> CourseKept(v, fs, r.value)
  {
    var issues := CourseIssues(v, fs);
    CourseIssuesNone(v, fs);
    if |issues| == 0 then
      BuildCourseKeeps(v, fs);
      Ok(BuildCourse(v, fs))
    else Err(issues)
  }

  /** The chapter `c` carries the chapter value `v`: its name and title as
      `str` reads them, and its lesson files in order, each an existing
      regular file written as `Path` writes it. */
  predicate ChapterKept(v: Value, fs: FileSystem, c: DiskChapter)
    requires ChapterOk(v, fs)
  {
    var items := v.fields["lessons"].items;
    && c.name == StrValue(v.fields["name"]).value
    && c.title == StrValue(v.fields["title"]).value
    && |c.lessons| == |items|
    && forall k :: 0 <= k < |items| ==>
         c.lessons[k] == NormPath(items[k].s) && c.lessons[k] in fs.existing && c.lessons[k] in fs.files
  }

  /** The course `c` carries the definition `v`, field by field. */
  predicate CourseKept(v: Value, fs: FileSystem, c: DiskCourse)
    requires CourseValid(v, fs)
  {
    var f := v.fields;
    var authors := f["authors"].items;
    var chapters := f["outline"].items;
    && c.name == StrValue(f["name"]).value
    && c.title == StrValue(f["title"]).value
    && c.description == StrValue(f["description"]).value
    && (c.shortDescription.None? <==> "short_description" !in f || f["short_description"].Null?)
    && (c.shortDescription.Some? ==> c.shortDescription.value == StrValue(f["short_description"]).value)
    && |c.authors| == |authors|
    && (forall i :: 0 <= i < |authors| ==>
          c.authors[i] == StrValue(authors[i]).value && AuthorFilePath(c.authors[i]) in fs.existing)
    && |c.outline| == |chapters|
    && forall i :: 0 <= i < |chapters| ==> ChapterKept(chapters[i], fs, c.outline[i])
  }

  /** The built course carries the definition it was built from. */
  lemma BuildCourseKeeps(v: Value, fs: FileSystem)
    requires CourseValid(v, fs)
    ensures CourseKept(v, fs, BuildCourse(v, fs))
  {
    var c := BuildCourse(v, fs);
    var chapters := v.fields["outline"].items;
    forall i | 0 <= i < |chapters|
      ensures ChapterKept(chapters[i], fs, c.outline[i])
    {
      assert c.outline[i] == BuildChapter(chapters[i], fs);
    }
  }

  /** Author names given as text come back unchanged and in order. */
  lemma ValidateKeepsAuthors(v: Value, fs: FileSystem, names: seq<string>)
    requires v.Obj? && "authors" in v.fields && v.fields["authors"] == TextList(names)
    requires Validate(v, fs).Ok?
    ensures Validate(v, fs).value.authors == names
  {
  }

  /** An author whose file is missing fails validation, and the issue names
      the file. */
  lemma MissingAuthorFile(v: Value, fs: FileSystem, i: nat)
    requires v.Obj? && "authors" in v.fields && v.fields["authors"].Arr?
    requires i < |v.fields["authors"].items|
    requires var a := v.fields["authors"].items[i];
      StrValue(a).Ok? && AuthorFilePath(StrValue(a).value) !in fs.existing
    ensures var a := v.fields["authors"].items[i];
      && Validate(v, fs).Err?
      && Issue([Field("authors"), Item(i)], AuthorFileMissing(AuthorFilePath(StrValue(a).value))) in Validate(v, fs).error
  {
    var f := v.fields;
    var items := f["authors"].items;
    var issuesOf := AuthorCheck(fs);
    assert ListIssues(f, "authors", issuesOf) == ItemIssues(items, [Field("authors")], issuesOf, 0);
    assert issuesOf(items[i])[0] == Issue([], AuthorFileMissing(AuthorFilePath(StrValue(items[i]).value)));
    assert [Field("authors")] + [Item(i)] + [] == [Field("authors"), Item(i)];
    var e := StrIssues(f, "name") + StrIssues(f, "title") + OptionalStrIssues(f, "short_description")
             + StrIssues(f, "description");
    assert CourseIssues(v, fs) == e + ListIssues(f, "authors", issuesOf) + ListIssues(f, "outline", ChapterCheck(fs));
  }

  /** The issues of the scalar fields, then of `authors`, then of `outline`. */
  lemma CourseIssuesParts(v: Value, fs: FileSystem)
    requires v.Obj?
    ensures var f := v.fields;
      CourseIssues(v, fs) == StrIssues(f, "name") + StrIssues(f, "title") + OptionalStrIssues(f, "short_description")
                             + StrIssues(f, "description") + ListIssues(f, "authors", AuthorCheck(fs))
                             + ListIssues(f, "outline", ChapterCheck(fs))
  {
  }

  /** Where `DiskCourse` declares the field an issue is located under: 0 to
      5 from `name` to `outline`, and 6 for any other location. */
  function FieldRank(x: Issue): nat
  {
    if |x.loc| == 0 || !x.loc[0].Field? then 6
    else
      match x.loc[0].name
      case "name" => 0
      case "title" => 1
      case "short_description" => 2
      case "description" => 3
      case "authors" => 4
      case "outline" => 5
      case _ => 6
  }

  /** Every issue is located under the field `name`. */
  predicate AllUnder(issues: seq<Issue>, name: string)
  {
    forall n :: 0 <= n < |issues| ==> |issues[n].loc| > 0 && issues[n].loc[0] == Field(name)
  }

  /** The issues of every item are located under the list's field. */
  lemma {:induction false} ItemIssuesUnder(items: seq<Value>, name: string, issuesOf: Value -> seq<Issue>, i: nat)
    requires i <= |items|
    ensures AllUnder(ItemIssues(items, [Field(name)], issuesOf, i), name)
    decreases |items| - i
  {
    if i < |items| {
      ItemIssuesUnder(items, name, issuesOf, i + 1);
      var at := [Field(name)] + [Item(i)];
      var here := Within(at, issuesOf(items[i]));
      forall n | 0 <= n < |here| ensures |here[n].loc| > 0 && here[n].loc[0] == Field(name) {
        assert here[n].loc == at + issuesOf(items[i])[n].loc;
      }
      assert ItemIssues(items, [Field(name)], issuesOf, i) == here + ItemIssues(items, [Field(name)], issuesOf, i + 1);
    }
  }

  lemma StrIssuesUnder(f: Fields, name: string)
    ensures AllUnder(StrIssues(f, name), name)
    ensures AllUnder(OptionalStrIssues(f, name), name)
  {
  }

  lemma {:induction false} ListIssuesUnder(f: Fields, name: string, issuesOf: Value -> seq<Issue>)
    ensures AllUnder(ListIssues(f, name, issuesOf), name)
  {
    if name in f && ListItems(f[name]).Ok? {
      ItemIssuesUnder(ListItems(f[name]).value, name, issuesOf, 0);
    }
  }

  /** The issues are located under fields in declaration order. */
  predicate RanksInOrder(r: seq<Issue>)
  {
    forall a, b :: 0 <= a < b < |r| ==> FieldRank(r[a]) <= FieldRank(r[b])
  }

  /** No issue is located under a field declared after rank `k`. */
  predicate RanksUpTo(r: seq<Issue>, k: nat)
  {
    forall a :: 0 <= a < |r| ==> FieldRank(r[a]) <= k
  }

  /** Issues located under fields of ranks up to `k`, then issues under the
      field of rank `k`, keep the ranks in order. */
  lemma {:induction false} RanksAppend(s: seq<Issue>, t: seq<Issue>, name: string, k: nat)
    requires RanksInOrder(s) && RanksUpTo(s, k)
    requires AllUnder(t, name) && FieldRank(Issue([Field(name)], FieldRequired)) == k
    ensures RanksInOrder(s + t) && RanksUpTo(s + t, k)
  {
  }

  /** A course definition's issues follow the order `DiskCourse` declares
      its fields in: each is located under one of the six fields, and none
      comes before an issue of a field declared earlier. So every issue of
      `name`, `title`, `short_description` or `description` comes before
      every issue of `authors`, and those before every issue of `outline`. */
  lemma {:induction false} CourseIssuesOrder(v: Value, fs: FileSystem)
    requires v.Obj?
    ensures forall a :: 0 <= a < |CourseIssues(v, fs)| ==> FieldRank(CourseIssues(v, fs)[a]) < 6
    ensures forall a, b :: 0 <= a < b < |CourseIssues(v, fs)| ==>
              FieldRank(CourseIssues(v, fs)[a]) <= FieldRank(CourseIssues(v, fs)[b])
  {
    var f := v.fields;
    var p0, p1 := StrIssues(f, "name"), StrIssues(f, "title");
    var p2, p3 := OptionalStrIssues(f, "short_description"), StrIssues(f, "description");
    var p4, p5 := ListIssues(f, "authors", AuthorCheck(fs)), ListIssues(f, "outline", ChapterCheck(fs));
    StrIssuesUnder(f, "name");
    RanksAppend([], p0, "name", 0);
    StrIssuesUnder(f, "title");
    RanksAppend(p0, p1, "title", 1);
    StrIssuesUnder(f, "short_description");
    RanksAppend(p0 + p1, p2, "short_description", 2);
    StrIssuesUnder(f, "description");
    RanksAppend(p0 + p1 + p2, p3, "description", 3);
    ListIssuesUnder(f, "authors", AuthorCheck(fs));
    RanksAppend(p0 + p1 + p2 + p3, p4, "authors", 4);
    ListIssuesUnder(f, "outline", ChapterCheck(fs));
    RanksAppend(p0 + p1 + p2 + p3 + p4, p5, "outline", 5);
    CourseIssuesParts(v, fs);
    var r := p0 + p1 + p2 + p3 + p4 + p5;
    assert RanksInOrder(r) && RanksUpTo(r, 5);
  }

  /** Each required field that is absent is reported as required. */
  lemma RequiredFields(v: Value, fs: FileSystem, name: string)
    requires v.Obj? && name !in v.fields
    ensures name in {"name", "title", "description", "authors", "outline"} ==>
              Validate(v, fs).Err? && Issue([Field(name)], FieldRequired) in Validate(v, fs).error
  {
    CourseIssuesParts(v, fs);
  }

  /** `short_description` may be left out: leaving it out is the same as
      giving `None`. */
  lemma ShortDescriptionOptional(v: Value, fs: FileSystem)
    requires v.Obj? && "short_description" !in v.fields
    ensures Validate(v, fs).Ok? == CourseValid(v.(fields := v.fields["short_description" := Null]), fs)
  {
    var f := v.fields;
    var f' := f["short_description" := Null];
    assert OptionalStrOk(f, "short_description") && OptionalStrOk(f', "short_description");
    SameOtherFields(v, v.(fields := f'), fs);
  }

  /** Validity reads `short_description` only through `OptionalStrOk`. */
  lemma SameOtherFields(v: Value, w: Value, fs: FileSystem)
    requires v.Obj? && w.Obj?
    requires forall k :: k != "short_description" ==> (k in v.fields <==> k in w.fields)
    requires forall k :: k != "short_description" && k in v.fields ==> v.fields[k] == w.fields[k]
    requires OptionalStrOk(v.fields, "short_description") == OptionalStrOk(w.fields, "short_description")
    ensures CourseValid(v, fs) == CourseValid(w, fs)
  {
    assert StrOk(v.fields, "name") == StrOk(w.fields, "name");
    assert StrOk(v.fields, "title") == StrOk(w.fields, "title");
    assert StrOk(v.fields, "description") == StrOk(w.fields, "description");
    assert ("authors" in v.fields) == ("authors" in w.fields);
    assert ("outline" in v.fields) == ("outline" in w.fields);
  }

  /** An `authors` or `outline` value that is not a list is refused with an
      issue at that field. */
  lemma WrongShapeRefused(v: Value, fs: FileSystem, name: string)
    requires v.Obj? && (name == "authors" || name == "outline")
    requires name in v.fields && !v.fields[name].Arr? && !v.fields[name].Null?
    ensures Validate(v, fs).Err? && Issue([Field(name)], NotList) in Validate(v, fs).error
  {
    var issuesOf := if name == "authors" then AuthorCheck(fs) else ChapterCheck(fs);
    assert ListIssues(v.fields, name, issuesOf) == [Issue([Field(name)], NotList)];
    ListIssueReported(v, fs, name, Issue([Field(name)], NotList));
  }

  /** A chapter that is neither a mapping nor `None`, nor the empty string
      or list `dict` turns into an empty mapping, is refused with an issue at
      `outline[i]`. */
  lemma ChapterNotDictRefused(v: Value, fs: FileSystem, i: nat)
    requires v.Obj? && "outline" in v.fields && v.fields["outline"].Arr? && i < |v.fields["outline"].items|
    requires AsMapping(v.fields["outline"].items[i]).None? && !v.fields["outline"].items[i].Null?
    ensures Validate(v, fs).Err? && Issue([Field("outline"), Item(i)], NotDict) in Validate(v, fs).error
  {
    var items := v.fields["outline"].items;
    assert ChapterCheck(fs)(items[i])[0] == Issue([], NotDict);
    ListIssueAt(v.fields, "outline", ChapterCheck(fs), i, 0);
    assert [Field("outline"), Item(i)] + [] == [Field("outline"), Item(i)];
    ListIssueReported(v, fs, "outline", Issue([Field("outline"), Item(i)], NotDict));
  }

  /** A lesson path that does not exist fails validation, and the issue names
      the path at its place in the outline. */
  lemma MissingLessonFile(v: Value, fs: FileSystem, i: nat, k: nat)
    requires v.Obj? && "outline" in v.fields && v.fields["outline"].Arr? && i < |v.fields["outline"].items|
    requires var c := v.fields["outline"].items[i];
      c.Obj? && "lessons" in c.fields && c.fields["lessons"].Arr? && k < |c.fields["lessons"].items|
      && c.fields["lessons"].items[k].Text? && NormPath(c.fields["lessons"].items[k].s) !in fs.existing
    ensures var p := NormPath(v.fields["outline"].items[i].fields["lessons"].items[k].s);
      && Validate(v, fs).Err?
      && Issue([Field("outline"), Item(i), Field("lessons"), Item(k)], PathMissing(p)) in Validate(v, fs).error
  {
    var c := v.fields["outline"].items[i];
    var p := NormPath(c.fields["lessons"].items[k].s);
    var inner := Issue([Field("lessons"), Item(k)], PathMissing(p));
    MissingLessonInChapter(c, fs, k);
    var chapter := ChapterIssues(c, fs);
    var n :| 0 <= n < |chapter| && chapter[n] == inner;
    assert ChapterCheck(fs)(c) == chapter;
    ListIssueAt(v.fields, "outline", ChapterCheck(fs), i, n);
    assert [Field("outline"), Item(i)] + inner.loc == [Field("outline"), Item(i), Field("lessons"), Item(k)];
    ListIssueReported(v, fs, "outline", Issue([Field("outline"), Item(i), Field("lessons"), Item(k)], PathMissing(p)));
  }

  /** The `n`-th issue of item `k` of a list field is reported under
      `name[k]`. */
  lemma ListIssueAt(fields: Fields, name: string, issuesOf: Value -> seq<Issue>, k: nat, n: nat)
    requires name in fields && fields[name].Arr? && k < |fields[name].items|
    requires n < |issuesOf(fields[name].items[k])|
    ensures var e := issuesOf(fields[name].items[k])[n];
      Issue([Field(name), Item(k)] + e.loc, e.problem) in ListIssues(fields, name, issuesOf)
  {
    assert ListIssues(fields, name, issuesOf) == ItemIssues(fields[name].items, [Field(name)], issuesOf, 0);
    assert [Field(name)] + [Item(k)] == [Field(name), Item(k)];
  }

  /** An issue of `authors` or `outline` is among the issues validation
      reports. */
  lemma ListIssueReported(v: Value, fs: FileSystem, name: string, x: Issue)
    requires v.Obj? && (name == "authors" || name == "outline")
    requires x in ListIssues(v.fields, name, if name == "authors" then AuthorCheck(fs) else ChapterCheck(fs))
    ensures Validate(v, fs).Err? && x in Validate(v, fs).error
  {
    CourseIssuesParts(v, fs);
  }

  /** Within its chapter, a missing lesson path is reported at `lessons[k]`. */
  lemma MissingLessonInChapter(c: Value, fs: FileSystem, k: nat)
    requires c.Obj? && "lessons" in c.fields && c.fields["lessons"].Arr? && k < |c.fields["lessons"].items|
    requires c.fields["lessons"].items[k].Text? && NormPath(c.fields["lessons"].items[k].s) !in fs.existing
    ensures Issue([Field("lessons"), Item(k)], PathMissing(NormPath(c.fields["lessons"].items[k].s))) in ChapterIssues(c, fs)
  {
    var p := NormPath(c.fields["lessons"].items[k].s);
    var inner := Issue([Field("lessons"), Item(k)], PathMissing(p));
    assert LessonCheck(fs)(c.fields["lessons"].items[k])[0] == Issue([], PathMissing(p));
    assert [Field("lessons")] + [Item(k)] + [] == [Field("lessons"), Item(k)];
    assert inner in ListIssues(c.fields, "lessons", LessonCheck(fs));
  }

  /** A definition `dict` cannot convert is refused as a whole, with the
      one issue at `__root__`. */
  lemma RootNotMapping(v: Value, fs: FileSystem)
    requires AsMapping(v).None?
    ensures Validate(v, fs) == Err([Issue([Field("__root__")], ExpectedDict)])
  {
    CourseIssuesNone(v, fs);
  }

  /** The issues of the empty mapping: every required field, in order. */
  function MissingFieldIssues(): seq<Issue>
  {
    [Issue([Field("name")], FieldRequired), Issue([Field("title")], FieldRequired),
     Issue([Field("description")], FieldRequired), Issue([Field("authors")], FieldRequired),
     Issue([Field("outline")], FieldRequired)]
  }

  /** A value `dict` turns into the empty mapping is missing every required
      field, and nothing else is wrong with it. */
  lemma EmptyMappingIssues(v: Value, fs: FileSystem)
    requires AsMapping(v) == Some(map[])
    ensures CourseIssues(v, fs) == MissingFieldIssues()
  {
    var f: Fields := map[];
    var a := StrIssues(f, "name") + StrIssues(f, "title") + OptionalStrIssues(f, "short_description");
    var b := a + StrIssues(f, "description");
    var c := b + ListIssues(f, "authors", AuthorCheck(fs));
    assert CourseIssues(v, fs) == c + ListIssues(f, "outline", ChapterCheck(fs));
    assert a == [Issue([Field("name")], FieldRequired), Issue([Field("title")], FieldRequired)];
    assert b == MissingFieldIssues()[..3];
    assert c == MissingFieldIssues()[..4];
  }

  /** An empty string or list as the whole definition is the empty mapping,
      so every required field is reported missing. */
  lemma EmptyRootFieldsRequired(v: Value, fs: FileSystem)
    requires v == Text("") || v == Arr([])
    ensures Validate(v, fs) == Err(MissingFieldIssues())
  {
    EmptyMappingIssues(v, fs);
  }

  /** An empty string or list as a chapter is the empty mapping, so its
      `name` is reported missing at `outline[i].name`. */
  lemma EmptyChapterFieldsRequired(v: Value, fs: FileSystem, i: nat)
    requires v.Obj? && "outline" in v.fields && v.fields["outline"].Arr? && i < |v.fields["outline"].items|
    requires v.fields["outline"].items[i] == Text("") || v.fields["outline"].items[i] == Arr([])
    ensures Validate(v, fs).Err?
    ensures Issue([Field("outline"), Item(i), Field("name")], FieldRequired) in Validate(v, fs).error
  {
    var items := v.fields["outline"].items;
    assert ChapterCheck(fs)(items[i])[0] == Issue([Field("name")], FieldRequired);
    ListIssueAt(v.fields, "outline", ChapterCheck(fs), i, 0);
    assert [Field("outline"), Item(i)] + [Field("name")] == [Field("outline"), Item(i), Field("name")];
    ListIssueReported(v, fs, "outline", Issue([Field("outline"), Item(i), Field("name")], FieldRequired));
  }
}

=== FILE: doctypes.dfy ===
/** The course, module and lesson document types of riyaz/doctypes.py: the
    outline a course document stores, looking a lesson up within its course,
    stepping to the next or previous lesson, and the documents and keys
    `save_from_model` writes for a course definition.

    A course, module or lesson document is a `Row` of the store whose
    doctype is "course", "module" or "lesson"; an attribute such as
    `course.outline` or `lesson.module` is the field of that name in the
    row's data, and a missing one raises `AttributeError`. */
module Doctypes {
  import opened Wrappers
  import opened Values
  import opened Query
  import opened Store
  import opened Outline
  import opened StoredOutline

  // ---------------------------------------------------------------------------
  // Reading a course document

  datatype DocError =
    | MissingAttribute(name: string)  // the document has no field of that name
    | MalformedOutline                // reading the stored outline raises
    | NotListed                       // `list.index` finds no entry for the lesson
    | LookupFailed(cause: DbError)    // the store refuses the lesson lookup

  /** `course.outline` as stored. */
  function OutlineField(course: Row): (r: Result<Value, DocError>)
    ensures r.Err? <==> "outline" !in course.data
    ensures r.Err? ==> r.error == MissingAttribute("outline")
    ensures r.Ok? ==> r.value == course.data["outline"]
  {
    if "outline" !in course.data then Err(MissingAttribute("outline")) else Ok(course.data["outline"])
  }

  /** `course.outline` read back as an outline, which succeeds when the
      stored value has the shape `save_from_model` writes. The navigation
      below reads the stored value directly and asks less of it; on an
      outline that reads back it agrees with this decoded one. */
  function CourseOutline(course: Row): (r: Result<seq<Module>, DocError>)
    ensures r == Err(MissingAttribute("outline")) <==> "outline" !in course.data
    ensures r.Ok? <==> "outline" in course.data && DecodeOutline(course.data["outline"]).Some?
    ensures r.Ok? ==> Storable(r.value) && EncodeOutline(r.value) == course.data["outline"]
  {
    if "outline" !in course.data then Err(MissingAttribute("outline"))
    else
      var outline := DecodeOutline(course.data["outline"]);
      if outline.None? then Err(MalformedOutline)
      else
        EncodeDecodeOutline(course.data["outline"]);
        Ok(outline.value)
  }

  /** `Course.get_module_index`: the 1-based position of the first module of
      the stored outline with that name, reading the modules up to it. */
  function GetModuleIndex(course: Row, moduleName: string): (r: Result<Option<nat>, DocError>)
    ensures r == Err(MissingAttribute("outline")) <==> "outline" !in course.data
    ensures r.Ok? && r.value.Some? ==>
              var v := course.data["outline"];
              && v.Arr? && 1 <= r.value.value <= |v.items| && Named(v.items[r.value.value - 1], moduleName)
              && forall i :: 0 <= i < r.value.value - 1 ==> !Named(v.items[i], moduleName)
    ensures r == Ok(None) ==>
              && Elements(course.data["outline"]).Some?
              && var items := Elements(course.data["outline"]).value;
                 forall i :: 0 <= i < |items| ==> HasNameField(items[i]) && !Named(items[i], moduleName)
    ensures r.Err? ==> r.error == MissingAttribute("outline") || r.error == MalformedOutline
    ensures "outline" in course.data && Elements(course.data["outline"]).Some? ==>
              var items := Elements(course.data["outline"]).value;
              (forall i :: 0 <= i < |items| ==> HasNameField(items[i])) ==> r.Ok?
    ensures CourseOutline(course).Ok? ==> r == Ok(ModuleIndex(CourseOutline(course).value, moduleName))
  {
    var v :- OutlineField(course);
    var read := ModuleIndexRead(v, moduleName);
    assert DecodeOutline(v).Some? ==> read == Some(ModuleIndex(DecodeOutline(v).value, moduleName)) by {
      if DecodeOutline(v).Some? { ModuleIndexReadDecoded(v, moduleName); }
    }
    if read.None? then Err(MalformedOutline) else Ok(read.value)
  }

  /** `Course.get_lesson_index`: the module's index and the 1-based position
      of the first lesson with that name in the module's `lessons`, or
      nothing when either is missing. */
  function GetLessonIndex(course: Row, moduleName: string, lessonName: string): (r: Result<Option<(nat, nat)>, DocError>)
    ensures r == Err(MissingAttribute("outline")) <==> "outline" !in course.data
    ensures GetModuleIndex(course, moduleName) == Ok(None) ==> r == Ok(None)
    ensures r.Ok? && r.value.Some? ==>
              && GetModuleIndex(course, moduleName) == Ok(Some(r.value.value.0))
              && LessonAtIndex(course.data["outline"], lessonName, r.value.value)
    ensures CourseOutline(course).Ok? ==> r == Ok(LessonIndex(CourseOutline(course).value, moduleName, lessonName))
  {
    var v :- OutlineField(course);
    var read := LessonIndexRead(v, moduleName, lessonName);
    assert DecodeOutline(v).Some? ==> read == Some(LessonIndex(DecodeOutline(v).value, moduleName, lessonName)) by {
      if DecodeOutline(v).Some? { LessonIndexReadDecoded(v, moduleName, lessonName); }
    }
    if read.None? then Err(MalformedOutline)
    else if read.value.None? then Ok(None)
    else
      LessonIndexReadFound(v, moduleName, lessonName, read.value.value);
      Ok(read.value)
  }

  /** `{"module_name": lesson.module, "lesson_name": lesson.name}`, whatever
      the two fields hold. */
  function LessonPlace(lesson: Row): (r: Result<Entry, DocError>)
    ensures "module" !in lesson.data ==> r == Err(MissingAttribute("module"))
    ensures "module" in lesson.data && "name" !in lesson.data ==> r == Err(MissingAttribute("name"))
    ensures r.Ok? <==> "module" in lesson.data && "name" in lesson.data
    ensures r.Ok? ==> r.value == Entry(lesson.data["module"], lesson.data["name"])
  {
    if "module" !in lesson.data then Err(MissingAttribute("module"))
    else if "name" !in lesson.data then Err(MissingAttribute("name"))
    else Ok(Entry(lesson.data["module"], lesson.data["name"]))
  }

  /** The lesson's place when both its fields are text. */
  function TextPlace(lesson: Row): (r: Option<Pair>)
    ensures r.Some? ==> LessonPlace(lesson) == Ok(EntryOf(r.value))
    ensures r.None? && LessonPlace(lesson).Ok? ==> !(lesson.data["module"].Text? && lesson.data["name"].Text?)
  {
    var m := TextField(lesson.data, "module");
    var n := TextField(lesson.data, "name");
    if m.Some? && n.Some? then Some(Pair(m.value, n.value)) else None
  }

  /** `flattened_lessons` of a course: a module with lessons has its name
      read, every module its `lessons`, every lesson its name. */
  function CoursePlaces(course: Row): (r: Result<seq<Entry>, DocError>)
    ensures r == Err(MissingAttribute("outline")) <==> "outline" !in course.data
    ensures CourseOutline(course).Ok? ==> r == Ok(Lift(Flatten(CourseOutline(course).value)))
  {
    var v :- OutlineField(course);
    var f := FlatEntries(v);
    assert DecodeOutline(v).Some? ==> f == Some(Lift(Flatten(DecodeOutline(v).value))) by {
      if DecodeOutline(v).Some? { FlatEntriesDecoded(v); }
    }
    if f.None? then Err(MalformedOutline) else Ok(f.value)
  }

  // ---------------------------------------------------------------------------
  // Looking up lessons

  /** `x` is the lesson document of course `courseKey` at that place. */
  predicate IsLessonOf(x: Row, courseKey: string, moduleName: string, lessonName: string)
  {
    x.doctype == "lesson" && LessonFields(x.data, courseKey, moduleName, lessonName)
  }

  /** The `course`, `module` and `name` fields of a lesson's data. */
  predicate LessonFields(data: Fields, courseKey: string, moduleName: string, lessonName: string)
  {
    && "course" in data && data["course"] == Text(courseKey)
    && "module" in data && data["module"] == Text(moduleName)
    && "name" in data && data["name"] == Text(lessonName)
  }

  /** The keywords `get_lesson` passes to `Lesson.find`. */
  function LessonQuery(courseKey: string, moduleName: string, lessonName: string): Kwargs
  {
    LessonQueryOf(courseKey, Text(moduleName), Text(lessonName))
  }

  /** The keywords `get_lesson` passes for names of any value. */
  function LessonQueryOf(courseKey: string, moduleName: Value, lessonName: Value): Kwargs
  {
    [("course", Text(courseKey)), ("module", moduleName), ("name", lessonName)]
  }

  lemma LessonQueryAccepted(courseKey: string, moduleName: string, lessonName: string)
    ensures var w := LessonQuery(courseKey, moduleName, lessonName);
      && QueryWhere(w) == w
      && !HasName(w, "key") && !HasName(w, "doctype") && !HasName(w, "limit")
      && forall i :: 0 <= i < |w| ==> IsFieldName(w[i].0) && Comparable(w[i].1)
  {
    var w := LessonQuery(courseKey, moduleName, lessonName);
    LessonQueryNames(courseKey, moduleName, lessonName);
    WithoutNothing(w, {"limit", "offset"});
    LessonFieldNames();
  }

  /** The three keywords are `course`, `module` and `name`. */
  lemma LessonQueryNames(courseKey: string, moduleName: string, lessonName: string)
    ensures var w := LessonQuery(courseKey, moduleName, lessonName);
      forall i :: 0 <= i < |w| ==> w[i].0 in LessonKeywords && w[i].1.Text?
  {
  }

  const LessonKeywords: set<string> := {"course", "module", "name"}

  lemma LessonFieldNames()
    ensures forall name :: name in LessonKeywords ==> IsFieldName(name)
  {
    assert AllWordChars("course") by {
      forall i | 0 <= i < 6 ensures IsWordChar("course"[i]) {
      }
    }
    assert AllWordChars("module") by {
      forall i | 0 <= i < 6 ensures IsWordChar("module"[i]) {
      }
    }
    assert AllWordChars("name") by {
      forall i | 0 <= i < 4 ensures IsWordChar("name"[i]) {
      }
    }
  }

  lemma LessonQueryMeaning(x: Row, courseKey: string, moduleName: string, lessonName: string)
    ensures QueryMatch(x, "lesson", LessonQuery(courseKey, moduleName, lessonName))
            <==> IsLessonOf(x, courseKey, moduleName, lessonName)
  {
    var w := LessonQuery(courseKey, moduleName, lessonName);
    assert w[0] == ("course", Text(courseKey)) && w[1] == ("module", Text(moduleName)) && w[2] == ("name", Text(lessonName));
    if IsLessonOf(x, courseKey, moduleName, lessonName) {
      forall i | 0 <= i < |w| ensures FieldMatches(x, w[i].0, w[i].1) {
      }
    }
  }

  /** `Course.get_lesson(module_name, lesson_name)`: the first lesson document
      in storage order whose `course`, `module` and `name` fields are the
      course's key and the two names, so a lesson of another course is never
      returned. `Lesson.find` passes no key, so it is `find` itself
      (`Store.DocumentFindUnkeyed`). */
  function GetLesson(db: Db, courseKey: string, moduleName: string, lessonName: string): (r: Result<Option<Row>, DbError>)
    ensures r.Ok?
    ensures r.value.None? <==> forall k :: 0 <= k < |db.rows| ==> !IsLessonOf(db.rows[k], courseKey, moduleName, lessonName)
    ensures r.value.Some? ==> exists k :: 0 <= k < |db.rows| && db.rows[k] == r.value.value
                                           && IsLessonOf(db.rows[k], courseKey, moduleName, lessonName)
                                           && forall j :: 0 <= j < k ==> !IsLessonOf(db.rows[j], courseKey, moduleName, lessonName)
  {
    LessonFind(db, courseKey, moduleName, lessonName);
    Find(db, "lesson", LessonQuery(courseKey, moduleName, lessonName))
  }

  /** `Lesson.find` with the three keywords answers the lesson question. */
  lemma LessonFind(db: Db, courseKey: string, moduleName: string, lessonName: string)
    ensures var r := Find(db, "lesson", LessonQuery(courseKey, moduleName, lessonName));
      && r.Ok?
      && (r.value.None? <==> forall k :: 0 <= k < |db.rows| ==> !IsLessonOf(db.rows[k], courseKey, moduleName, lessonName))
      && (r.value.Some? ==> exists k :: 0 <= k < |db.rows| && db.rows[k] == r.value.value
                                           && IsLessonOf(db.rows[k], courseKey, moduleName, lessonName)
                                           && forall j :: 0 <= j < k ==> !IsLessonOf(db.rows[j], courseKey, moduleName, lessonName))
  {
    var w := LessonQuery(courseKey, moduleName, lessonName);
    LessonQueryAccepted(courseKey, moduleName, lessonName);
    FindAccepted(db, "lesson", w);
    var r := Find(db, "lesson", w);
    if r.value.Some? {
      FirstMatchIsFirstLesson(db.rows, r.value.value, courseKey, moduleName, lessonName);
    } else {
      NoMatchNoLesson(db.rows, courseKey, moduleName, lessonName);
    }
  }

  lemma FirstMatchIsFirstLesson(rows: seq<Row>, x: Row, courseKey: string, moduleName: string, lessonName: string)
    requires IsFirstMatch(rows, x, "lesson", LessonQuery(courseKey, moduleName, lessonName))
    ensures exists k :: 0 <= k < |rows| && rows[k] == x
                        && IsLessonOf(rows[k], courseKey, moduleName, lessonName)
                        && forall j :: 0 <= j < k ==> !IsLessonOf(rows[j], courseKey, moduleName, lessonName)
    ensures !forall k :: 0 <= k < |rows| ==> !IsLessonOf(rows[k], courseKey, moduleName, lessonName)
  {
    var w := LessonQuery(courseKey, moduleName, lessonName);
    var k :| 0 <= k < |rows| && rows[k] == x && QueryMatch(x, "lesson", w)
              && forall j :: 0 <= j < k ==> !QueryMatch(rows[j], "lesson", w);
    LessonQueryMeaning(x, courseKey, moduleName, lessonName);
    forall j | 0 <= j < k ensures !IsLessonOf(rows[j], courseKey, moduleName, lessonName) {
      LessonQueryMeaning(rows[j], courseKey, moduleName, lessonName);
    }
  }

  lemma NoMatchNoLesson(rows: seq<Row>, courseKey: string, moduleName: string, lessonName: string)
    requires forall k :: 0 <= k < |rows| ==> !QueryMatch(rows[k], "lesson", QueryWhere(LessonQuery(courseKey, moduleName, lessonName)))
    ensures forall k :: 0 <= k < |rows| ==> !IsLessonOf(rows[k], courseKey, moduleName, lessonName)
  {
    LessonQueryAccepted(courseKey, moduleName, lessonName);
    forall k | 0 <= k < |rows| ensures !IsLessonOf(rows[k], courseKey, moduleName, lessonName) {
      LessonQueryMeaning(rows[k], courseKey, moduleName, lessonName);
    }
  }

  // ---------------------------------------------------------------------------
  // Stepping through a course

  /** `self.get_lesson(**entry)`: `Lesson.find` with the entry's two values,
      which the store may refuse when one is not a value it can compare. */
  function LessonAt(db: Db, courseKey: string, e: Entry): (r: Result<Option<Row>, DocError>)
    ensures r.Err? ==> r.error.LookupFailed?
    ensures e.moduleName.Text? && e.lessonName.Text? ==>
              r == Ok(GetLesson(db, courseKey, e.moduleName.s, e.lessonName.s).value)
  {
    var found := Find(db, "lesson", LessonQueryOf(courseKey, e.moduleName, e.lessonName));
    if found.Err? then Err(LookupFailed(found.error)) else Ok(found.value)
  }

  /** `Course.get_next_lesson(lesson)`: the lesson document at the entry after
      the first one equal to the lesson's own in the flattened outline, or
      nothing after the last entry. A lesson without an entry raises. */
  function NextLesson(db: Db, course: Row, lesson: Row): (r: Result<Option<Row>, DocError>)
    ensures CoursePlaces(course).Err? ==> r == Err(CoursePlaces(course).error)
    ensures CoursePlaces(course).Ok? && LessonPlace(lesson).Err? ==> r == Err(LessonPlace(lesson).error)
    ensures CoursePlaces(course).Ok? && LessonPlace(lesson).Ok? ==>
      var f := CoursePlaces(course).value;
      var e := LessonPlace(lesson).value;
      && (r == Err(NotListed) <==> e !in f)
      && (e in f ==> exists k :: 0 <= k < |f| && f[k] == e && e !in f[..k]
                                 && (k == |f| - 1 ==> r == Ok(None))
                                 && (k < |f| - 1 ==> r == LessonAt(db, course.key, f[k + 1])))
  {
    var f :- CoursePlaces(course);
    var e :- LessonPlace(lesson);
    var i := FirstIndex(f, e);
    if i.None? then Err(NotListed)
    else if i.value + 1 < |f| then LessonAt(db, course.key, f[i.value + 1])
    else Ok(None)
  }

  /** `Course.get_previous_lesson(lesson)`: the lesson document at the entry
      before the lesson's own, or nothing before the first entry. */
  function PreviousLesson(db: Db, course: Row, lesson: Row): (r: Result<Option<Row>, DocError>)
    ensures CoursePlaces(course).Err? ==> r == Err(CoursePlaces(course).error)
    ensures CoursePlaces(course).Ok? && LessonPlace(lesson).Err? ==> r == Err(LessonPlace(lesson).error)
    ensures CoursePlaces(course).Ok? && LessonPlace(lesson).Ok? ==>
      var f := CoursePlaces(course).value;
      var e := LessonPlace(lesson).value;
      && (r == Err(NotListed) <==> e !in f)
      && (e in f ==> exists k :: 0 <= k < |f| && f[k] == e && e !in f[..k]
                                 && (k == 0 ==> r == Ok(None))
                                 && (k > 0 ==> r == LessonAt(db, course.key, f[k - 1])))
  {
    var f :- CoursePlaces(course);
    var e :- LessonPlace(lesson);
    var i := FirstIndex(f, e);
    if i.None? then Err(NotListed)
    else if i.value >= 1 then LessonAt(db, course.key, f[i.value - 1])
    else Ok(None)
  }

  /** On an outline that reads back, `get_next_lesson` steps through the
      decoded outline: a lesson whose names are not both text is not listed,
      and otherwise the result is the course's lesson document at the next
      place, or nothing at the last place or when no document is there. */
  lemma NextLessonDecoded(db: Db, course: Row, lesson: Row)
    requires CourseOutline(course).Ok?
    ensures LessonPlace(lesson).Err? ==> NextLesson(db, course, lesson) == Err(LessonPlace(lesson).error)
    ensures LessonPlace(lesson).Ok? && TextPlace(lesson).None? ==> NextLesson(db, course, lesson) == Err(NotListed)
    ensures TextPlace(lesson).Some? ==>
      var r := NextLesson(db, course, lesson);
      var outline := CourseOutline(course).value;
      var p := TextPlace(lesson).value;
      && (r == Err(NotListed) <==> p !in Flatten(outline))
      && (NextPlace(outline, p) == Ok(None) ==> r == Ok(None))
      && (forall q: Pair :: NextPlace(outline, p) == Ok(Some(q)) ==>
            && r.Ok?
            && (r.value.None? <==> forall k :: 0 <= k < |db.rows| ==> !IsLessonOf(db.rows[k], course.key, q.moduleName, q.lessonName))
            && (r.value.Some? ==> r.value.value in db.rows && IsLessonOf(r.value.value, course.key, q.moduleName, q.lessonName)))
  {
    var f := Flatten(CourseOutline(course).value);
    if LessonPlace(lesson).Ok? && TextPlace(lesson).None? {
      if LessonPlace(lesson).value in Lift(f) {
        LiftEntries(f, LessonPlace(lesson).value);
      }
    }
    if TextPlace(lesson).Some? {
      NextLessonText(db, course, lesson);
    }
  }

  lemma NextLessonText(db: Db, course: Row, lesson: Row)
    requires CourseOutline(course).Ok? && TextPlace(lesson).Some?
    ensures
      var r := NextLesson(db, course, lesson);
      var outline := CourseOutline(course).value;
      var p := TextPlace(lesson).value;
      && (r == Err(NotListed) <==> p !in Flatten(outline))
      && (NextPlace(outline, p) == Ok(None) ==> r == Ok(None))
      && (forall q: Pair :: NextPlace(outline, p) == Ok(Some(q)) ==>
            && r.Ok?
            && (r.value.None? <==> forall k :: 0 <= k < |db.rows| ==> !IsLessonOf(db.rows[k], course.key, q.moduleName, q.lessonName))
            && (r.value.Some? ==> r.value.value in db.rows && IsLessonOf(r.value.value, course.key, q.moduleName, q.lessonName)))
  {
    var outline := CourseOutline(course).value;
    var p := TextPlace(lesson).value;
    LiftFirstIndex(Flatten(outline), p);
    forall q: Pair | NextPlace(outline, p) == Ok(Some(q))
      ensures var r := NextLesson(db, course, lesson);
              && r.Ok?
              && (r.value.None? <==> forall k :: 0 <= k < |db.rows| ==> !IsLessonOf(db.rows[k], course.key, q.moduleName, q.lessonName))
              && (r.value.Some? ==> r.value.value in db.rows && IsLessonOf(r.value.value, course.key, q.moduleName, q.lessonName))
    {
      NextLessonTextAt(db, course, lesson, q);
    }
  }

  lemma {:induction false} NextLessonTextAt(db: Db, course: Row, lesson: Row, q: Pair)
    requires CourseOutline(course).Ok? && TextPlace(lesson).Some?
    requires NextPlace(CourseOutline(course).value, TextPlace(lesson).value) == Ok(Some(q))
    ensures var r := NextLesson(db, course, lesson);
            && r.Ok?
            && (r.value.None? <==> forall k :: 0 <= k < |db.rows| ==> !IsLessonOf(db.rows[k], course.key, q.moduleName, q.lessonName))
            && (r.value.Some? ==> r.value.value in db.rows && IsLessonOf(r.value.value, course.key, q.moduleName, q.lessonName))
  {
    LiftFirstIndex(Flatten(CourseOutline(course).value), TextPlace(lesson).value);
  }

  /** The same for `get_previous_lesson`. */
  lemma PreviousLessonDecoded(db: Db, course: Row, lesson: Row)
    requires CourseOutline(course).Ok?
    ensures LessonPlace(lesson).Err? ==> PreviousLesson(db, course, lesson) == Err(LessonPlace(lesson).error)
    ensures LessonPlace(lesson).Ok? && TextPlace(lesson).None? ==> PreviousLesson(db, course, lesson) == Err(NotListed)
    ensures TextPlace(lesson).Some? ==>
      var r := PreviousLesson(db, course, lesson);
      var outline := CourseOutline(course).value;
      var p := TextPlace(lesson).value;
      && (r == Err(NotListed) <==> p !in Flatten(outline))
      && (PreviousPlace(outline, p) == Ok(None) ==> r == Ok(None))
      && (forall q: Pair :: PreviousPlace(outline, p) == Ok(Some(q)) ==>
            && r.Ok?
            && (r.value.None? <==> forall k :: 0 <= k < |db.rows| ==> !IsLessonOf(db.rows[k], course.key, q.moduleName, q.lessonName))
            && (r.value.Some? ==> r.value.value in db.rows && IsLessonOf(r.value.value, course.key, q.moduleName, q.lessonName)))
  {
    var f := Flatten(CourseOutline(course).value);
    if LessonPlace(lesson).Ok? && TextPlace(lesson).None? {
      if LessonPlace(lesson).value in Lift(f) {
        LiftEntries(f, LessonPlace(lesson).value);
      }
    }
    if TextPlace(lesson).Some? {
      PreviousLessonText(db, course, lesson);
    }
  }

  lemma PreviousLessonText(db: Db, course: Row, lesson: Row)
    requires CourseOutline(course).Ok? && TextPlace(lesson).Some?
    ensures
      var r := PreviousLesson(db, course, lesson);
      var outline := CourseOutline(course).value;
      var p := TextPlace(lesson).value;
      && (r == Err(NotListed) <==> p !in Flatten(outline))
      && (PreviousPlace(outline, p) == Ok(None) ==> r == Ok(None))
      && (forall q: Pair :: PreviousPlace(outline, p) == Ok(Some(q)) ==>
            && r.Ok?
            && (r.value.None? <==> forall k :: 0 <= k < |db.rows| ==> !IsLessonOf(db.rows[k], course.key, q.moduleName, q.lessonName))
            && (r.value.Some? ==> r.value.value in db.rows && IsLessonOf(r.value.value, course.key, q.moduleName, q.lessonName)))
  {
    var outline := CourseOutline(course).value;
    var p := TextPlace(lesson).value;
    LiftFirstIndex(Flatten(outline), p);
    forall q: Pair | PreviousPlace(outline, p) == Ok(Some(q))
      ensures var r := PreviousLesson(db, course, lesson);
              && r.Ok?
              && (r.value.None? <==> forall k :: 0 <= k < |db.rows| ==> !IsLessonOf(db.rows[k], course.key, q.moduleName, q.lessonName))
              && (r.value.Some? ==> r.value.value in db.rows && IsLessonOf(r.value.value, course.key, q.moduleName, q.lessonName))
    {
      PreviousLessonTextAt(db, course, lesson, q);
    }
  }

  lemma {:induction false} PreviousLessonTextAt(db: Db, course: Row, lesson: Row, q: Pair)
    requires CourseOutline(course).Ok? && TextPlace(lesson).Some?
    requires PreviousPlace(CourseOutline(course).value, TextPlace(lesson).value) == Ok(Some(q))
    ensures var r := PreviousLesson(db, course, lesson);
            && r.Ok?
            && (r.value.None? <==> forall k :: 0 <= k < |db.rows| ==> !IsLessonOf(db.rows[k], course.key, q.moduleName, q.lessonName))
            && (r.value.Some? ==> r.value.value in db.rows && IsLessonOf(r.value.value, course.key, q.moduleName, q.lessonName))
  {
    LiftFirstIndex(Flatten(CourseOutline(course).value), TextPlace(lesson).value);
  }

  /** On an outline that reads back, a next lesson found sits at the outline
      place after the lesson's own. */
  lemma NextLessonPlace(db: Db, course: Row, lesson: Row, next: Row)
    requires CourseOutline(course).Ok?
    requires NextLesson(db, course, lesson) == Ok(Some(next))
    ensures TextPlace(lesson).Some? && TextPlace(next).Some?
    ensures NextPlace(CourseOutline(course).value, TextPlace(lesson).value) == Ok(Some(TextPlace(next).value))
  {
    NextLessonDecoded(db, course, lesson);
    var q := NextPlace(CourseOutline(course).value, TextPlace(lesson).value).value.value;
    assert IsLessonOf(next, course.key, q.moduleName, q.lessonName);
  }

  /** With the place before `lesson`'s known, the previous lesson is the
      lesson looked up there. */
  lemma PreviousLessonAt(db: Db, course: Row, lesson: Row, p: Pair)
    requires CourseOutline(course).Ok? && TextPlace(lesson).Some?
    requires PreviousPlace(CourseOutline(course).value, TextPlace(lesson).value) == Ok(Some(p))
    ensures PreviousLesson(db, course, lesson) == Ok(GetLesson(db, course.key, p.moduleName, p.lessonName).value)
  {
    var f := Flatten(CourseOutline(course).value);
    LiftFirstIndex(f, TextPlace(lesson).value);
  }

  /** When no place repeats in an outline that reads back, the previous
      lesson of a lesson's next lesson is that lesson again, provided it is
      the first document at its place. */
  lemma NextThenPrevious(db: Db, course: Row, lesson: Row, next: Row)
    requires CourseOutline(course).Ok? && Distinct(Flatten(CourseOutline(course).value))
    requires NextLesson(db, course, lesson) == Ok(Some(next))
    requires TextPlace(lesson).Some?
    requires GetLesson(db, course.key, TextPlace(lesson).value.moduleName, TextPlace(lesson).value.lessonName) == Ok(Some(lesson))
    ensures PreviousLesson(db, course, next) == Ok(Some(lesson))
  {
    NextLessonPlace(db, course, lesson, next);
    var p := TextPlace(lesson).value;
    NextPreviousInverse(CourseOutline(course).value, p, TextPlace(next).value);
    PreviousLessonAt(db, course, next, p);
  }

  /** A course whose stored modules and lessons have names but no titles does
      not read back as an outline, yet `get_next_lesson` steps through it. */
  lemma UntitledOutlineSteps(db: Db, key: string)
    ensures var course := Row(1, "course", key, map["outline" := Arr([
              Obj(map["name" := Text("a"), "lessons" := Arr([Obj(map["name" := Text("x")]), Obj(map["name" := Text("y")])])])])]);
            var lesson := Row(2, "lesson", "a/x", map["module" := Text("a"), "name" := Text("x")]);
            && CourseOutline(course) == Err(MalformedOutline)
            && NextLesson(db, course, lesson) == LessonAt(db, key, Entry(Text("a"), Text("y")))
  {
    var x := Obj(map["name" := Text("x")]);
    var y := Obj(map["name" := Text("y")]);
    var m := Obj(map["name" := Text("a"), "lessons" := Arr([x, y])]);
    var course := Row(1, "course", key, map["outline" := Arr([m])]);
    assert DecodeModule(m).None?;
    var entries := [Entry(Text("a"), Text("x")), Entry(Text("a"), Text("y"))];
    assert HasNameField(m) && HasNameField(x) && HasNameField(y);
    var es := ModuleEntries(m, [x, y]);
    assert es.Some? && |es.value| == 2;
    assert es.value[0] == entries[0] && es.value[1] == entries[1];
    assert es.value == entries;
    assert [m][1..] == [] && RawFlatten([]) == Some([]);
    assert Subscript(m, "lessons") == Some(Arr([x, y]));
    assert RawFlatten([m]).value == entries + [];
    assert entries + [] == entries;
    assert CoursePlaces(course) == Ok(entries);
  }

  // ---------------------------------------------------------------------------
  // Saving a course definition

  /** A course definition: its name, its other fields, and its outline with
      every module's and lesson's own fields, a lesson's content among them. */
  datatype CourseSpec = CourseSpec(name: string, fields: Fields, outline: seq<Module>)

  /** The course document's data: the definition's fields with the outline
      stripped to names and titles. */
  function CourseData(c: CourseSpec): Fields
  {
    c.fields["name" := Text(c.name)]["outline" := EncodeOutline(WithoutContent(c.outline))]
  }

  function ModuleData(courseKey: string, m: Module): Fields
  {
    m.extra["name" := Text(m.name)]["title" := Text(m.title)]["course" := Text(courseKey)]
  }

  function LessonData(courseKey: string, m: Module, l: Lesson): Fields
  {
    l.extra["name" := Text(l.name)]["title" := Text(l.title)]["module" := Text(m.name)]["course" := Text(courseKey)]
  }

  /** A lesson document's key, `<module key>/<lesson name>`; the course is
      not part of it, nor of a module document's key. */
  function LessonKey(moduleName: string, lessonName: string): string
  {
    moduleName + "/" + lessonName
  }

  function ModuleWrite(courseKey: string, m: Module): Write
  {
    Write("module", m.name, ModuleData(courseKey, m))
  }

  function LessonWrite(courseKey: string, m: Module, l: Lesson): Write
  {
    Write("lesson", LessonKey(m.name, l.name), LessonData(courseKey, m, l))
  }

  function LessonWrites(courseKey: string, m: Module): (ws: seq<Write>)
    ensures |ws| == |m.lessons|
    ensures forall j :: 0 <= j < |m.lessons| ==> ws[j] == LessonWrite(courseKey, m, m.lessons[j])
  {
    seq(|m.lessons|, j requires 0 <= j < |m.lessons| => LessonWrite(courseKey, m, m.lessons[j]))
  }

  /** The saves of the module loop, in order: each module, then its lessons. */
  function ModuleWrites(courseKey: string, outline: seq<Module>): seq<Write>
    decreases |outline|
  {
    if |outline| == 0 then []
    else [ModuleWrite(courseKey, outline[0])] + LessonWrites(courseKey, outline[0]) + ModuleWrites(courseKey, outline[1..])
  }

  predicate WritesModule(courseKey: string, outline: seq<Module>, w: Write)
  {
    exists i :: 0 <= i < |outline| && w == ModuleWrite(courseKey, outline[i])
  }

  predicate WritesLesson(courseKey: string, outline: seq<Module>, w: Write)
  {
    exists i, j :: 0 <= i < |outline| && 0 <= j < |outline[i].lessons| && w == LessonWrite(courseKey, outline[i], outline[i].lessons[j])
  }

  /** The module loop saves each module and each lesson of the outline, and
      nothing else. */
  lemma ModuleWritesMembers(courseKey: string, outline: seq<Module>, w: Write)
    ensures w in ModuleWrites(courseKey, outline) <==> WritesModule(courseKey, outline, w) || WritesLesson(courseKey, outline, w)
  {
    if w in ModuleWrites(courseKey, outline) {
      ModuleWritesSound(courseKey, outline, w);
    }
    if WritesModule(courseKey, outline, w) || WritesLesson(courseKey, outline, w) {
      ModuleWritesComplete(courseKey, outline, w);
    }
  }

  lemma {:induction false} ModuleWritesSound(courseKey: string, outline: seq<Module>, w: Write)
    requires w in ModuleWrites(courseKey, outline)
    ensures WritesModule(courseKey, outline, w) || WritesLesson(courseKey, outline, w)
    decreases |outline|
  {
    var rest := outline[1..];
    var head := [ModuleWrite(courseKey, outline[0])] + LessonWrites(courseKey, outline[0]);
    assert ModuleWrites(courseKey, outline) == head + ModuleWrites(courseKey, rest);
    if w in head {
      if w == ModuleWrite(courseKey, outline[0]) {
        assert WritesModule(courseKey, outline, w);
      } else {
        var j :| 0 <= j < |outline[0].lessons| && LessonWrites(courseKey, outline[0])[j] == w;
        assert WritesLesson(courseKey, outline, w);
      }
    } else {
      ModuleWritesSound(courseKey, rest, w);
      if WritesModule(courseKey, rest, w) {
        var i :| 0 <= i < |rest| && w == ModuleWrite(courseKey, rest[i]);
        assert outline[i + 1] == rest[i];
      } else {
        var i, j :| 0 <= i < |rest| && 0 <= j < |rest[i].lessons| && w == LessonWrite(courseKey, rest[i], rest[i].lessons[j]);
        assert outline[i + 1] == rest[i];
      }
    }
  }

  lemma {:induction false} ModuleWritesComplete(courseKey: string, outline: seq<Module>, w: Write)
    requires WritesModule(courseKey, outline, w) || WritesLesson(courseKey, outline, w)
    ensures w in ModuleWrites(courseKey, outline)
    decreases |outline|
  {
    var rest := outline[1..];
    var head := [ModuleWrite(courseKey, outline[0])] + LessonWrites(courseKey, outline[0]);
    assert ModuleWrites(courseKey, outline) == head + ModuleWrites(courseKey, rest);
    if WritesModule(courseKey, outline, w) {
      var i :| 0 <= i < |outline| && w == ModuleWrite(courseKey, outline[i]);
      if i > 0 {
        assert rest[i - 1] == outline[i];
        ModuleWritesComplete(courseKey, rest, w);
      } else {
        assert w in head;
      }
    } else {
      var i, j :| 0 <= i < |outline| && 0 <= j < |outline[i].lessons| && w == LessonWrite(courseKey, outline[i], outline[i].lessons[j]);
      if i > 0 {
        assert rest[i - 1] == outline[i];
        ModuleWritesComplete(courseKey, rest, w);
      } else {
        assert w == LessonWrites(courseKey, outline[0])[j];
        assert w in head;
      }
    }
  }


  /** `Course.save_from_model(course)`: the course document under the course's
      name, then each module under its name and each lesson under
      `<module>/<lesson>`. Returns the saved course object. */
  function SaveFromModel(db: Db, c: CourseSpec): (r: (Db, Document))
    ensures Valid(db) ==> Valid(r.0)
    ensures r.1.id.Some? && r.1.doctype == "course" && r.1.key == c.name && r.1.data == CourseData(c)
  {
    var saved := DocumentSave(db, Document(None, "course", c.name, CourseData(c)));
    (SaveAll(saved.0, ModuleWrites(saved.1.key, c.outline)), saved.1)
  }

  /** With module names free of "/", a lesson key names one module and one
      lesson. */
  lemma LessonKeyInjective(m1: string, l1: string, m2: string, l2: string)
    requires '/' !in m1 && '/' !in m2
    requires LessonKey(m1, l1) == LessonKey(m2, l2)
    ensures m1 == m2 && l1 == l2
  {
    var k := LessonKey(m1, l1);
    assert k[..|m1|] == m1 && k[..|m2|] == m2;
    Strings.IndexOfAt(k, '/', |m1|);
    Strings.IndexOfAt(k, '/', |m2|);
    assert l1 == k[|m1| + 1..] && l2 == k[|m2| + 1..];
  }

  /** The course document as saved: found under the course's name with the
      returned object's id, and its outline reads back as the stripped
      outline. */
  lemma SavedCourse(db: Db, c: CourseSpec)
    requires Valid(db)
    ensures var (db', course) := SaveFromModel(db, c);
      && Get(db', "course", c.name) == Ok(Some(Row(course.id.value, "course", c.name, CourseData(c))))
      && CourseOutline(Row(course.id.value, "course", c.name, CourseData(c))) == Ok(WithoutContent(c.outline))
  {
    var saved := DocumentSave(db, Document(None, "course", c.name, CourseData(c)));
    var ws := ModuleWrites(c.name, c.outline);
    forall i | 0 <= i < |ws| ensures ws[i].doctype != "course" {
      ModuleWritesMembers(c.name, c.outline, ws[i]);
    }
    SaveAllLastWins(saved.0, ws, "course", c.name);
    var x := Get(saved.0, "course", c.name).value.value;
    assert HasKey(x, "course", c.name);
    WithoutContentStorable(c.outline);
    DecodeEncodeOutline(WithoutContent(c.outline));
  }

  /** On the saved course, the indexes and steps are those of the definition's
      own outline. */
  lemma SavedCourseNavigation(course: Row, c: CourseSpec, moduleName: string, lessonName: string, p: Pair)
    requires CourseOutline(course) == Ok(WithoutContent(c.outline))
    ensures GetModuleIndex(course, moduleName) == Ok(ModuleIndex(c.outline, moduleName))
    ensures GetLessonIndex(course, moduleName, lessonName) == Ok(LessonIndex(c.outline, moduleName, lessonName))
    ensures NextPlace(CourseOutline(course).value, p) == NextPlace(c.outline, p)
    ensures PreviousPlace(CourseOutline(course).value, p) == PreviousPlace(c.outline, p)
  {
    WithoutContentIndexes(c.outline, moduleName, lessonName);
    WithoutContentSteps(c.outline, p);
  }

  /** Each module of the definition has a module document under its name,
      holding the fields of a module of that name and the course's key. */
  lemma SavedModule(db: Db, c: CourseSpec, i: nat)
    requires Valid(db) && i < |c.outline|
    ensures var r := Get(SaveFromModel(db, c).0, "module", c.outline[i].name);
      && r.value.Some?
      && exists i2 :: 0 <= i2 < |c.outline| && c.outline[i2].name == c.outline[i].name
                      && r.value.value.data == ModuleData(c.name, c.outline[i2])
  {
    var saved := DocumentSave(db, Document(None, "course", c.name, CourseData(c)));
    var ws := ModuleWrites(c.name, c.outline);
    assert SaveFromModel(db, c).0 == SaveAll(saved.0, ws);
    SavedModuleData(c, i);
    SaveAllLastWins(saved.0, ws, "module", c.outline[i].name);
  }

  /** The module written last under a module's name is a module of that
      name. */
  lemma SavedModuleData(c: CourseSpec, i: nat)
    requires i < |c.outline|
    ensures var d := LastWrite(ModuleWrites(c.name, c.outline), "module", c.outline[i].name);
      && d.Some?
      && exists i2 :: 0 <= i2 < |c.outline| && c.outline[i2].name == c.outline[i].name
                      && d.value == ModuleData(c.name, c.outline[i2])
  {
    var ws := ModuleWrites(c.name, c.outline);
    var name := c.outline[i].name;
    ModuleWritesMembers(c.name, c.outline, ModuleWrite(c.name, c.outline[i]));
    assert WritesModule(c.name, c.outline, ModuleWrite(c.name, c.outline[i]));
    var t :| 0 <= t < |ws| && ws[t] == ModuleWrite(c.name, c.outline[i]);
    var d := LastWrite(ws, "module", name);
    var u :| 0 <= u < |ws| && ws[u].doctype == "module" && ws[u].key == name && ws[u].data == d.value;
    ModuleWritesMembers(c.name, c.outline, ws[u]);
    var i2 :| 0 <= i2 < |c.outline| && ws[u] == ModuleWrite(c.name, c.outline[i2]);
  }

  lemma LessonDataFields(courseKey: string, m: Module, l: Lesson)
    ensures LessonFields(LessonData(courseKey, m, l), courseKey, m.name, l.name)
  {
  }

  /** The lesson written last under a lesson key belongs to this course, and
      with module names free of "/" it is a lesson of that module and name. */
  lemma SavedLessonData(c: CourseSpec, i: nat, j: nat)
    requires forall k :: 0 <= k < |c.outline| ==> '/' !in c.outline[k].name
    requires i < |c.outline| && j < |c.outline[i].lessons|
    ensures var d := LastWrite(ModuleWrites(c.name, c.outline), "lesson", LessonKey(c.outline[i].name, c.outline[i].lessons[j].name));
      d.Some? && LessonFields(d.value, c.name, c.outline[i].name, c.outline[i].lessons[j].name)
  {
    var ws := ModuleWrites(c.name, c.outline);
    var m := c.outline[i];
    var l := m.lessons[j];
    var key := LessonKey(m.name, l.name);
    var w := LessonWrite(c.name, m, l);
    ModuleWritesMembers(c.name, c.outline, w);
    assert WritesLesson(c.name, c.outline, w);
    assert ws[IndexIn(ws, w)].key == key;
    var d := LastWrite(ws, "lesson", key);
    var u :| 0 <= u < |ws| && ws[u].doctype == "lesson" && ws[u].key == key && ws[u].data == d.value;
    ModuleWritesMembers(c.name, c.outline, ws[u]);
    var i2, j2 :| 0 <= i2 < |c.outline| && 0 <= j2 < |c.outline[i2].lessons|
                   && ws[u] == LessonWrite(c.name, c.outline[i2], c.outline[i2].lessons[j2]);
    LessonKeyInjective(c.outline[i2].name, c.outline[i2].lessons[j2].name, m.name, l.name);
    LessonDataFields(c.name, c.outline[i2], c.outline[i2].lessons[j2]);
  }

  /** A position of `x` in `s`. */
  function IndexIn<T(==)>(s: seq<T>, x: T): (k: nat)
    requires x in s
    ensures k < |s| && s[k] == x
  {
    if s[0] == x then 0 else 1 + IndexIn(s[1..], x)
  }

  /** Every lesson of the definition can be looked up in the saved course,
      provided no module name contains "/". */
  lemma SavedLessonFound(db: Db, c: CourseSpec, i: nat, j: nat)
    requires Valid(db)
    requires forall k :: 0 <= k < |c.outline| ==> '/' !in c.outline[k].name
    requires i < |c.outline| && j < |c.outline[i].lessons|
    ensures GetLesson(SaveFromModel(db, c).0, c.name, c.outline[i].name, c.outline[i].lessons[j].name).value.Some?
  {
    var x := SavedLessonStored(db, c, i, j);
    LessonPresent(SaveFromModel(db, c).0, x, c.name, c.outline[i].name, c.outline[i].lessons[j].name);
  }

  /** The saved rows hold a lesson document for every lesson of the
      definition. */
  lemma SavedLessonStored(db: Db, c: CourseSpec, i: nat, j: nat) returns (x: Row)
    requires Valid(db)
    requires forall k :: 0 <= k < |c.outline| ==> '/' !in c.outline[k].name
    requires i < |c.outline| && j < |c.outline[i].lessons|
    ensures x in SaveFromModel(db, c).0.rows && IsLessonOf(x, c.name, c.outline[i].name, c.outline[i].lessons[j].name)
  {
    var saved := DocumentSave(db, Document(None, "course", c.name, CourseData(c)));
    assert SaveFromModel(db, c).0 == SaveAll(saved.0, ModuleWrites(c.name, c.outline));
    x := WrittenLessonStored(saved.0, c, i, j);
  }

  /** Applying the module writes leaves a lesson document for every lesson. */
  lemma WrittenLessonStored(db: Db, c: CourseSpec, i: nat, j: nat) returns (x: Row)
    requires Valid(db)
    requires forall k :: 0 <= k < |c.outline| ==> '/' !in c.outline[k].name
    requires i < |c.outline| && j < |c.outline[i].lessons|
    ensures x in SaveAll(db, ModuleWrites(c.name, c.outline)).rows
    ensures IsLessonOf(x, c.name, c.outline[i].name, c.outline[i].lessons[j].name)
  {
    var ws := ModuleWrites(c.name, c.outline);
    var key := LessonKey(c.outline[i].name, c.outline[i].lessons[j].name);
    SavedLessonData(c, i, j);
    SaveAllLastWins(db, ws, "lesson", key);
    var db' := SaveAll(db, ws);
    x := Get(db', "lesson", key).value.value;
    assert HasKey(x, "lesson", key) && x in db'.rows;
  }

  /** A stored lesson document is found at its place. */
  lemma LessonPresent(db: Db, x: Row, courseKey: string, moduleName: string, lessonName: string)
    requires x in db.rows && IsLessonOf(x, courseKey, moduleName, lessonName)
    ensures GetLesson(db, courseKey, moduleName, lessonName).value.Some?
  {
    var k :| 0 <= k < |db.rows| && db.rows[k] == x;
  }

  /** Keys are not scoped by course: after a second course with a module of
      the same name is saved, the module document of that name belongs to the
      second course, whatever the first course saved. */
  lemma ModuleKeysShared(db: Db, c1: CourseSpec, c2: CourseSpec, i1: nat, i2: nat)
    requires Valid(db)
    requires i1 < |c1.outline| && i2 < |c2.outline| && c1.outline[i1].name == c2.outline[i2].name
    ensures var db2 := SaveFromModel(SaveFromModel(db, c1).0, c2).0;
      && Get(db2, "module", c1.outline[i1].name).value.Some?
      && "course" in Get(db2, "module", c1.outline[i1].name).value.value.data
      && Get(db2, "module", c1.outline[i1].name).value.value.data["course"] == Text(c2.name)
  {
    var db1 := SaveFromModel(db, c1).0;
    var db2 := SaveFromModel(db1, c2).0;
    SavedModule(db1, c2, i2);
    var r := Get(db2, "module", c2.outline[i2].name);
    var k :| 0 <= k < |c2.outline| && c2.outline[k].name == c2.outline[i2].name
             && r.value.value.data == ModuleData(c2.name, c2.outline[k]);
  }

  /** Likewise a lesson key two courses share ends up holding the second
      course's lesson. */
  lemma LessonKeysShared(db: Db, c1: CourseSpec, c2: CourseSpec, i2: nat, j2: nat)
    requires Valid(db)
    requires forall k :: 0 <= k < |c2.outline| ==> '/' !in c2.outline[k].name
    requires i2 < |c2.outline| && j2 < |c2.outline[i2].lessons|
    ensures var db2 := SaveFromModel(SaveFromModel(db, c1).0, c2).0;
      var key := LessonKey(c2.outline[i2].name, c2.outline[i2].lessons[j2].name);
      && Get(db2, "lesson", key).value.Some?
      && "course" in Get(db2, "lesson", key).value.value.data
      && Get(db2, "lesson", key).value.value.data["course"] == Text(c2.name)
  {
    var db1 := SaveFromModel(db, c1).0;
    var saved := DocumentSave(db1, Document(None, "course", c2.name, CourseData(c2)));
    var ws := ModuleWrites(c2.name, c2.outline);
    assert SaveFromModel(db1, c2).0 == SaveAll(saved.0, ws);
    SavedLessonData(c2, i2, j2);
    SaveAllLastWins(saved.0, ws, "lesson", LessonKey(c2.outline[i2].name, c2.outline[i2].lessons[j2].name));
  }
}

=== FILE: outline.dfy ===
/** The outline of a course (riyaz/doctypes.py): an ordered list of modules,
    each an ordered list of lessons, and the position arithmetic the course
    pages use on it — 1-based module and lesson indexes, and stepping to the
    next or previous lesson across module boundaries.

    A module or lesson carries its `name` and `title` and whatever other
    fields the course definition gave it (`extra`, which never holds the keys
    `name`, `title` or `lessons`). */
module Outline {
  import opened Wrappers
  import opened Values

  datatype Lesson = Lesson(name: string, title: string, extra: Fields)

  datatype Module = Module(name: string, title: string, extra: Fields, lessons: seq<Lesson>)

  /** A lesson's place: the names of its module and of the lesson, the
      `{"module_name": ..., "lesson_name": ...}` entries of the flattened
      outline. */
  datatype Pair = Pair(moduleName: string, lessonName: string)

  /** Why stepping through the outline fails: `list.index` finds no entry. */
  datatype NavError = NotInOutline(place: Pair)

  // ---------------------------------------------------------------------------
  // Indexes

  /** `r` is the 1-based position of the first module named `name`, or
      `None` when no module has that name. */
  predicate IsModuleIndex(outline: seq<Module>, name: string, r: Option<nat>)
  {
    && (r.None? <==> forall i :: 0 <= i < |outline| ==> outline[i].name != name)
    && (r.Some? ==> 1 <= r.value <= |outline| && outline[r.value - 1].name == name)
    && (r.Some? ==> forall i :: 0 <= i < r.value - 1 ==> outline[i].name != name)
  }

  /** `next((idx for idx, m in enumerate(outline, 1) if m["name"] == name), None)`. */
  function ModuleIndex(outline: seq<Module>, name: string): (r: Option<nat>)
    ensures IsModuleIndex(outline, name, r)
  {
    if |outline| == 0 then None
    else if outline[0].name == name then Some(1)
    else
      var rest := ModuleIndex(outline[1..], name);
      assert forall i :: 1 <= i < |outline| ==> outline[i] == outline[1..][i - 1];
      if rest.None? then None else Some(rest.value + 1)
  }

  /** The same search over a module's lessons. */
  function LessonIndexIn(lessons: seq<Lesson>, name: string): (r: Option<nat>)
    ensures r.None? <==> forall i :: 0 <= i < |lessons| ==> lessons[i].name != name
    ensures r.Some? ==> 1 <= r.value <= |lessons| && lessons[r.value - 1].name == name
    ensures r.Some? ==> forall i :: 0 <= i < r.value - 1 ==> lessons[i].name != name
  {
    if |lessons| == 0 then None
    else if lessons[0].name == name then Some(1)
    else
      var rest := LessonIndexIn(lessons[1..], name);
      assert forall i :: 1 <= i < |lessons| ==> lessons[i] == lessons[1..][i - 1];
      if rest.None? then None else Some(rest.value + 1)
  }

  predicate NoLessonNamed(lessons: seq<Lesson>, name: string)
  {
    forall j :: 0 <= j < |lessons| ==> lessons[j].name != name
  }

  /** `r` holds the module's index and the 1-based position of the first
      lesson named `lessonName` inside that module; `None` when the module is
      missing or has no such lesson. */
  predicate IsLessonIndex(outline: seq<Module>, moduleName: string, lessonName: string, r: Option<(nat, nat)>)
  {
    var mi := ModuleIndex(outline, moduleName);
    && (r.None? <==> mi.None? || NoLessonNamed(outline[mi.value - 1].lessons, lessonName))
    && (r.Some? ==> mi == Some(r.value.0))
    && (r.Some? ==> var ls := outline[r.value.0 - 1].lessons;
          && 1 <= r.value.1 <= |ls| && ls[r.value.1 - 1].name == lessonName
          && forall j :: 0 <= j < r.value.1 - 1 ==> ls[j].name != lessonName)
  }

  /** `get_lesson_index(module_name, lesson_name)`: the 1-based positions of
      the first module with that name and of the first lesson with that name
      inside it; nothing when either is missing. Only the first module of
      that name is searched. */
  function LessonIndex(outline: seq<Module>, moduleName: string, lessonName: string): (r: Option<(nat, nat)>)
    ensures IsLessonIndex(outline, moduleName, lessonName, r)
  {
    var mi := ModuleIndex(outline, moduleName);
    if mi.None? then None
    else
      var li := LessonIndexIn(outline[mi.value - 1].lessons, lessonName);
      if li.None? then None else Some((mi.value, li.value))
  }

  /** A lesson position `li` inside module `k`, as a pair of indexes. */
  function InModule(k: nat, li: Option<nat>): (r: Option<(nat, nat)>)
    ensures r.None? <==> li.None?
    ensures r.Some? ==> r.value.0 == k && r.value.1 == li.value
  {
    if li.None? then None else Some((k, li.value))
  }

  /** Once the module is found at `k`, the lesson index is the search of its
      lessons. */
  lemma {:induction false} LessonIndexAtModule(outline: seq<Module>, moduleName: string, lessonName: string, k: nat)
    requires ModuleIndex(outline, moduleName) == Some(k)
    ensures LessonIndex(outline, moduleName, lessonName) == InModule(k, LessonIndexIn(outline[k - 1].lessons, lessonName))
  {
  }

  // ---------------------------------------------------------------------------
  // Flattening

  /** The places of one module's lessons, in order. */
  function Places(m: Module): (r: seq<Pair>)
    ensures |r| == |m.lessons|
    ensures forall j :: 0 <= j < |m.lessons| ==> r[j] == Pair(m.name, m.lessons[j].name)
  {
    seq(|m.lessons|, j requires 0 <= j < |m.lessons| => Pair(m.name, m.lessons[j].name))
  }

  /** The flattened outline: every module's lesson places, modules in order. */
  function Flatten(outline: seq<Module>): seq<Pair>
  {
    if |outline| == 0 then [] else Places(outline[0]) + Flatten(outline[1..])
  }

  /** The number of lessons in the modules before module `i`. */
  function Offset(outline: seq<Module>, i: nat): nat
    requires i <= |outline|
  {
    if i == 0 then 0 else Offset(outline, i - 1) + |outline[i - 1].lessons|
  }

  lemma {:induction false} FlattenAppend(a: seq<Module>, b: seq<Module>)
    ensures Flatten(a + b) == Flatten(a) + Flatten(b)
  {
    if |a| == 0 {
      assert a + b == b;
    } else {
      assert (a + b)[1..] == a[1..] + b;
      FlattenAppend(a[1..], b);
    }
  }

  lemma {:induction false} FlattenPrefix(outline: seq<Module>, i: nat)
    requires i <= |outline|
    ensures |Flatten(outline[..i])| == Offset(outline, i)
  {
    if i > 0 {
      FlattenPrefix(outline, i - 1);
      assert outline[..i] == outline[..i - 1] + [outline[i - 1]];
      FlattenAppend(outline[..i - 1], [outline[i - 1]]);
      assert Flatten([outline[i - 1]]) == Places(outline[i - 1]) + Flatten([]);
    }
  }

  /** Lesson `j` of module `i` sits at position `Offset(i) + j` of the
      flattened outline. */
  lemma FlattenAt(outline: seq<Module>, i: nat, j: nat)
    requires i < |outline| && j < |outline[i].lessons|
    ensures Offset(outline, i) + j < |Flatten(outline)|
    ensures Flatten(outline)[Offset(outline, i) + j] == Pair(outline[i].name, outline[i].lessons[j].name)
  {
    assert outline == outline[..i] + outline[i..];
    FlattenAppend(outline[..i], outline[i..]);
    FlattenPrefix(outline, i);
    assert Flatten(outline[i..]) == Places(outline[i]) + Flatten(outline[i + 1..]) by {
      assert outline[i..][1..] == outline[i + 1..];
    }
  }

  /** Every flattened place is some lesson of some module, and conversely. */
  lemma {:induction false} FlattenMembers(outline: seq<Module>, p: Pair)
    ensures p in Flatten(outline) <==>
      exists i, j :: 0 <= i < |outline| && 0 <= j < |outline[i].lessons| && p == Pair(outline[i].name, outline[i].lessons[j].name)
  {
    if |outline| > 0 {
      FlattenMembers(outline[1..], p);
      var f := Flatten(outline);
      assert f == Places(outline[0]) + Flatten(outline[1..]);
      if p in Places(outline[0]) {
        var j :| 0 <= j < |outline[0].lessons| && Places(outline[0])[j] == p;
        assert p == Pair(outline[0].name, outline[0].lessons[j].name);
      }
      if p in Flatten(outline[1..]) {
        var i, j :| 0 <= i < |outline[1..]| && 0 <= j < |outline[1..][i].lessons|
                    && p == Pair(outline[1..][i].name, outline[1..][i].lessons[j].name);
        assert outline[1..][i] == outline[i + 1];
      }
      if exists i, j :: 0 <= i < |outline| && 0 <= j < |outline[i].lessons| && p == Pair(outline[i].name, outline[i].lessons[j].name) {
        var i, j :| 0 <= i < |outline| && 0 <= j < |outline[i].lessons| && p == Pair(outline[i].name, outline[i].lessons[j].name);
        if i == 0 {
          assert Places(outline[0])[j] == p;
        } else {
          assert outline[1..][i - 1] == outline[i];
        }
      }
    }
  }

  /** The first position of `x` in `s`, `list.index`. */
  function FirstIndex<T(==)>(s: seq<T>, x: T): (r: Option<nat>)
    ensures r.None? <==> x !in s
    ensures r.Some? ==> r.value < |s| && s[r.value] == x && x !in s[..r.value]
  {
    if |s| == 0 then None
    else if s[0] == x then Some(0)
    else
      var rest := FirstIndex(s[1..], x);
      assert s == [s[0]] + s[1..];
      if rest.None? then None
      else
        assert s[..rest.value + 1] == [s[0]] + s[1..][..rest.value];
        Some(rest.value + 1)
  }

  // ---------------------------------------------------------------------------
  // Stepping

  /** The place after `p`'s first occurrence in the flattened outline, or
      nothing when that is the last place. */
  function NextPlace(outline: seq<Module>, p: Pair): (r: Result<Option<Pair>, NavError>)
    ensures r.Err? <==> p !in Flatten(outline)
    ensures r.Err? ==> r.error == NotInOutline(p)
    ensures r.Ok? ==> var f := Flatten(outline);
      exists k :: 0 <= k < |f| && f[k] == p && p !in f[..k]
                  && (r.value.None? <==> k == |f| - 1)
                  && (r.value.Some? ==> r.value.value == f[k + 1])
  {
    var f := Flatten(outline);
    var idx := FirstIndex(f, p);
    if idx.None? then Err(NotInOutline(p))
    else if idx.value + 1 < |f| then Ok(Some(f[idx.value + 1]))
    else Ok(None)
  }

  /** The place before `p`'s first occurrence, or nothing when that is the
      first place. */
  function PreviousPlace(outline: seq<Module>, p: Pair): (r: Result<Option<Pair>, NavError>)
    ensures r.Err? <==> p !in Flatten(outline)
    ensures r.Err? ==> r.error == NotInOutline(p)
    ensures r.Ok? ==> var f := Flatten(outline);
      exists k :: 0 <= k < |f| && f[k] == p && p !in f[..k]
                  && (r.value.None? <==> k == 0)
                  && (r.value.Some? ==> r.value.value == f[k - 1])
  {
    var f := Flatten(outline);
    var idx := FirstIndex(f, p);
    if idx.None? then Err(NotInOutline(p))
    else if idx.value >= 1 then Ok(Some(f[idx.value - 1]))
    else Ok(None)
  }

  predicate Distinct<T(==)>(s: seq<T>)
  {
    forall i, j :: 0 <= i < j < |s| ==> s[i] != s[j]
  }

  /** In a sequence without repeats, the first position of an element is its
      only position. */
  lemma FirstIndexDistinct<T>(s: seq<T>, k: nat)
    requires Distinct(s) && k < |s|
    ensures FirstIndex(s, s[k]) == Some(k)
  {
    var r := FirstIndex(s, s[k]);
    assert r.value < |s| && s[r.value] == s[k];
  }

  /** When no place repeats, stepping forward and then back returns to the
      start, and so does stepping back and then forward. */
  lemma NextPreviousInverse(outline: seq<Module>, p: Pair, q: Pair)
    requires Distinct(Flatten(outline))
    ensures NextPlace(outline, p) == Ok(Some(q)) <==> PreviousPlace(outline, q) == Ok(Some(p))
  {
    if NextPlace(outline, p) == Ok(Some(q)) {
      BackAfterNext(outline, p, q);
    }
    if PreviousPlace(outline, q) == Ok(Some(p)) {
      ForwardAfterPrevious(outline, p, q);
    }
  }

  lemma BackAfterNext(outline: seq<Module>, p: Pair, q: Pair)
    requires Distinct(Flatten(outline))
    requires NextPlace(outline, p) == Ok(Some(q))
    ensures PreviousPlace(outline, q) == Ok(Some(p))
  {
    var f := Flatten(outline);
    var k := FirstIndex(f, p).value;
    FirstIndexDistinct(f, k + 1);
  }

  lemma ForwardAfterPrevious(outline: seq<Module>, p: Pair, q: Pair)
    requires Distinct(Flatten(outline))
    requires PreviousPlace(outline, q) == Ok(Some(p))
    ensures NextPlace(outline, p) == Ok(Some(q))
  {
    var f := Flatten(outline);
    var k := FirstIndex(f, q).value;
    FirstIndexDistinct(f, k - 1);
  }

  /** When no place repeats, the next place after lesson `j` of module `i`
      is lesson `j + 1` of the same module, and after a module's last lesson
      it is the first lesson of the following module, if that has one. */
  lemma NextWithinAndAcross(outline: seq<Module>, i: nat, j: nat)
    requires Distinct(Flatten(outline))
    requires i < |outline| && j < |outline[i].lessons|
    ensures j + 1 < |outline[i].lessons| ==>
              NextPlace(outline, Pair(outline[i].name, outline[i].lessons[j].name))
              == Ok(Some(Pair(outline[i].name, outline[i].lessons[j + 1].name)))
    ensures j + 1 == |outline[i].lessons| && i + 1 < |outline| && |outline[i + 1].lessons| > 0 ==>
              NextPlace(outline, Pair(outline[i].name, outline[i].lessons[j].name))
              == Ok(Some(Pair(outline[i + 1].name, outline[i + 1].lessons[0].name)))
  {
    if j + 1 < |outline[i].lessons| {
      NextWithinModule(outline, i, j);
    }
    if j + 1 == |outline[i].lessons| && i + 1 < |outline| && |outline[i + 1].lessons| > 0 {
      NextAcrossModules(outline, i, j);
    }
  }

  lemma NextWithinModule(outline: seq<Module>, i: nat, j: nat)
    requires Distinct(Flatten(outline))
    requires i < |outline| && j + 1 < |outline[i].lessons|
    ensures NextPlace(outline, Pair(outline[i].name, outline[i].lessons[j].name))
            == Ok(Some(Pair(outline[i].name, outline[i].lessons[j + 1].name)))
  {
    FlattenAt(outline, i, j);
    FlattenAt(outline, i, j + 1);
    NextAt(outline, Offset(outline, i) + j);
  }

  lemma NextAcrossModules(outline: seq<Module>, i: nat, j: nat)
    requires Distinct(Flatten(outline))
    requires i + 1 < |outline| && j + 1 == |outline[i].lessons| && |outline[i + 1].lessons| > 0
    ensures NextPlace(outline, Pair(outline[i].name, outline[i].lessons[j].name))
            == Ok(Some(Pair(outline[i + 1].name, outline[i + 1].lessons[0].name)))
  {
    var k := Offset(outline, i) + j;
    FlattenAt(outline, i, j);
    FlattenAt(outline, i + 1, 0);
    assert Offset(outline, i + 1) == k + 1;
    NextAt(outline, k);
  }

  /** When no place repeats, the place after the one at `k` is at `k + 1`. */
  lemma NextAt(outline: seq<Module>, k: nat)
    requires Distinct(Flatten(outline)) && k + 1 < |Flatten(outline)|
    ensures NextPlace(outline, Flatten(outline)[k]) == Ok(Some(Flatten(outline)[k + 1]))
  {
    FirstIndexDistinct(Flatten(outline), k);
  }

  /** The first place has no previous place; when no place repeats, the last
      has no next place. */
  lemma Ends(outline: seq<Module>)
    requires |Flatten(outline)| > 0
    ensures PreviousPlace(outline, Flatten(outline)[0]) == Ok(None)
    ensures Distinct(Flatten(outline)) ==>
              NextPlace(outline, Flatten(outline)[|Flatten(outline)| - 1]) == Ok(None)
  {
    var f := Flatten(outline);
    assert FirstIndex(f, f[0]) == Some(0);
    if Distinct(f) {
      FirstIndexDistinct(f, |f| - 1);
    }
  }

  // ---------------------------------------------------------------------------
  // Stripping content

  /** `create_outline_without_content`: names and titles only, at both
      levels. */
  function WithoutContent(outline: seq<Module>): (r: seq<Module>)
    ensures |r| == |outline|
    ensures forall i :: 0 <= i < |outline| ==>
      && r[i].name == outline[i].name && r[i].title == outline[i].title && r[i].extra == map[]
      && |r[i].lessons| == |outline[i].lessons|
      && forall j :: 0 <= j < |outline[i].lessons| ==>
           r[i].lessons[j] == Lesson(outline[i].lessons[j].name, outline[i].lessons[j].title, map[])
  {
    seq(|outline|, i requires 0 <= i < |outline| =>
      var m := outline[i];
      Module(m.name, m.title, map[],
        seq(|m.lessons|, j requires 0 <= j < |m.lessons| => Lesson(m.lessons[j].name, m.lessons[j].title, map[]))))
  }

  /** Stripping twice is stripping once. */
  lemma WithoutContentIdempotent(outline: seq<Module>)
    ensures WithoutContent(WithoutContent(outline)) == WithoutContent(outline)
  {
    var once := WithoutContent(outline);
    var twice := WithoutContent(once);
    forall i | 0 <= i < |outline| ensures twice[i] == once[i] {
      assert twice[i].lessons == once[i].lessons;
    }
  }

  /** Stripping keeps every place, so indexes and steps are unchanged. */
  lemma {:induction false} WithoutContentFlatten(outline: seq<Module>)
    ensures Flatten(WithoutContent(outline)) == Flatten(outline)
  {
    if |outline| > 0 {
      var w := WithoutContent(outline);
      assert w[1..] == WithoutContent(outline[1..]);
      WithoutContentFlatten(outline[1..]);
      assert Places(w[0]) == Places(outline[0]);
    }
  }

  /** The module search looks at names only. */
  lemma {:induction false} ModuleIndexByNames(a: seq<Module>, b: seq<Module>, name: string)
    requires |a| == |b| && forall i :: 0 <= i < |a| ==> a[i].name == b[i].name
    ensures ModuleIndex(a, name) == ModuleIndex(b, name)
  {
    if |a| > 0 {
      assert forall i :: 0 <= i < |a| - 1 ==> a[1..][i].name == b[1..][i].name;
      ModuleIndexByNames(a[1..], b[1..], name);
    }
  }

  /** The lesson search looks at names only. */
  lemma {:induction false} LessonIndexInByNames(a: seq<Lesson>, b: seq<Lesson>, name: string)
    requires |a| == |b| && forall i :: 0 <= i < |a| ==> a[i].name == b[i].name
    ensures LessonIndexIn(a, name) == LessonIndexIn(b, name)
  {
    if |a| > 0 {
      assert forall i :: 0 <= i < |a| - 1 ==> a[1..][i].name == b[1..][i].name;
      LessonIndexInByNames(a[1..], b[1..], name);
    }
  }

  /** Indexes are the same on the stripped outline. */
  lemma WithoutContentIndexes(outline: seq<Module>, moduleName: string, lessonName: string)
    ensures ModuleIndex(WithoutContent(outline), moduleName) == ModuleIndex(outline, moduleName)
    ensures LessonIndex(WithoutContent(outline), moduleName, lessonName) == LessonIndex(outline, moduleName, lessonName)
  {
    var w := WithoutContent(outline);
    ModuleIndexByNames(w, outline, moduleName);
    var mi := ModuleIndex(outline, moduleName);
    if mi.Some? {
      LessonIndexInByNames(w[mi.value - 1].lessons, outline[mi.value - 1].lessons, lessonName);
    }
  }

  /** Steps are the same on the stripped outline. */
  lemma WithoutContentSteps(outline: seq<Module>, p: Pair)
    ensures NextPlace(WithoutContent(outline), p) == NextPlace(outline, p)
    ensures PreviousPlace(WithoutContent(outline), p) == PreviousPlace(outline, p)
  {
    WithoutContentFlatten(outline);
  }

  // ---------------------------------------------------------------------------
  // The course of the tests

  function L(name: string): Lesson
  {
    Lesson(name, name, map[])
  }

  /** An outline shaped like the sample course the tests use: `uno-module`
      with `onnu`, `rendu`, `moonu`, then `dos-module` starting with `naalu`
      and ending with `moonu`. */
  function AlphaOutline(): seq<Module>
  {
    [ Module("uno-module", "Uno", map[], [L("onnu-lesson"), L("rendu-lesson"), L("moonu-lesson")]),
      Module("dos-module", "Dos", map[], [L("naalu-lesson"), L("moonu-lesson")]) ]
  }

  lemma AlphaModuleIndexes()
    ensures ModuleIndex(AlphaOutline(), "uno-module") == Some(1)
    ensures ModuleIndex(AlphaOutline(), "non-existent-module") == None
  {
    var o := AlphaOutline();
    assert o[0].name == "uno-module";
    assert o[1].name == "dos-module";
  }

  lemma AlphaLessonIndexes()
    ensures LessonIndex(AlphaOutline(), "uno-module", "moonu-lesson") == Some((1, 3))
    ensures LessonIndex(AlphaOutline(), "uno-module", "naalu-lesson") == None
  {
    var o := AlphaOutline();
    AlphaModuleIndexes();
    var ls := o[0].lessons;
    assert ls[0].name == "onnu-lesson" && ls[1].name == "rendu-lesson" && ls[2].name == "moonu-lesson";
    assert LessonIndexIn(ls, "moonu-lesson") == Some(3);
    assert LessonIndexIn(ls, "naalu-lesson") == None;
  }

  /** The sample outline's five places, in order. */
  lemma AlphaFlatten()
    ensures Flatten(AlphaOutline()) == AlphaPlaces()
  {
    var o := AlphaOutline();
    assert o[1..][1..] == [];
    assert Flatten(o) == Places(o[0]) + Places(o[1]);
  }

  function AlphaPlaces(): seq<Pair>
  {
    [Pair("uno-module", "onnu-lesson"), Pair("uno-module", "rendu-lesson"), Pair("uno-module", "moonu-lesson"),
     Pair("dos-module", "naalu-lesson"), Pair("dos-module", "moonu-lesson")]
  }

  /** `list.index` finds `x` at `k` when no earlier entry equals it. */
  lemma FirstIndexAt<T>(s: seq<T>, x: T, k: nat)
    requires k < |s| && s[k] == x && forall j :: 0 <= j < k ==> s[j] != x
    ensures FirstIndex(s, x) == Some(k)
  {
    var r := FirstIndex(s, x);
    assert x in s[..k + 1] && s[..k + 1][k] == x;
    assert r.value <= k;
  }

  /** Stepping from the first occurrence of a place at `k`. */
  lemma StepsAt(outline: seq<Module>, k: nat)
    requires k < |Flatten(outline)|
    requires forall j :: 0 <= j < k ==> Flatten(outline)[j] != Flatten(outline)[k]
    ensures NextPlace(outline, Flatten(outline)[k])
            == Ok(if k + 1 < |Flatten(outline)| then Some(Flatten(outline)[k + 1]) else None)
    ensures PreviousPlace(outline, Flatten(outline)[k]) == Ok(if k > 0 then Some(Flatten(outline)[k - 1]) else None)
  {
    FirstIndexAt(Flatten(outline), Flatten(outline)[k], k);
  }

  lemma AlphaNextWithinModule()
    ensures NextPlace(AlphaOutline(), Pair("uno-module", "onnu-lesson")) == Ok(Some(Pair("uno-module", "rendu-lesson")))
  {
    AlphaFlatten();
    StepsAt(AlphaOutline(), 0);
  }

  lemma AlphaNextAcrossModules()
    ensures NextPlace(AlphaOutline(), Pair("uno-module", "moonu-lesson")) == Ok(Some(Pair("dos-module", "naalu-lesson")))
  {
    AlphaFlatten();
    var f := AlphaPlaces();
    assert f[0] != f[2] && f[1] != f[2];
    StepsAt(AlphaOutline(), 2);
  }

  lemma AlphaNextAtEnd()
    ensures NextPlace(AlphaOutline(), Pair("dos-module", "moonu-lesson")) == Ok(None)
  {
    AlphaFlatten();
    var f := AlphaPlaces();
    assert f[0] != f[4] && f[1] != f[4] && f[2] != f[4] && f[3] != f[4];
    StepsAt(AlphaOutline(), 4);
  }

  lemma AlphaPreviousAtStart()
    ensures PreviousPlace(AlphaOutline(), Pair("uno-module", "onnu-lesson")) == Ok(None)
  {
    AlphaFlatten();
    StepsAt(AlphaOutline(), 0);
  }

  lemma AlphaPreviousAcrossModules()
    ensures PreviousPlace(AlphaOutline(), Pair("dos-module", "naalu-lesson")) == Ok(Some(Pair("uno-module", "moonu-lesson")))
  {
    AlphaFlatten();
    var f := AlphaPlaces();
    assert f[0] != f[3] && f[1] != f[3] && f[2] != f[3];
    StepsAt(AlphaOutline(), 3);
  }
}

=== FILE: poll.dfy ===
/** The course name the live-reload script polls for (riyaz/static/poll.js):
    `getCourseName` reads it from the page's path `/courses/<name>/...`. The
    pages it runs on are lesson pages, whose paths `Lesson.get_url` writes
    (riyaz/doctypes.py). */
module Poll {
  import opened Wrappers
  import opened Strings

  const CoursesPrefix: string := "/courses/"

  /** JavaScript's `s.split(sep, limit)`: the full split, cut to `limit`
      pieces. */
  function SplitLimit(s: string, sep: char, limit: nat): (parts: seq<string>)
    ensures |parts| == if |Split(s, sep)| < limit then |Split(s, sep)| else limit
    ensures parts <= Split(s, sep)
  {
    var all := Split(s, sep);
    if |all| <= limit then all else all[..limit]
  }

  /** `getCourseName()` on the page path `path`: `None` stands for
      `undefined`. */
  function GetCourseName(path: string): (r: Option<string>)
    ensures r.None? <==> !(CoursesPrefix <= path)
    ensures r.Some? ==> '/' !in r.value
  {
    if !(CoursesPrefix <= path) then None
    else
      var parts := SplitLimit(path, '/', 3);
      CourseSegment(path);
      if |parts| < 3 then None else Some(parts[2])
  }

  /** A path under `/courses/` splits into "", "courses" and the pieces of
      the rest. */
  lemma CourseSegment(path: string)
    requires CoursesPrefix <= path
    ensures |Split(path, '/')| >= 3
    ensures Split(path, '/')[2] == TakeUntil(path[|CoursesPrefix|..], '/')
  {
    var rest := path[|CoursesPrefix|..];
    assert path == CoursesPrefix + rest;
    SplitCourses(rest);
    SplitHead(rest, '/');
  }

  lemma SplitTwoSegments(a: string, b: string, rest: string)
    requires '/' !in a && '/' !in b
    ensures Split(a + ['/'] + b + ['/'] + rest, '/') == [a, b] + Split(rest, '/')
  {
    assert a + ['/'] + b + ['/'] + rest == a + ['/'] + (b + ['/'] + rest);
    SplitAfter(a, '/', b + ['/'] + rest);
    SplitAfter(b, '/', rest);
  }

  lemma SplitCourses(rest: string)
    ensures Split(CoursesPrefix + rest, '/') == ["", "courses"] + Split(rest, '/')
  {
    assert CoursesPrefix == "" + ['/'] + "courses" + ['/'];
    SplitTwoSegments("", "courses", rest);
  }

  /** The course name is the text after `/courses/` up to the next `/` or
      the end; further segments do not matter. */
  lemma GetCourseNameMeaning(path: string)
    ensures GetCourseName(path) ==
              if CoursesPrefix <= path then Some(TakeUntil(path[|CoursesPrefix|..], '/')) else None
  {
    if CoursesPrefix <= path {
      CourseSegment(path);
    }
  }

  /** `/courses/` alone names the empty course rather than none. */
  lemma BarePrefix()
    ensures GetCourseName("/courses/") == Some("")
  {
    GetCourseNameMeaning("/courses/");
    assert "/courses/"[|CoursesPrefix|..] == "";
  }

  /** `Lesson.get_url()`: `/courses/<course>/<module>/<name>`. */
  function LessonUrl(course: string, moduleName: string, lessonName: string): string
  {
    CoursesPrefix + course + "/" + moduleName + "/" + lessonName
  }

  /** A character a URL path carries as written: ASCII letters and digits
      and `-._~`. */
  predicate PathSafeChar(c: char)
  {
    || 'a' <= c <= 'z' || 'A' <= c <= 'Z' || '0' <= c <= '9'
    || c == '-' || c == '.' || c == '_' || c == '~'
  }

  /** A path segment `location.pathname` gives back as written: safe
      characters only, and not one of the dot segments the URL parser
      removes. */
  predicate PathSafe(s: string)
  {
    && (forall i :: 0 <= i < |s| ==> PathSafeChar(s[i]))
    && s != "." && s != ".."
  }

  /** On a lesson page, the script finds the lesson's course, provided the
      course name is a segment the page's path keeps as written. */
  lemma LessonUrlCourse(course: string, moduleName: string, lessonName: string)
    requires PathSafe(course)
    ensures GetCourseName(LessonUrl(course, moduleName, lessonName)) == Some(course)
  {
    assert '/' !in course by {
      forall i | 0 <= i < |course| ensures course[i] != '/' {
        assert PathSafeChar(course[i]);
      }
    }
    var url := LessonUrl(course, moduleName, lessonName);
    var rest := course + "/" + moduleName + "/" + lessonName;
    assert url == CoursesPrefix + rest;
    assert url[|CoursesPrefix|..] == rest;
    assert rest == course + ['/'] + (moduleName + "/" + lessonName);
    SplitAfter(course, '/', moduleName + "/" + lessonName);
    SplitHead(rest, '/');
    GetCourseNameMeaning(url);
  }

  /** A course name holding `/` reads back as its piece before the first
      `/` only. */
  lemma SlashInCourse(first: string, rest: string, moduleName: string, lessonName: string)
    requires PathSafe(first)
    ensures GetCourseName(LessonUrl(first + "/" + rest, moduleName, lessonName)) == Some(first)
  {
    assert LessonUrl(first + "/" + rest, moduleName, lessonName) == LessonUrl(first, rest, moduleName + "/" + lessonName);
    LessonUrlCourse(first, rest, moduleName + "/" + lessonName);
  }
}

=== FILE: query.dfy ===
/** The query builder of the document database (`DBQuery` in riyaz/db.py).

    A query is built by adding equality or membership constraints on field
    names. Two names, `key` and `doctype`, are real columns of the single
    `document` table; every other name is looked up inside the JSON `data`
    column. The builder is persistent: `Where` returns a new query and leaves
    its argument as it was.

    The model keeps each constraint in structured form (`Cond`); the SQL text
    of a clause and its parameters are derived from it exactly as
    `_prepare_where` renders them. */
module Query {
  import opened Wrappers
  import opened Strings
  import opened Values

  /** The errors the database layer raises. */
  datatype DbError =
    | InvalidField(name: string)        // ValueError from `where`
    | UnsupportedOperator(op: string)   // an operator whose SQL meaning is not modelled
    | SqlError                          // a statement SQLite refuses to prepare or bind
    | KeyMissing(key: string)           // KeyError in `get_many`
    | DuplicateArgument(name: string)   // TypeError: a keyword given twice
    | NotSaved                          // the re-read after a save found nothing

  /** `\w` restricted to ASCII. */
  predicate IsWordChar(c: char)
  {
    'a' <= c <= 'z' || 'A' <= c <= 'Z' || '0' <= c <= '9' || c == '_'
  }

  predicate AllWordChars(s: string)
  {
    forall i :: 0 <= i < |s| ==> IsWordChar(s[i])
  }

  /** `RE_FIELD.match(name)` with `RE_FIELD = ^\w+$`: at least one word
      character and nothing else, except that Python's `$` also matches just
      before a final newline. */
  predicate IsFieldName(name: string)
  {
    || (|name| >= 1 && AllWordChars(name))
    || (|name| >= 2 && name[|name| - 1] == '\n' && AllWordChars(name[..|name| - 1]))
  }

  /** The column a constraint reads. */
  datatype Column = KeyColumn | DoctypeColumn | JsonField(name: string)

  function ColumnFor(name: string): Column
  {
    if name == "key" then KeyColumn
    else if name == "doctype" then DoctypeColumn
    else JsonField(name)
  }

  /** The SQL expression for a column. */
  function ColumnSql(c: Column): string
  {
    match c
    case KeyColumn => "key"
    case DoctypeColumn => "doctype"
    case JsonField(n) => "data->>'$." + n + "'"
  }

  /** One constraint: `column op value`. A list value is a placeholder group. */
  datatype Cond = Cond(column: Column, op: string, value: Value)

  datatype DBQuery = DBQuery(
    table: string,
    conds: seq<Cond>,
    limit: Option<Value>,
    offset: Option<Value>)

  /** `DBQuery()`. */
  const Fresh := DBQuery("document", [], None, None)

  /** The characters of a string, each as a one-character string (iterating a
      Python `str`). */
  function Chars(s: string): (cs: seq<string>)
    ensures |cs| == |s|
  {
    seq(|s|, i requires 0 <= i < |s| => [s[i]])
  }

  /** `"(" + ", ".join('?' * n) + ")"`. */
  function Placeholder(n: nat): string
  {
    "(" + Join(Chars(Repeat('?', n)), ", ") + ")"
  }

  /** `_prepare_where`: the clause text and its parameters. */
  function PrepareWhere(field: string, op: string, value: Value): (string, seq<Value>)
  {
    if value.Arr? then (field + " " + op + " " + Placeholder(|value.items|), value.items)
    else (field + " " + op + " ?", [value])
  }

  function ClauseSql(c: Cond): string
  {
    PrepareWhere(ColumnSql(c.column), c.op, c.value).0
  }

  function CondParams(c: Cond): seq<Value>
  {
    PrepareWhere(ColumnSql(c.column), c.op, c.value).1
  }

  /** `q.where_clauses`. */
  function WhereClauses(q: DBQuery): (cs: seq<string>)
    ensures |cs| == |q.conds|
  {
    seq(|q.conds|, i requires 0 <= i < |q.conds| => ClauseSql(q.conds[i]))
  }

  function ParamsOf(conds: seq<Cond>): seq<Value>
  {
    if |conds| == 0 then [] else CondParams(conds[0]) + ParamsOf(conds[1..])
  }

  /** `q.params`. */
  function Params(q: DBQuery): seq<Value>
  {
    ParamsOf(q.conds)
  }

  lemma {:induction false} ParamsOfAppend(conds: seq<Cond>, c: Cond)
    ensures ParamsOf(conds + [c]) == ParamsOf(conds) + CondParams(c)
  {
    if |conds| > 0 {
      assert (conds + [c])[1..] == conds[1..] + [c];
      ParamsOfAppend(conds[1..], c);
    }
  }

  /** `clone`: the clauses and parameters are copied, the table is kept, and
      `limit` and `offset` are dropped. */
  function Clone(q: DBQuery): (r: DBQuery)
    ensures r.table == q.table
    ensures WhereClauses(r) == WhereClauses(q) && Params(r) == Params(q)
    ensures r.limit.None? && r.offset.None?
  {
    DBQuery(q.table, q.conds, None, None)
  }

  /** `where(name, value, op)`: a copy of the query, without bounds, with one
      more clause. */
  function Where(q: DBQuery, name: string, value: Value, op: string := "="): (r: Result<DBQuery, DbError>)
    ensures r.Err? <==> !IsFieldName(name)
    ensures r.Err? ==> r.error == InvalidField(name)
    ensures r.Ok? ==> r.value.table == q.table && r.value.limit.None? && r.value.offset.None?
    ensures r.Ok? ==> r.value.conds == q.conds + [Cond(ColumnFor(name), op, value)]
  {
    if !IsFieldName(name) then Err(InvalidField(name))
    else
      var q' := Clone(q);
      Ok(q'.(conds := q'.conds + [Cond(ColumnFor(name), op, value)]))
  }

  /** The SQL `where` adds: the earlier clauses and parameters stay, and the
      new clause text and its parameters come last. */
  lemma WhereAppendsClause(q: DBQuery, name: string, value: Value, op: string)
    requires IsFieldName(name)
    ensures var r := Where(q, name, value, op).value;
      && |WhereClauses(r)| == |WhereClauses(q)| + 1
      && WhereClauses(r)[..|WhereClauses(q)|] == WhereClauses(q)
      && WhereClauses(r)[|WhereClauses(q)|]
           == ColumnSql(ColumnFor(name)) + " " + op + " " + (if value.Arr? then Placeholder(|value.items|) else "?")
      && Params(r) == Params(q) + (if value.Arr? then value.items else [value])
  {
    var c := Cond(ColumnFor(name), op, value);
    ParamsOfAppend(q.conds, c);
  }

  const SelectAll := "SELECT id, doctype, key, data FROM document"

  /** ` WHERE c1 AND c2 ...`, or nothing when there are no clauses. */
  function WherePart(q: DBQuery): string
  {
    if |q.conds| > 0 then " WHERE " + Join(WhereClauses(q), " AND ") else ""
  }

  const LimitMark := " LIMIT ?"

  /** One ` LIMIT ?` for `limit` and another for `offset`. */
  function BoundsPart(q: DBQuery): string
  {
    (if q.limit.Some? then LimitMark else "") + (if q.offset.Some? then LimitMark else "")
  }

  function BoundParams(q: DBQuery): seq<Value>
  {
    (if q.limit.Some? then [q.limit.value] else [])
    + (if q.offset.Some? then [q.offset.value] else [])
  }

  /** Everything `make_query` appends after the fixed `SELECT ... FROM document`. */
  function Tail(q: DBQuery): string
  {
    WherePart(q) + BoundsPart(q)
  }

  /** `make_query`: the SQL text and its parameter list. */
  function MakeQuery(q: DBQuery): (string, seq<Value>)
  {
    (SelectAll + Tail(q), Params(q) + BoundParams(q))
  }

  lemma PrefixOfConcat(a: string, b: string)
    ensures a <= a + b
  {
    assert (a + b)[..|a|] == a;
  }

  /** The SQL text always reads from `document`, whatever `table` says, and
      carries a WHERE part exactly when there are clauses. */
  lemma MakeQueryShape(q: DBQuery)
    ensures SelectAll <= MakeQuery(q).0
    ensures |q.conds| > 0 ==> SelectAll + " WHERE " <= MakeQuery(q).0
    ensures |q.conds| == 0 ==> MakeQuery(q).0 == SelectAll + BoundsPart(q)
  {
    PrefixOfConcat(SelectAll, Tail(q));
    if |q.conds| > 0 {
      WhereShape(q);
    }
  }

  /** With clauses, the text continues `SELECT ... FROM document WHERE `. */
  lemma WhereShape(q: DBQuery)
    requires |q.conds| > 0
    ensures SelectAll + " WHERE " <= MakeQuery(q).0
  {
    var j := Join(WhereClauses(q), " AND ");
    assert Tail(q) == (" WHERE " + j) + BoundsPart(q);
    PrefixOfNested(SelectAll, " WHERE ", j, BoundsPart(q));
  }

  lemma PrefixOfNested(a: string, b: string, c: string, d: string)
    ensures a + b <= a + ((b + c) + d)
  {
    var s := a + ((b + c) + d);
    assert forall i :: 0 <= i < |a + b| ==> (a + b)[i] == s[i];
  }

  /** `make_query` ignores `table`. */
  lemma MakeQueryIgnoresTable(q: DBQuery, table: string)
    ensures MakeQuery(q) == MakeQuery(q.(table := table))
  {
    var q' := q.(table := table);
    assert WhereClauses(q') == WhereClauses(q);
    assert Params(q') == Params(q);
  }

  /** `offset` is emitted as a second ` LIMIT ?`, never as `OFFSET`: the text
      ends in one ` LIMIT ?` per set bound. */
  lemma MakeQueryBounds(q: DBQuery)
    ensures q.limit.Some? && q.offset.Some? ==> EndsIn(MakeQuery(q).0, LimitMark + LimitMark)
    ensures q.limit.Some? != q.offset.Some? ==> EndsIn(MakeQuery(q).0, LimitMark)
    ensures q.limit.None? && q.offset.None? ==> MakeQuery(q).0 == SelectAll + WherePart(q)
  {
    var pre := SelectAll + WherePart(q);
    assert MakeQuery(q).0 == pre + BoundsPart(q);
    MarksAtEnd(pre, q.limit.Some?, q.offset.Some?);
  }

  lemma MarksAtEnd(pre: string, limit: bool, offset: bool)
    ensures var s := pre + ((if limit then LimitMark else "") + (if offset then LimitMark else ""));
      && (limit && offset ==> EndsIn(s, LimitMark + LimitMark))
      && (limit != offset ==> EndsIn(s, LimitMark))
      && (!limit && !offset ==> s == pre)
  {
    if !limit && !offset {
      assert pre + ("" + "") == pre;
    }
  }

  /** The bounds are the last parameters, limit first. */
  lemma MakeQueryBoundParams(q: DBQuery)
    ensures Params(q) <= MakeQuery(q).1
    ensures |MakeQuery(q).1| == |Params(q)| + (if q.limit.Some? then 1 else 0) + (if q.offset.Some? then 1 else 0)
    ensures q.limit.Some? ==> MakeQuery(q).1[|Params(q)|] == q.limit.value
    ensures q.offset.Some? ==> MakeQuery(q).1[|MakeQuery(q).1| - 1] == q.offset.value
  {
    StartsWith(Params(q), BoundParams(q));
  }

  /** `t` is a suffix of `s`. */
  predicate EndsIn(s: string, t: string)
  {
    |t| <= |s| && s[|s| - |t|..] == t
  }

  lemma EndsWith(a: string, b: string)
    ensures EndsIn(a + b, b)
  {
  }

  lemma StartsWith<T>(a: seq<T>, b: seq<T>)
    ensures a <= a + b
    ensures forall i :: 0 <= i < |b| ==> (a + b)[|a| + i] == b[i]
  {
  }

  /** A query as `where` builds it from validated names and `?`-free operators. */
  predicate WellBuilt(q: DBQuery)
  {
    forall i :: 0 <= i < |q.conds| ==>
      '?' !in q.conds[i].op
      && (q.conds[i].column.JsonField? ==> IsFieldName(q.conds[i].column.name))
  }

  /** A valid field name holds word characters and at most a final newline:
      nothing that could end the JSON path literal or add a placeholder. */
  lemma FieldNameIsInert(name: string)
    requires IsFieldName(name)
    ensures '?' !in name && '\'' !in name && ' ' !in name && '.' !in name
    ensures forall i :: 0 <= i < |name| ==> IsWordChar(name[i]) || (i == |name| - 1 && name[i] == '\n')
  {
    if !(|name| >= 1 && AllWordChars(name)) {
      assert name == name[..|name| - 1] + ['\n'];
    }
  }

  /** Examples of the regular expression: a trailing newline passes, an empty
      name, a dotted name or a quote does not. */
  lemma FieldNameExamples()
    ensures IsFieldName("abc\n") && IsFieldName("key") && IsFieldName("multiple_of_3")
    ensures !IsFieldName("") && !IsFieldName("\n") && !IsFieldName("a.b") && !IsFieldName("a'b") && !IsFieldName("a\n\n")
  {
    assert !IsWordChar("\n"[0]);
    assert !IsWordChar("a\n\n"[1]);
    assert !IsWordChar("a\n\n"[..2][1]);
    assert !IsWordChar('.');
    assert "a.b"[1] == '.';
    assert "a'b"[1] == '\'';
    assert "a\n\n"[1] == '\n';
    assert "a\n\n"[..2][1] == '\n';
  }

  lemma {:induction false} CountRepeat(c: char, n: nat)
    ensures Count(Repeat(c, n), c) == n
  {
    if n > 0 {
      assert Repeat(c, n) == [c] + Repeat(c, n - 1);
      CountConcat([c], Repeat(c, n - 1), c);
      CountRepeat(c, n - 1);
    }
  }

  lemma {:induction false} CountAllChars(s: string, c: char)
    ensures CountAll(Chars(s), c) == Count(s, c)
  {
    if |s| > 0 {
      assert Chars(s)[1..] == Chars(s[1..]);
      CountAllChars(s[1..], c);
    }
  }

  /** A group of `n` placeholders holds exactly `n` question marks; `()` for none. */
  lemma PlaceholderCount(n: nat)
    ensures Count(Placeholder(n), '?') == n
    ensures Placeholder(0) == "()"
  {
    var inner := Join(Chars(Repeat('?', n)), ", ");
    CountJoin(Chars(Repeat('?', n)), ", ", '?');
    CountAllChars(Repeat('?', n), '?');
    CountRepeat('?', n);
    CountConcat("(", inner, '?');
    CountConcat("(" + inner, ")", '?');
  }

  lemma ColumnSqlInert(col: Column)
    requires col.JsonField? ==> IsFieldName(col.name)
    ensures '?' !in ColumnSql(col)
  {
    match col
    case KeyColumn =>
      assert "key" == ['k', 'e', 'y'];
    case DoctypeColumn =>
      assert "doctype" == ['d', 'o', 'c', 't', 'y', 'p', 'e'];
    case JsonField(n) =>
      FieldNameIsInert(n);
      var head := "data->>'$.";
      assert head == ['d', 'a', 't', 'a', '-', '>', '>', '\'', '$', '.'];
      assert ColumnSql(col) == head + n + ['\''];
  }

  lemma ClauseCount(c: Cond)
    requires '?' !in c.op
    requires c.column.JsonField? ==> IsFieldName(c.column.name)
    ensures Count(ClauseSql(c), '?') == |CondParams(c)|
  {
    var f := ColumnSql(c.column);
    ColumnSqlInert(c.column);
    CountConcat(f, " ", '?');
    CountConcat(f + " ", c.op, '?');
    CountConcat(f + " " + c.op, " ", '?');
    if c.value.Arr? {
      PlaceholderCount(|c.value.items|);
      CountConcat(f + " " + c.op + " ", Placeholder(|c.value.items|), '?');
    } else {
      CountConcat(f + " " + c.op, " ?", '?');
    }
  }

  lemma {:induction false} ClausesCount(q: DBQuery)
    requires WellBuilt(q)
    ensures CountAll(WhereClauses(q), '?') == |Params(q)|
    decreases |q.conds|
  {
    if |q.conds| > 0 {
      var q' := q.(conds := q.conds[1..]);
      assert WhereClauses(q)[1..] == WhereClauses(q');
      ClauseCount(q.conds[0]);
      ClausesCount(q');
    }
  }

  lemma WherePartCount(q: DBQuery)
    requires WellBuilt(q)
    ensures Count(WherePart(q), '?') == |Params(q)|
  {
    if |q.conds| > 0 {
      ClausesCount(q);
      CountJoin(WhereClauses(q), " AND ", '?');
      CountConcat(" WHERE ", Join(WhereClauses(q), " AND "), '?');
    } else {
      assert Params(q) == [];
    }
  }

  lemma LimitCount()
    ensures Count(LimitMark, '?') == 1
  {
    var head := " LIMIT ";
    assert LimitMark == head + ['?'];
    assert '?' !in head;
    CountConcat(head, ['?'], '?');
  }

  lemma MarksCount(limit: bool, offset: bool)
    ensures Count((if limit then LimitMark else "") + (if offset then LimitMark else ""), '?')
            == (if limit then 1 else 0) + (if offset then 1 else 0)
  {
    LimitCount();
    CountConcat(if limit then LimitMark else "", if offset then LimitMark else "", '?');
  }

  lemma BoundsPartCount(q: DBQuery)
    ensures Count(BoundsPart(q), '?') == |BoundParams(q)|
  {
    MarksCount(q.limit.Some?, q.offset.Some?);
  }

  lemma SelectAllCount()
    ensures Count(SelectAll, '?') == 0
  {
    assert '?' !in SelectAll;
  }

  /** In the text `make_query` produces, the number of `?` equals the number
      of parameters. */
  lemma MakeQueryPlaceholders(q: DBQuery)
    requires WellBuilt(q)
    ensures Count(MakeQuery(q).0, '?') == |MakeQuery(q).1|
  {
    SelectAllCount();
    WherePartCount(q);
    BoundsPartCount(q);
    CountConcat(WherePart(q), BoundsPart(q), '?');
    CountConcat(SelectAll, Tail(q), '?');
  }

  /** `where` keeps a query well built when the operator has no `?`. */
  lemma WherePreservesWellBuilt(q: DBQuery, name: string, value: Value, op: string)
    requires WellBuilt(q) && '?' !in op
    ensures Where(q, name, value, op).Ok? ==> WellBuilt(Where(q, name, value, op).value)
  {
  }
}

=== FILE: store.dfy ===
/** The schemaless document store of riyaz/db.py over a single `document`
    table with columns `(id, doctype, key, data)`.

    The table is an ordered sequence of rows in storage (rowid) order. Running
    a query filters that sequence with the meaning SQLite gives the query's
    clauses; an insert appends a row whose id is one more than the largest id,
    and an update changes a row where it stands. JSON encoding is the identity
    on `Value`. */
module Store {
  import opened Wrappers
  import opened Values
  import opened Query
  import opened Strings

  datatype Row = Row(id: int, doctype: string, key: string, data: Fields)

  datatype Db = Db(rows: seq<Row>)

  predicate IdsIncreasing(rows: seq<Row>)
  {
    forall i, j :: 0 <= i < j < |rows| ==> rows[i].id < rows[j].id
  }

  predicate KeysUnique(rows: seq<Row>)
  {
    forall i, j :: 0 <= i < j < |rows| ==> rows[i].doctype != rows[j].doctype || rows[i].key != rows[j].key
  }

  /** The store invariant: positive ids in increasing storage order and at most
      one row per `(doctype, key)`. */
  predicate Valid(db: Db)
  {
    && IdsIncreasing(db.rows)
    && KeysUnique(db.rows)
    && forall i :: 0 <= i < |db.rows| ==> db.rows[i].id >= 1
  }

  // ---------------------------------------------------------------------------
  // What SQLite makes of a clause

  /** A SQLite value as it takes part in a comparison. `SqlJson` is the JSON
      text `->>` returns for an array or an object. */
  datatype Sql = SqlNull | SqlInt(i: int) | SqlText(s: string) | SqlJson(v: Value)

  /** `data->>'$.name'` for a stored value: booleans read as 0 and 1. */
  function JsonToSql(v: Value): Sql
  {
    match v
    case Null => SqlNull
    case Bool(b) => SqlInt(if b then 1 else 0)
    case Int(i) => SqlInt(i)
    case Text(s) => SqlText(s)
    case Arr(_) => SqlJson(v)
    case Obj(_) => SqlJson(v)
  }

  /** The range of SQLite's 64-bit signed integers. */
  predicate InInt64(i: int)
  {
    -0x8000_0000_0000_0000 <= i < 0x8000_0000_0000_0000
  }

  /** Binding a Python value to a `?`: lists and dicts cannot be bound, and
      an integer outside the 64-bit range overflows. */
  function Bind(v: Value): Option<Sql>
  {
    match v
    case Null => Some(SqlNull)
    case Bool(b) => Some(SqlInt(if b then 1 else 0))
    case Int(i) => if InInt64(i) then Some(SqlInt(i)) else None
    case Text(s) => Some(SqlText(s))
    case Arr(_) => None
    case Obj(_) => None
  }

  function BindOr(v: Value): Sql
  {
    match Bind(v)
    case Some(s) => s
    case None => SqlNull
  }

  /** `a = b` is true: NULL equals nothing, values of different storage
      classes are different. */
  predicate SqlEquals(a: Sql, b: Sql)
  {
    a != SqlNull && b != SqlNull && a == b
  }

  function ColumnValue(row: Row, col: Column): Sql
  {
    match col
    case KeyColumn => SqlText(row.key)
    case DoctypeColumn => SqlText(row.doctype)
    case JsonField(n) => if n in row.data then JsonToSql(row.data[n]) else SqlNull
  }

  /** Why SQLite would refuse a clause, if it would. `=` against a group of
      one placeholder, `x = (?)`, is a plain comparison. */
  function CondError(c: Cond): Option<DbError>
  {
    if c.op != "=" && c.op != "IN" then Some(UnsupportedOperator(c.op))
    else if exists v :: v in CondParams(c) && Bind(v).None? then Some(SqlError)
    else if c.op == "=" && c.value.Arr? && |c.value.items| != 1 then Some(SqlError)
    else if c.op == "IN" && !c.value.Arr? then Some(SqlError)
    else None
  }

  /** The one value an `=` clause compares with. */
  function EqOperand(v: Value): Value
  {
    if v.Arr? && |v.items| == 1 then v.items[0] else v
  }

  /** A row satisfies a clause SQLite accepts. */
  predicate Holds(row: Row, c: Cond)
  {
    && CondError(c).None?
    && var lhs := ColumnValue(row, c.column);
       if c.op == "=" then SqlEquals(lhs, BindOr(EqOperand(c.value)))
       else exists k :: 0 <= k < |c.value.items| && SqlEquals(lhs, BindOr(c.value.items[k]))
  }

  predicate Satisfies(row: Row, conds: seq<Cond>)
  {
    forall i :: 0 <= i < |conds| ==> Holds(row, conds[i])
  }

  /** The rows a WHERE part selects, in storage order. */
  function Select(rows: seq<Row>, conds: seq<Cond>): (r: seq<Row>)
    ensures forall x :: x in r <==> x in rows && Satisfies(x, conds)
    ensures IdsIncreasing(rows) ==> IdsIncreasing(r)
    ensures |r| > 0 ==> FirstSatisfying(rows, r[0], conds)
  {
    if |rows| == 0 then []
    else
      var rest := Select(rows[1..], conds);
      SelectConsMembers(rows, conds, rest);
      if Satisfies(rows[0], conds) then
        SelectConsIds(rows, rest);
        [rows[0]] + rest
      else
        SelectConsFirst(rows, conds, rest);
        rest
  }

  /** `x` is the first row of `rows` satisfying `conds`. */
  predicate FirstSatisfying(rows: seq<Row>, x: Row, conds: seq<Cond>)
  {
    exists k :: 0 <= k < |rows| && rows[k] == x && forall j :: 0 <= j < k ==> !Satisfies(rows[j], conds)
  }

  lemma SelectConsMembers(rows: seq<Row>, conds: seq<Cond>, rest: seq<Row>)
    requires |rows| > 0
    requires forall x :: x in rest <==> x in rows[1..] && Satisfies(x, conds)
    ensures Satisfies(rows[0], conds) ==> forall x :: x in [rows[0]] + rest <==> x in rows && Satisfies(x, conds)
    ensures !Satisfies(rows[0], conds) ==> forall x :: x in rest <==> x in rows && Satisfies(x, conds)
  {
    assert forall x :: x in rows <==> x == rows[0] || x in rows[1..] by {
      assert rows == [rows[0]] + rows[1..];
    }
  }

  lemma SelectConsIds(rows: seq<Row>, rest: seq<Row>)
    requires |rows| > 0
    requires forall x :: x in rest ==> x in rows[1..]
    requires IdsIncreasing(rows[1..]) ==> IdsIncreasing(rest)
    ensures IdsIncreasing(rows) ==> IdsIncreasing([rows[0]] + rest)
  {
    if IdsIncreasing(rows) {
      assert IdsIncreasing(rows[1..]);
      var r := [rows[0]] + rest;
      forall i, j | 0 <= i < j < |r| ensures r[i].id < r[j].id {
        if i == 0 {
          assert r[j] in rest;
          var k :| 0 <= k < |rows[1..]| && rows[1..][k] == r[j];
          assert rows[k + 1] == r[j];
        } else {
          assert r[i] == rest[i - 1] && r[j] == rest[j - 1];
        }
      }
    }
  }

  lemma SelectConsFirst(rows: seq<Row>, conds: seq<Cond>, rest: seq<Row>)
    requires |rows| > 0 && !Satisfies(rows[0], conds)
    requires |rest| > 0 ==> FirstSatisfying(rows[1..], rest[0], conds)
    ensures |rest| > 0 ==> FirstSatisfying(rows, rest[0], conds)
  {
    if |rest| > 0 {
      var k :| 0 <= k < |rows[1..]| && rows[1..][k] == rest[0]
               && forall j :: 0 <= j < k ==> !Satisfies(rows[1..][j], conds);
      assert rows[k + 1] == rest[0];
      forall j | 0 <= j < k + 1
        ensures !Satisfies(rows[j], conds)
      {
        if j > 0 {
          assert rows[j] == rows[1..][j - 1];
        }
      }
    }
  }

  function FirstError(conds: seq<Cond>): (e: Option<DbError>)
    ensures e.None? <==> forall i :: 0 <= i < |conds| ==> CondError(conds[i]).None?
  {
    if |conds| == 0 then None
    else if CondError(conds[0]).Some? then CondError(conds[0])
    else
      assert forall i :: 1 <= i < |conds| ==> conds[i] == conds[1..][i - 1];
      FirstError(conds[1..])
  }

  /** The integer a text converts to when SQLite applies numeric affinity,
      for texts of an optional sign followed by decimal digits. */
  function TextInt(s: string): Option<int>
  {
    if |s| > 0 && (s[0] == '-' || s[0] == '+') && IsDecimal(s[1..]) then
      var n: int := ParseNat(s[1..]); Some(if s[0] == '-' then -n else n)
    else if IsDecimal(s) then Some(ParseNat(s))
    else None
  }

  /** The integer a bound to `LIMIT ?` stands for: SQLite converts the bound
      value with numeric affinity and refuses anything that is not then a
      64-bit integer. NULL, a list or a dict are refused. */
  function BoundValue(v: Value): (r: Option<int>)
    ensures r.Some? ==> InInt64(r.value)
    ensures v.Int? ==> (r.Some? <==> InInt64(v.i)) && (r.Some? ==> r.value == v.i)
    ensures v.Bool? ==> r == Some(if v.b then 1 else 0)
    ensures v.Null? || v.Arr? || v.Obj? ==> r.None?
  {
    match v
    case Int(i) => if InInt64(i) then Some(i) else None
    case Bool(b) => Some(if b then 1 else 0)
    case Text(s) => if TextInt(s).Some? && InInt64(TextInt(s).value) then TextInt(s) else None
    case _ => None
  }

  /** A bound written as the decimal text of a 64-bit integer limits exactly
      as the integer does. */
  lemma {:induction false} TextBoundAsInt(i: int)
    requires InInt64(i)
    ensures BoundValue(Text(IntToString(i))) == Some(i)
  {
    var s := IntToString(i);
    if i < 0 {
      assert s[1..] == NatToString(-i);
      ParseNatToString(-i);
    } else {
      ParseNatToString(i);
      assert s[0] != '-' && s[0] != '+' by {
        assert IsDigit(s[0]);
      }
    }
  }

  /** `LIMIT n`: at most the first `n` rows; a negative bound means no bound. */
  function ApplyLimit(rows: seq<Row>, bound: Option<int>): (r: seq<Row>)
    ensures r <= rows
    ensures bound.None? || bound.value < 0 ==> r == rows
    ensures bound.Some? && bound.value >= 0 ==> |r| == if bound.value < |rows| then bound.value else |rows|
  {
    if bound.None? || bound.value < 0 || bound.value >= |rows| then rows
    else rows[..bound.value]
  }

  /** The bound `make_query` puts in its one `LIMIT ?`: the limit, else the
      offset. */
  function QueryBound(q: DBQuery): Option<Value>
  {
    if q.limit.Some? then q.limit else q.offset
  }

  /** Running the text `make_query` produces. With both bounds set the text
      ends in `LIMIT ? LIMIT ?`, which SQLite refuses; a lone `offset` acts as
      a limit; a bound must convert to an integer. */
  function Execute(db: Db, q: DBQuery): (r: Result<seq<Row>, DbError>)
    ensures r.Ok? <==> (forall i :: 0 <= i < |q.conds| ==> CondError(q.conds[i]).None?)
                       && !(q.limit.Some? && q.offset.Some?)
                       && (QueryBound(q).Some? ==> BoundValue(QueryBound(q).value).Some?)
    ensures r.Ok? ==> r.value <= Select(db.rows, q.conds)
    ensures r.Ok? && q.limit.None? && q.offset.None? ==> r.value == Select(db.rows, q.conds)
    ensures r.Ok? && QueryBound(q).Some? ==>
              var n := BoundValue(QueryBound(q).value).value;
              var all := |Select(db.rows, q.conds)|;
              |r.value| == if 0 <= n < all then n else all
  {
    var e := FirstError(q.conds);
    if e.Some? then Err(e.value)
    else if q.limit.Some? && q.offset.Some? then Err(SqlError)
    else if QueryBound(q).Some? && BoundValue(QueryBound(q).value).None? then Err(SqlError)
    else if QueryBound(q).None? then Ok(Select(db.rows, q.conds))
    else Ok(ApplyLimit(Select(db.rows, q.conds), BoundValue(QueryBound(q).value)))
  }

  // ---------------------------------------------------------------------------
  // Reading

  predicate HasKey(x: Row, doctype: string, key: string)
  {
    x.doctype == doctype && x.key == key
  }

  lemma ReservedNamesValid()
    ensures IsFieldName("doctype") && IsFieldName("key")
    ensures ColumnFor("doctype") == DoctypeColumn && ColumnFor("key") == KeyColumn
  {
    assert AllWordChars("doctype") by {
      forall i | 0 <= i < 7 ensures IsWordChar("doctype"[i]) {
      }
    }
    assert AllWordChars("key") by {
      forall i | 0 <= i < 3 ensures IsWordChar("key"[i]) {
      }
    }
  }

  /** The query `get` runs: `doctype = ? AND key = ?`. */
  lemma GetQueryShape(doctype: string, key: string)
    ensures Where(Fresh, "doctype", Text(doctype)).Ok?
    ensures Where(Where(Fresh, "doctype", Text(doctype)).value, "key", Text(key))
            == Ok(DBQuery("document", [Cond(DoctypeColumn, "=", Text(doctype)), Cond(KeyColumn, "=", Text(key))], None, None))
  {
    ReservedNamesValid();
    var q0 := Where(Fresh, "doctype", Text(doctype)).value;
    var c1 := Cond(DoctypeColumn, "=", Text(doctype));
    var c2 := Cond(KeyColumn, "=", Text(key));
    assert Fresh.conds + [c1] == [c1];
    assert q0 == DBQuery("document", [c1], None, None);
    assert [c1] + [c2] == [c1, c2];
  }

  lemma SatisfiesPair(x: Row, c1: Cond, c2: Cond)
    ensures Satisfies(x, [c1, c2]) <==> Holds(x, c1) && Holds(x, c2)
  {
    var cs := [c1, c2];
    if Holds(x, c1) && Holds(x, c2) {
      forall i | 0 <= i < 2 ensures Holds(x, cs[i]) {
      }
    }
    if Satisfies(x, cs) {
      assert Holds(x, cs[0]) && Holds(x, cs[1]);
    }
  }

  lemma SatisfiesKey(x: Row, doctype: string, key: string)
    ensures Satisfies(x, [Cond(DoctypeColumn, "=", Text(doctype)), Cond(KeyColumn, "=", Text(key))])
            <==> HasKey(x, doctype, key)
  {
    var conds := [Cond(DoctypeColumn, "=", Text(doctype)), Cond(KeyColumn, "=", Text(key))];
    assert CondParams(conds[0]) == [Text(doctype)];
    assert CondParams(conds[1]) == [Text(key)];
    assert Holds(x, conds[0]) <==> x.doctype == doctype;
    assert Holds(x, conds[1]) <==> x.key == key;
  }

  /** `get(doctype, key)`: the first row in storage order with that doctype
      and key, or nothing. */
  function Get(db: Db, doctype: string, key: string): (r: Result<Option<Row>, DbError>)
    ensures r.Ok?
    ensures r.value.None? <==> forall k :: 0 <= k < |db.rows| ==> !HasKey(db.rows[k], doctype, key)
    ensures r.value.Some? ==> exists k :: 0 <= k < |db.rows| && db.rows[k] == r.value.value
                                           && HasKey(db.rows[k], doctype, key)
                                           && forall j :: 0 <= j < k ==> !HasKey(db.rows[j], doctype, key)
  {
    GetQueryShape(doctype, key);
    var q := Where(Where(Fresh, "doctype", Text(doctype)).value, "key", Text(key)).value;
    GetExecutes(db, doctype, key);
    var docs := Execute(db, q).value;
    GetResult(db, doctype, key, docs);
    Ok(if |docs| > 0 then Some(docs[0]) else None)
  }

  /** The query `get` runs is accepted and reads every matching row. */
  lemma GetExecutes(db: Db, doctype: string, key: string)
    ensures var c1 := Cond(DoctypeColumn, "=", Text(doctype));
      var c2 := Cond(KeyColumn, "=", Text(key));
      Execute(db, DBQuery("document", [c1, c2], None, None)) == Ok(Select(db.rows, [c1, c2]))
  {
    var c1 := Cond(DoctypeColumn, "=", Text(doctype));
    var c2 := Cond(KeyColumn, "=", Text(key));
    assert CondParams(c1) == [Text(doctype)] && CondParams(c2) == [Text(key)];
    assert CondError(c1).None? && CondError(c2).None?;
    var cs := [c1, c2];
    assert forall i :: 0 <= i < |cs| ==> CondError(cs[i]).None?;
  }

  lemma GetResult(db: Db, doctype: string, key: string, docs: seq<Row>)
    requires docs == Select(db.rows, [Cond(DoctypeColumn, "=", Text(doctype)), Cond(KeyColumn, "=", Text(key))])
    ensures |docs| == 0 <==> forall k :: 0 <= k < |db.rows| ==> !HasKey(db.rows[k], doctype, key)
    ensures |docs| > 0 ==> exists k :: 0 <= k < |db.rows| && db.rows[k] == docs[0]
                                       && HasKey(db.rows[k], doctype, key)
                                       && forall j :: 0 <= j < k ==> !HasKey(db.rows[j], doctype, key)
  {
    forall x {
      SatisfiesKey(x, doctype, key);
    }
    if |docs| == 0 {
      forall k | 0 <= k < |db.rows| ensures !HasKey(db.rows[k], doctype, key) {
        assert db.rows[k] in db.rows;
      }
    } else {
      assert docs[0] in docs;
    }
  }

  /** Under the store invariant a `(doctype, key)` names at most one row. */
  lemma UniqueKey(db: Db, x: Row, y: Row, doctype: string, key: string)
    requires Valid(db)
    requires x in db.rows && y in db.rows
    requires HasKey(x, doctype, key) && HasKey(y, doctype, key)
    ensures x == y
  {
    var i :| 0 <= i < |db.rows| && db.rows[i] == x;
    var j :| 0 <= j < |db.rows| && db.rows[j] == y;
    SameKeySameIndex(db.rows, i, j);
  }

  /** Rows with unique keys that share a doctype and key stand at one index. */
  lemma SameKeySameIndex(rows: seq<Row>, i: nat, j: nat)
    requires KeysUnique(rows) && i < |rows| && j < |rows|
    requires rows[i].doctype == rows[j].doctype && rows[i].key == rows[j].key
    ensures i == j
  {
  }

  /** Under the store invariant `get` finds the one row with that doctype and key. */
  lemma GetUnique(db: Db, x: Row)
    requires Valid(db) && x in db.rows
    ensures Get(db, x.doctype, x.key) == Ok(Some(x))
  {
    var r := Get(db, x.doctype, x.key);
    var i :| 0 <= i < |db.rows| && db.rows[i] == x;
    assert HasKey(db.rows[i], x.doctype, x.key);
    var k :| 0 <= k < |db.rows| && db.rows[k] == r.value.value && HasKey(db.rows[k], x.doctype, x.key);
    UniqueKey(db, x, db.rows[k], x.doctype, x.key);
  }

  // ---------------------------------------------------------------------------
  // get_many

  lemma KeyInAccepted(keys: seq<string>)
    ensures CondError(Cond(KeyColumn, "IN", TextList(keys))).None?
  {
    var c := Cond(KeyColumn, "IN", TextList(keys));
    assert CondParams(c) == TextList(keys).items;
    forall v | v in CondParams(c) ensures Bind(v).Some? {
      var i :| 0 <= i < |keys| && TextList(keys).items[i] == v;
    }
  }

  /** The query `get_many` runs: `doctype = ? AND key IN (?, ...)`. */
  lemma GetManyQueryShape(doctype: string, keys: seq<string>)
    ensures Where(Fresh, "doctype", Text(doctype)).Ok?
    ensures Where(Where(Fresh, "doctype", Text(doctype)).value, "key", TextList(keys), "IN")
            == Ok(DBQuery("document", [Cond(DoctypeColumn, "=", Text(doctype)), Cond(KeyColumn, "IN", TextList(keys))], None, None))
  {
    ReservedNamesValid();
    var q0 := Where(Fresh, "doctype", Text(doctype)).value;
    var c1 := Cond(DoctypeColumn, "=", Text(doctype));
    var c2 := Cond(KeyColumn, "IN", TextList(keys));
    assert Fresh.conds + [c1] == [c1];
    assert q0 == DBQuery("document", [c1], None, None);
    assert [c1] + [c2] == [c1, c2];
  }

  lemma SatisfiesKeyIn(x: Row, doctype: string, keys: seq<string>)
    ensures Satisfies(x, [Cond(DoctypeColumn, "=", Text(doctype)), Cond(KeyColumn, "IN", TextList(keys))])
            <==> x.doctype == doctype && x.key in keys
  {
    var c1 := Cond(DoctypeColumn, "=", Text(doctype));
    var c2 := Cond(KeyColumn, "IN", TextList(keys));
    assert CondParams(c1) == [Text(doctype)];
    KeyInAccepted(keys);
    assert Holds(x, c1) <==> x.doctype == doctype;
    if x.key in keys {
      var i :| 0 <= i < |keys| && keys[i] == x.key;
      assert SqlEquals(SqlText(x.key), BindOr(TextList(keys).items[i]));
    }
    if Holds(x, c2) {
      var i :| 0 <= i < |TextList(keys).items| && SqlEquals(SqlText(x.key), BindOr(TextList(keys).items[i]));
      assert keys[i] == x.key;
      assert x.key in keys;
    }
    SatisfiesPair(x, c1, c2);
  }

  /** `{doc.key: doc for doc in docs}`: a later row with the same key wins. */
  function ByKey(docs: seq<Row>): (m: map<string, Row>)
    ensures forall k :: k in m <==> exists x :: x in docs && x.key == k
    ensures forall k :: k in m ==> m[k] in docs && m[k].key == k
  {
    if |docs| == 0 then map[]
    else
      var init := docs[..|docs| - 1];
      var last := docs[|docs| - 1];
      assert docs == init + [last];
      ByKey(init)[last.key := last]
  }

  /** `[docs[key] for key in keys]`, failing at the first missing key. */
  function Collect(m: map<string, Row>, keys: seq<string>): (r: Result<seq<Row>, DbError>)
    ensures r.Ok? <==> forall i :: 0 <= i < |keys| ==> keys[i] in m
    ensures r.Ok? ==> |r.value| == |keys| && forall i :: 0 <= i < |keys| ==> r.value[i] == m[keys[i]]
    ensures r.Err? ==> exists i :: 0 <= i < |keys| && r.error == KeyMissing(keys[i]) && keys[i] !in m
                                   && forall j :: 0 <= j < i ==> keys[j] in m
  {
    if |keys| == 0 then Ok([])
    else if keys[0] !in m then Err(KeyMissing(keys[0]))
    else
      var rest := Collect(m, keys[1..]);
      if rest.Err? then
        assert exists i :: 0 <= i < |keys| && rest.error == KeyMissing(keys[i]) && keys[i] !in m
                           && forall j :: 0 <= j < i ==> keys[j] in m by {
          var i :| 0 <= i < |keys[1..]| && rest.error == KeyMissing(keys[1..][i]) && keys[1..][i] !in m
                   && forall j :: 0 <= j < i ==> keys[1..][j] in m;
          assert forall j :: 1 <= j < i + 1 ==> keys[j] == keys[1..][j - 1];
          assert keys[i + 1] == keys[1..][i];
        }
        Err(rest.error)
      else
        Ok([m[keys[0]]] + rest.value)
  }

  /** `get_many(doctype, keys)`: the rows for the keys in the order the keys
      are given; a key without a row fails with that key. */
  function GetMany(db: Db, doctype: string, keys: seq<string>): (r: Result<seq<Row>, DbError>)
    ensures r.Ok? <==> forall i :: 0 <= i < |keys| ==> exists x :: x in db.rows && HasKey(x, doctype, keys[i])
    ensures r.Ok? ==> |r.value| == |keys|
    ensures r.Ok? ==> forall i :: 0 <= i < |keys| ==> r.value[i] in db.rows && HasKey(r.value[i], doctype, keys[i])
    ensures r.Err? ==> r.error.KeyMissing? && r.error.key in keys
                       && forall x :: x in db.rows ==> !HasKey(x, doctype, r.error.key)
  {
    GetManyQueryShape(doctype, keys);
    KeyInAccepted(keys);
    var q := Where(Where(Fresh, "doctype", Text(doctype)).value, "key", TextList(keys), "IN").value;
    var docs := Execute(db, q).value;
    forall x {
      SatisfiesKeyIn(x, doctype, keys);
    }
    assert forall x :: x in docs <==> x in db.rows && x.doctype == doctype && x.key in keys;
    Collect(ByKey(docs), keys)
  }

  /** Under the store invariant, each row `get_many` returns is the row `get`
      returns for that key, and a failing key is one `get` does not find. */
  lemma GetManyAgreesWithGet(db: Db, doctype: string, keys: seq<string>)
    requires Valid(db)
    ensures GetMany(db, doctype, keys).Ok? ==>
              forall i :: 0 <= i < |keys| ==> Get(db, doctype, keys[i]) == Ok(Some(GetMany(db, doctype, keys).value[i]))
    ensures GetMany(db, doctype, keys).Err? ==> Get(db, doctype, GetMany(db, doctype, keys).error.key) == Ok(None)
  {
    var r := GetMany(db, doctype, keys);
    if r.Ok? {
      forall i | 0 <= i < |keys| ensures Get(db, doctype, keys[i]) == Ok(Some(r.value[i])) {
        GetUnique(db, r.value[i]);
      }
    } else {
      var k := r.error.key;
      forall j | 0 <= j < |db.rows| ensures !HasKey(db.rows[j], doctype, k) {
        assert db.rows[j] in db.rows;
      }
    }
  }

  // ---------------------------------------------------------------------------
  // query and find

  /** Keyword arguments of a call, in the order written. */
  type Kwargs = seq<(string, Value)>

  predicate HasName(kw: Kwargs, name: string)
  {
    exists i :: 0 <= i < |kw| && kw[i].0 == name
  }

  /** The keywords whose names are not in `names`, in order: what a `**where`
      parameter collects beside the named parameters `names`. */
  function Without(kw: Kwargs, names: set<string>): (r: Kwargs)
    ensures |r| <= |kw|
    ensures forall p :: p in r <==> p in kw && p.0 !in names
  {
    if |kw| == 0 then []
    else
      assert kw == [kw[0]] + kw[1..];
      (if kw[0].0 in names then [] else [kw[0]]) + Without(kw[1..], names)
  }

  lemma {:induction false} WithoutAppend(kw: Kwargs, p: (string, Value), names: set<string>)
    ensures Without(kw + [p], names) == Without(kw, names) + (if p.0 in names then [] else [p])
  {
    if |kw| > 0 {
      assert (kw + [p])[1..] == kw[1..] + [p];
      WithoutAppend(kw[1..], p, names);
    } else {
      assert kw + [p] == [p];
    }
  }

  /** Taking out names no keyword uses leaves the keywords as they were. */
  lemma {:induction false} WithoutNothing(kw: Kwargs, names: set<string>)
    requires forall i :: 0 <= i < |kw| ==> kw[i].0 !in names
    ensures Without(kw, names) == kw
  {
    if |kw| > 0 {
      WithoutNothing(kw[1..], names);
    }
  }

  /** The value Python binds to the named parameter `name`: `None` unless a
      keyword of that name is given. */
  function Arg(kw: Kwargs, name: string): (r: Option<Value>)
    ensures r.Some? ==> HasName(kw, name)
  {
    if |kw| == 0 then None
    else if kw[0].0 == name then (if kw[0].1 == Null then None else Some(kw[0].1))
    else
      var r := Arg(kw[1..], name);
      assert r.Some? ==> HasName(kw, name) by {
        if r.Some? {
          var i :| 0 <= i < |kw[1..]| && kw[1..][i].0 == name;
          assert kw[i + 1].0 == name;
        }
      }
      r
  }

  /** The `**where` of `query`: every keyword except `limit` and `offset`. */
  function QueryWhere(kw: Kwargs): Kwargs
  {
    Without(kw, {"limit", "offset"})
  }

  /** The numeric reading of a JSON value: booleans are 0 and 1. */
  function NumOf(v: Value): Option<int>
  {
    match v
    case Bool(b) => Some(if b then 1 else 0)
    case Int(i) => Some(i)
    case _ => None
  }

  /** When a stored JSON value counts as equal to a query value: numbers
      (booleans included) by their numeric value, strings by their text; a
      null, a list or an object never does. */
  predicate ValueMatches(stored: Value, given: Value)
  {
    || (NumOf(stored).Some? && NumOf(stored) == NumOf(given))
    || (stored.Text? && stored == given)
  }

  /** A value `=` can compare with: a bindable scalar, or a one-element list
      holding one. */
  predicate Comparable(v: Value)
  {
    if v.Arr? then |v.items| == 1 && Bind(v.items[0]).Some? else Bind(v).Some?
  }

  /** A row meets the keyword constraint `name=v`. */
  predicate FieldMatches(x: Row, name: string, v: Value)
  {
    var given := EqOperand(v);
    if name == "key" then given == Text(x.key)
    else if name == "doctype" then given == Text(x.doctype)
    else name in x.data && ValueMatches(x.data[name], given)
  }

  /** A row answers `query(doctype, **where)`. */
  predicate QueryMatch(x: Row, doctype: string, where: Kwargs)
  {
    x.doctype == doctype && forall i :: 0 <= i < |where| ==> FieldMatches(x, where[i].0, where[i].1)
  }

  /** `x` is the first row in storage order that answers the query. */
  predicate IsFirstMatch(rows: seq<Row>, x: Row, doctype: string, where: Kwargs)
  {
    exists k :: 0 <= k < |rows| && rows[k] == x && QueryMatch(x, doctype, where)
                && forall j :: 0 <= j < k ==> !QueryMatch(rows[j], doctype, where)
  }

  /** What SQLite makes of `name = ?`, stated without SQL. */
  lemma EqCondMeaning(x: Row, name: string, v: Value)
    ensures CondError(Cond(ColumnFor(name), "=", v)).None? <==> Comparable(v)
    ensures Holds(x, Cond(ColumnFor(name), "=", v)) <==> Comparable(v) && FieldMatches(x, name, v)
  {
    var c := Cond(ColumnFor(name), "=", v);
    if v.Arr? {
      assert CondParams(c) == v.items;
      if |v.items| == 1 {
        assert v.items[0] in CondParams(c);
      }
    } else {
      assert CondParams(c) == [v];
    }
    if Comparable(v) {
      var g := EqOperand(v);
      assert Bind(g).Some?;
      if name != "key" && name != "doctype" && name in x.data {
        var s := x.data[name];
        assert SqlEquals(JsonToSql(s), BindOr(g)) <==> ValueMatches(s, g);
      }
    }
  }

  function EqConds(where: Kwargs): (cs: seq<Cond>)
    ensures |cs| == |where|
    ensures forall i :: 0 <= i < |where| ==> cs[i] == Cond(ColumnFor(where[i].0), "=", where[i].1)
  {
    seq(|where|, i requires 0 <= i < |where| => Cond(ColumnFor(where[i].0), "=", where[i].1))
  }

  /** One `where(name, value)` with a valid name appends an `=` clause. */
  lemma WhereStep(q: DBQuery, name: string, v: Value)
    requires IsFieldName(name)
    ensures Where(q, name, v) == Ok(DBQuery(q.table, q.conds + [Cond(ColumnFor(name), "=", v)], None, None))
  {
  }

  /** `for name, value in where.items(): q = q.where(name, value)`. */
  function WhereEach(q: DBQuery, where: Kwargs): (r: Result<DBQuery, DbError>)
    ensures r.Err? <==> exists i :: 0 <= i < |where| && !IsFieldName(where[i].0)
    ensures r.Err? ==> r.error.InvalidField? && !IsFieldName(r.error.name) && HasName(where, r.error.name)
    ensures r.Ok? ==> r.value.table == q.table && r.value.conds == q.conds + EqConds(where)
    ensures r.Ok? && |where| > 0 ==> r.value.limit.None? && r.value.offset.None?
    ensures |where| == 0 ==> r == Ok(q)
    decreases |where|
  {
    if |where| == 0 then Ok(q)
    else if !IsFieldName(where[0].0) then Err(InvalidField(where[0].0))
    else
      WhereStep(q, where[0].0, where[0].1);
      var q1 := DBQuery(q.table, q.conds + [Cond(ColumnFor(where[0].0), "=", where[0].1)], None, None);
      var r := WhereEach(q1, where[1..]);
      KwargsTail(where);
      if r.Ok? then
        EqCondsTail(q.conds, where);
        r
      else
        r
  }

  /** What `where` says of its tail, it says of itself. */
  lemma KwargsTail(where: Kwargs)
    requires |where| > 0
    ensures (exists i :: 0 <= i < |where| && !IsFieldName(where[i].0))
            <==> !IsFieldName(where[0].0) || exists i :: 0 <= i < |where[1..]| && !IsFieldName(where[1..][i].0)
    ensures forall name :: HasName(where[1..], name) ==> HasName(where, name)
  {
    assert forall i :: 1 <= i < |where| ==> where[i] == where[1..][i - 1];
    forall name | HasName(where[1..], name) ensures HasName(where, name) {
      var i :| 0 <= i < |where[1..]| && where[1..][i].0 == name;
      assert where[i + 1].0 == name;
    }
  }

  lemma EqCondsTail(conds: seq<Cond>, where: Kwargs)
    requires |where| > 0
    ensures conds + EqConds(where) == (conds + [Cond(ColumnFor(where[0].0), "=", where[0].1)]) + EqConds(where[1..])
  {
    assert EqConds(where) == [Cond(ColumnFor(where[0].0), "=", where[0].1)] + EqConds(where[1..]);
  }

  /** The clauses `query` builds: the doctype and then one per keyword. */
  function QueryCondsOf(doctype: string, where: Kwargs): (cs: seq<Cond>)
    ensures |cs| == |where| + 1
    ensures cs[0] == Cond(DoctypeColumn, "=", Text(doctype))
    ensures forall i :: 0 <= i < |where| ==> cs[i + 1] == Cond(ColumnFor(where[i].0), "=", where[i].1)
  {
    [Cond(DoctypeColumn, "=", Text(doctype))] + EqConds(where)
  }

  predicate AllComparable(where: Kwargs)
  {
    forall i :: 0 <= i < |where| ==> Comparable(where[i].1)
  }

  predicate Accepted(conds: seq<Cond>)
  {
    forall i :: 0 <= i < |conds| ==> CondError(conds[i]).None?
  }

  lemma DoctypeCond(x: Row, doctype: string)
    ensures CondError(Cond(DoctypeColumn, "=", Text(doctype))).None?
    ensures Holds(x, Cond(DoctypeColumn, "=", Text(doctype))) <==> x.doctype == doctype
  {
    assert CondParams(Cond(DoctypeColumn, "=", Text(doctype))) == [Text(doctype)];
  }

  /** SQLite accepts the clauses `query` builds exactly when every keyword
      value can be compared. */
  lemma QueryCondsAccepted(doctype: string, where: Kwargs)
    ensures Accepted(QueryCondsOf(doctype, where)) <==> AllComparable(where)
  {
    var conds := QueryCondsOf(doctype, where);
    DoctypeCond(Row(0, "", "", map[]), doctype);
    if Accepted(conds) {
      forall i | 0 <= i < |where| ensures Comparable(where[i].1) {
        EqCondMeaning(Row(0, "", "", map[]), where[i].0, where[i].1);
        assert CondError(conds[i + 1]).None?;
      }
    }
    if AllComparable(where) {
      forall i | 0 <= i < |conds| ensures CondError(conds[i]).None? {
        if i > 0 {
          EqCondMeaning(Row(0, "", "", map[]), where[i - 1].0, where[i - 1].1);
        }
      }
    }
  }

  /** A row satisfies the clauses `query` builds exactly when it answers the
      query, provided SQLite accepts them. */
  lemma QueryCondsHold(x: Row, doctype: string, where: Kwargs)
    ensures Satisfies(x, QueryCondsOf(doctype, where)) <==> AllComparable(where) && QueryMatch(x, doctype, where)
  {
    var conds := QueryCondsOf(doctype, where);
    DoctypeCond(x, doctype);
    if Satisfies(x, conds) {
      assert Holds(x, conds[0]);
      forall i | 0 <= i < |where| ensures Comparable(where[i].1) && FieldMatches(x, where[i].0, where[i].1) {
        EqCondMeaning(x, where[i].0, where[i].1);
        assert Holds(x, conds[i + 1]);
      }
    }
    if AllComparable(where) && QueryMatch(x, doctype, where) {
      forall i | 0 <= i < |conds| ensures Holds(x, conds[i]) {
        if i > 0 {
          EqCondMeaning(x, where[i - 1].0, where[i - 1].1);
        }
      }
    }
  }

  /** `query(doctype, **kw)`: the rows of that doctype meeting every keyword
      constraint, in storage order. `limit` and `offset` are taken by the
      named parameters and, since `where` clones them away, never bound the
      result. */
  function QueryDocs(db: Db, doctype: string, kw: Kwargs): (r: Result<seq<Row>, DbError>)
    ensures HasName(kw, "doctype") ==> r == Err(DuplicateArgument("doctype"))
    ensures !HasName(kw, "doctype") ==>
              (r.Ok? <==> forall i :: 0 <= i < |QueryWhere(kw)| ==> IsFieldName(QueryWhere(kw)[i].0) && Comparable(QueryWhere(kw)[i].1))
    ensures (!HasName(kw, "doctype") && exists i :: 0 <= i < |QueryWhere(kw)| && !IsFieldName(QueryWhere(kw)[i].0))
            ==> r.Err? && r.error.InvalidField?
    ensures r.Ok? ==> forall x :: x in r.value <==> x in db.rows && QueryMatch(x, doctype, QueryWhere(kw))
    ensures r.Ok? && IdsIncreasing(db.rows) ==> IdsIncreasing(r.value)
    ensures r.Ok? && |r.value| > 0 ==> IsFirstMatch(db.rows, r.value[0], doctype, QueryWhere(kw))
  {
    if HasName(kw, "doctype") then Err(DuplicateArgument("doctype"))
    else
      var where := QueryWhere(kw);
      var q0 := Where(DBQuery("document", [], Arg(kw, "limit"), Arg(kw, "offset")), "doctype", Text(doctype));
      QueryStart(doctype, Arg(kw, "limit"), Arg(kw, "offset"));
      var q := WhereEach(q0.value, where);
      if q.Err? then Err(q.error)
      else
        var r := Execute(db, q.value);
        QueryResult(db, doctype, where, q.value, r);
        r
  }

  /** `DBQuery(limit=limit, offset=offset).where('doctype', doctype)`: the
      bounds are gone. */
  lemma QueryStart(doctype: string, limit: Option<Value>, offset: Option<Value>)
    ensures Where(DBQuery("document", [], limit, offset), "doctype", Text(doctype))
            == Ok(DBQuery("document", [Cond(DoctypeColumn, "=", Text(doctype))], None, None))
  {
    ReservedNamesValid();
    WhereStep(DBQuery("document", [], limit, offset), "doctype", Text(doctype));
    assert [] + [Cond(DoctypeColumn, "=", Text(doctype))] == [Cond(DoctypeColumn, "=", Text(doctype))];
  }

  /** Running the clauses `query` builds returns the rows answering it. */
  lemma QueryResult(db: Db, doctype: string, where: Kwargs, q: DBQuery, r: Result<seq<Row>, DbError>)
    requires q == DBQuery("document", QueryCondsOf(doctype, where), None, None)
    requires r == Execute(db, q)
    ensures r.Ok? <==> AllComparable(where)
    ensures r.Ok? ==> forall x :: x in r.value <==> x in db.rows && QueryMatch(x, doctype, where)
    ensures r.Ok? && IdsIncreasing(db.rows) ==> IdsIncreasing(r.value)
    ensures r.Ok? && |r.value| > 0 ==> IsFirstMatch(db.rows, r.value[0], doctype, where)
  {
    QueryCondsAccepted(doctype, where);
    assert r.Ok? <==> Accepted(q.conds);
    if r.Ok? {
      assert r.value == Select(db.rows, q.conds);
      forall x ensures Satisfies(x, q.conds) <==> QueryMatch(x, doctype, where) {
        QueryCondsHold(x, doctype, where);
      }
      if |r.value| > 0 {
        var k :| 0 <= k < |db.rows| && db.rows[k] == r.value[0]
                  && forall j :: 0 <= j < k ==> !Satisfies(db.rows[j], q.conds);
        assert r.value[0] in r.value;
      }
    }
  }

  /** The bounds never matter: two calls that differ only in `limit` and
      `offset` return the same. */
  lemma QueryIgnoresBounds(db: Db, doctype: string, kw1: Kwargs, kw2: Kwargs)
    requires QueryWhere(kw1) == QueryWhere(kw2)
    requires HasName(kw1, "doctype") == HasName(kw2, "doctype")
    ensures QueryDocs(db, doctype, kw1) == QueryDocs(db, doctype, kw2)
  {
    ReservedNamesValid();
  }

  /** `find(doctype, **kw)`: the first row `query` returns, or nothing. */
  function Find(db: Db, doctype: string, kw: Kwargs): (r: Result<Option<Row>, DbError>)
    ensures HasName(kw, "doctype") ==> r == Err(DuplicateArgument("doctype"))
    ensures !HasName(kw, "doctype") && HasName(kw, "limit") ==> r == Err(DuplicateArgument("limit"))
    ensures !HasName(kw, "doctype") && !HasName(kw, "limit") ==> r.Ok? == QueryDocs(db, doctype, kw).Ok?
    ensures r.Ok? ==> (r.value.None? <==> forall k :: 0 <= k < |db.rows| ==> !QueryMatch(db.rows[k], doctype, QueryWhere(kw)))
    ensures r.Ok? && r.value.Some? ==> IsFirstMatch(db.rows, r.value.value, doctype, QueryWhere(kw))
  {
    if HasName(kw, "doctype") then Err(DuplicateArgument("doctype"))
    else if HasName(kw, "limit") then Err(DuplicateArgument("limit"))
    else
      var kw' := kw + [("limit", Int(1))];
      WithoutAppend(kw, ("limit", Int(1)), {"limit", "offset"});
      assert QueryWhere(kw') == QueryWhere(kw);
      QueryIgnoresBounds(db, doctype, kw, kw');
      var docs := QueryDocs(db, doctype, kw');
      if docs.Err? then Err(docs.error)
      else
        assert |docs.value| == 0 ==> forall k :: 0 <= k < |db.rows| ==> !QueryMatch(db.rows[k], doctype, QueryWhere(kw)) by {
          if |docs.value| == 0 {
            forall k | 0 <= k < |db.rows| ensures !QueryMatch(db.rows[k], doctype, QueryWhere(kw)) {
              assert db.rows[k] in db.rows;
            }
          }
        }
        Ok(if |docs.value| > 0 then Some(docs.value[0]) else None)
  }

  /** `find` fails only on a reserved or malformed keyword or an operand
      SQLite cannot bind. */
  lemma FindAccepted(db: Db, doctype: string, kw: Kwargs)
    requires !HasName(kw, "doctype") && !HasName(kw, "limit")
    requires forall i :: 0 <= i < |QueryWhere(kw)| ==> IsFieldName(QueryWhere(kw)[i].0) && Comparable(QueryWhere(kw)[i].1)
    ensures Find(db, doctype, kw).Ok?
  {
  }

  /** A `key=k` constraint is the test `get` makes. */
  lemma KeyMatch(x: Row, doctype: string, key: string)
    ensures QueryMatch(x, doctype, [("key", Text(key))]) <==> HasKey(x, doctype, key)
  {
    var w := [("key", Text(key))];
    assert w[0] == ("key", Text(key));
    assert FieldMatches(x, "key", Text(key)) <==> key == x.key;
    if HasKey(x, doctype, key) {
      forall i | 0 <= i < |w| ensures FieldMatches(x, w[i].0, w[i].1) {
      }
    }
  }

  lemma KeyWhere(key: string)
    ensures QueryWhere([("key", Text(key))]) == [("key", Text(key))]
    ensures !HasName([("key", Text(key))], "doctype") && !HasName([("key", Text(key))], "limit")
  {
    assert [("key", Text(key))][1..] == [];
  }

  lemma FirstUnique(rows: seq<Row>, doctype: string, key: string, k1: int, k2: int)
    requires 0 <= k1 < |rows| && 0 <= k2 < |rows|
    requires HasKey(rows[k1], doctype, key) && HasKey(rows[k2], doctype, key)
    requires forall j :: 0 <= j < k1 ==> !HasKey(rows[j], doctype, key)
    requires forall j :: 0 <= j < k2 ==> !HasKey(rows[j], doctype, key)
    ensures k1 == k2
  {
  }

  /** `get(doctype, key)` and `find(doctype, key=key)` agree. */
  lemma GetAgreesWithFind(db: Db, doctype: string, key: string)
    ensures Find(db, doctype, [("key", Text(key))]) == Get(db, doctype, key)
  {
    var kw := [("key", Text(key))];
    KeyWhere(key);
    ReservedNamesValid();
    assert Comparable(Text(key));
    FindAccepted(db, doctype, kw);
    var f := Find(db, doctype, kw);
    var g := Get(db, doctype, key);
    KeyedAsFirstMatch(db.rows, g.value, doctype, key);
    SameFirstMatch(db.rows, f.value, g.value, doctype, kw);
  }

  /** Two answers that are each "the first row meeting `where`, or none" are
      the same answer. */
  lemma SameFirstMatch(rows: seq<Row>, a: Option<Row>, b: Option<Row>, doctype: string, where: Kwargs)
    requires a.None? <==> forall k :: 0 <= k < |rows| ==> !QueryMatch(rows[k], doctype, where)
    requires b.None? <==> forall k :: 0 <= k < |rows| ==> !QueryMatch(rows[k], doctype, where)
    requires a.Some? ==> IsFirstMatch(rows, a.value, doctype, where)
    requires b.Some? ==> IsFirstMatch(rows, b.value, doctype, where)
    ensures a == b
  {
    if a.Some? {
      var k1 :| 0 <= k1 < |rows| && rows[k1] == a.value && QueryMatch(a.value, doctype, where)
                && forall j :: 0 <= j < k1 ==> !QueryMatch(rows[j], doctype, where);
      var k2 :| 0 <= k2 < |rows| && rows[k2] == b.value && QueryMatch(b.value, doctype, where)
                && forall j :: 0 <= j < k2 ==> !QueryMatch(rows[j], doctype, where);
      assert !(k1 < k2) && !(k2 < k1);
    }
  }

  /** What `Document.find` ends up matching: the keywords `q`, and the key
      when one is given. */
  function FindWhere(key: Option<string>, q: Kwargs): Kwargs
  {
    QueryWhere(q) + (if key.Some? then [("key", Text(key.value))] else [])
  }

  lemma HasNameAppend(kw: Kwargs, p: (string, Value), name: string)
    requires p.0 != name
    ensures HasName(kw + [p], name) == HasName(kw, name)
  {
    if HasName(kw + [p], name) {
      var i :| 0 <= i < |kw + [p]| && (kw + [p])[i].0 == name;
      assert i < |kw| && kw[i].0 == name;
    }
    if HasName(kw, name) {
      var i :| 0 <= i < |kw| && kw[i].0 == name;
      assert (kw + [p])[i].0 == name;
    }
  }

  /** The keywords `Document.find` hands to `find` when it does not take
      the `get` shortcut. */
  function FindKeywords(key: Option<string>, q: Kwargs): Kwargs
  {
    q + (if key.Some? then [("key", Text(key.value))] else [])
  }

  /** Adding the key keeps the other keywords' reserved names and adds the
      key constraint to the query; with no other keyword it is accepted. */
  lemma FindKeywordsFacts(key: Option<string>, q: Kwargs)
    ensures QueryWhere(FindKeywords(key, q)) == FindWhere(key, q)
    ensures HasName(FindKeywords(key, q), "doctype") == HasName(q, "doctype")
    ensures HasName(FindKeywords(key, q), "limit") == HasName(q, "limit")
    ensures |q| == 0 ==> forall i :: 0 <= i < |FindWhere(key, q)| ==>
              IsFieldName(FindWhere(key, q)[i].0) && Comparable(FindWhere(key, q)[i].1)
  {
    var kw := FindKeywords(key, q);
    if key.Some? {
      var p := ("key", Text(key.value));
      assert kw == q + [p];
      WithoutAppend(q, p, {"limit", "offset"});
      HasNameAppend(q, p, "doctype");
      HasNameAppend(q, p, "limit");
      if |q| == 0 {
        ReservedNamesValid();
        KeyWhere(key.value);
        assert Comparable(Text(key.value));
      }
    } else {
      assert kw == q;
    }
  }

  /** What `get` returns, read as the first row meeting `key=k`. */
  lemma KeyedAsFirstMatch(rows: seq<Row>, r: Option<Row>, doctype: string, key: string)
    requires r.None? <==> forall k :: 0 <= k < |rows| ==> !HasKey(rows[k], doctype, key)
    requires r.Some? ==> exists k :: 0 <= k < |rows| && rows[k] == r.value && HasKey(rows[k], doctype, key)
                                     && forall j :: 0 <= j < k ==> !HasKey(rows[j], doctype, key)
    ensures r.None? <==> forall k :: 0 <= k < |rows| ==> !QueryMatch(rows[k], doctype, [("key", Text(key))])
    ensures r.Some? ==> IsFirstMatch(rows, r.value, doctype, [("key", Text(key))])
  {
    forall x ensures QueryMatch(x, doctype, [("key", Text(key))]) <==> HasKey(x, doctype, key) {
      KeyMatch(x, doctype, key);
    }
  }

  /** What `Document.find(key=key, **q)` promises of its result `r`:
      reserved names are refused, no other keyword is an error, and a
      success is the first row of the doctype meeting every constraint. */
  predicate DocumentFindSpec(db: Db, doctype: string, key: Option<string>, q: Kwargs, r: Result<Option<Row>, DbError>)
  {
    && (|q| == 0 ==> r.Ok?)
    && (HasName(q, "doctype") ==> r == Err(DuplicateArgument("doctype")))
    && (!HasName(q, "doctype") && HasName(q, "limit") ==> r == Err(DuplicateArgument("limit")))
    && (r.Ok? ==> (r.value.None? <==> forall k :: 0 <= k < |db.rows| ==> !QueryMatch(db.rows[k], doctype, FindWhere(key, q))))
    && (r.Ok? && r.value.Some? ==> IsFirstMatch(db.rows, r.value.value, doctype, FindWhere(key, q)))
  }

  /** The `get` shortcut meets the promise. */
  lemma GetShortcut(db: Db, doctype: string, key: string)
    ensures DocumentFindSpec(db, doctype, Some(key), [], Get(db, doctype, key))
  {
    var g := Get(db, doctype, key);
    KeyedAsFirstMatch(db.rows, g.value, doctype, key);
    assert FindWhere(Some(key), []) == [("key", Text(key))];
  }

  /** `find` with the key added meets the promise. */
  lemma FindWithKey(db: Db, doctype: string, key: Option<string>, q: Kwargs)
    ensures DocumentFindSpec(db, doctype, key, q, Find(db, doctype, FindKeywords(key, q)))
  {
    FindKeywordsFacts(key, q);
    if |q| == 0 {
      FindAccepted(db, doctype, FindKeywords(key, q));
    }
  }

  /** `Document.find(key=key, **q)` for the model class of `doctype`: with a
      non-empty key and no other keyword it is `get`, otherwise `find` with the
      key added to the keywords. Either way it is the first row of the
      doctype meeting every constraint. `key` is a named parameter, so `q`
      never holds a keyword of that name. */
  function DocumentFind(db: Db, doctype: string, key: Option<string>, q: Kwargs): (r: Result<Option<Row>, DbError>)
    requires !HasName(q, "key")
    ensures DocumentFindSpec(db, doctype, key, q, r)
  {
    if key.Some? && key.value != "" && |q| == 0 then
      GetShortcut(db, doctype, key.value);
      Get(db, doctype, key.value)
    else
      FindWithKey(db, doctype, key, q);
      Find(db, doctype, FindKeywords(key, q))
  }

  /** Without a key, `Document.find(**q)` is `find(doctype, **q)`. */
  lemma DocumentFindUnkeyed(db: Db, doctype: string, q: Kwargs)
    requires !HasName(q, "key")
    ensures DocumentFind(db, doctype, None, q) == Find(db, doctype, q)
  {
    assert q + [] == q;
  }

  // ---------------------------------------------------------------------------
  // Writing

  /** The largest id in use, 0 for an empty table. */
  function MaxId(rows: seq<Row>): (m: int)
    ensures m >= 0
    ensures forall i :: 0 <= i < |rows| ==> rows[i].id <= m
  {
    if |rows| == 0 then 0
    else
      var m := MaxId(rows[..|rows| - 1]);
      assert forall i :: 0 <= i < |rows| - 1 ==> rows[i] == rows[..|rows| - 1][i];
      if rows[|rows| - 1].id > m then rows[|rows| - 1].id else m
  }

  /** `INSERT INTO document (doctype, key, data) VALUES (?, ?, ?)`: a new row
      at the end, with the id one past the largest in use, as SQLite chooses a
      rowid. */
  function Insert(db: Db, doctype: string, key: string, data: Fields): Db
  {
    Db(db.rows + [Row(MaxId(db.rows) + 1, doctype, key, data)])
  }

  /** `UPDATE document SET data=? WHERE id=?`. */
  function UpdateData(db: Db, id: int, data: Fields): Db
  {
    Db(seq(|db.rows|, i requires 0 <= i < |db.rows| =>
      if db.rows[i].id == id then db.rows[i].(data := data) else db.rows[i]))
  }

  /** `get` returns the first row with the key. */
  lemma GetAt(db: Db, doctype: string, key: string, k: int)
    requires 0 <= k < |db.rows| && HasKey(db.rows[k], doctype, key)
    requires forall j :: 0 <= j < k ==> !HasKey(db.rows[j], doctype, key)
    ensures Get(db, doctype, key) == Ok(Some(db.rows[k]))
  {
    var g := Get(db, doctype, key);
    var k2 :| 0 <= k2 < |db.rows| && db.rows[k2] == g.value.value && HasKey(db.rows[k2], doctype, key)
              && forall j :: 0 <= j < k2 ==> !HasKey(db.rows[j], doctype, key);
    FirstUnique(db.rows, doctype, key, k, k2);
  }

  /** The position of the row `get` returns. */
  lemma GetIndex(db: Db, doctype: string, key: string) returns (k: int)
    requires Get(db, doctype, key).value.Some?
    ensures 0 <= k < |db.rows| && db.rows[k] == Get(db, doctype, key).value.value && HasKey(db.rows[k], doctype, key)
    ensures forall j :: 0 <= j < k ==> !HasKey(db.rows[j], doctype, key)
  {
    var g := Get(db, doctype, key);
    k :| 0 <= k < |db.rows| && db.rows[k] == g.value.value && HasKey(db.rows[k], doctype, key)
         && forall j :: 0 <= j < k ==> !HasKey(db.rows[j], doctype, key);
  }

  /** `get` sees no difference between tables that agree on which rows have
      the key and on the rows that do. */
  lemma GetFrame(db: Db, db': Db, doctype: string, key: string)
    requires |db'.rows| == |db.rows|
    requires forall j :: 0 <= j < |db.rows| ==> HasKey(db'.rows[j], doctype, key) == HasKey(db.rows[j], doctype, key)
    requires forall j :: 0 <= j < |db.rows| && HasKey(db.rows[j], doctype, key) ==> db'.rows[j] == db.rows[j]
    ensures Get(db', doctype, key) == Get(db, doctype, key)
  {
    if Get(db, doctype, key).value.Some? {
      var k := GetIndex(db, doctype, key);
      GetAt(db', doctype, key, k);
    }
  }

  /** Appending a row without the key changes nothing `get` sees. */
  lemma GetAppend(db: Db, y: Row, doctype: string, key: string)
    requires !HasKey(y, doctype, key)
    ensures Get(Db(db.rows + [y]), doctype, key) == Get(db, doctype, key)
  {
    var db' := Db(db.rows + [y]);
    assert forall j :: 0 <= j < |db.rows| ==> db'.rows[j] == db.rows[j];
    if Get(db, doctype, key).value.Some? {
      var k := GetIndex(db, doctype, key);
      GetAt(db', doctype, key, k);
    } else {
      assert forall j :: 0 <= j < |db'.rows| ==> !HasKey(db'.rows[j], doctype, key);
    }
  }

  lemma InsertGet(db: Db, doctype: string, key: string, data: Fields)
    requires forall k :: 0 <= k < |db.rows| ==> !HasKey(db.rows[k], doctype, key)
    ensures Get(Insert(db, doctype, key, data), doctype, key) == Ok(Some(Row(MaxId(db.rows) + 1, doctype, key, data)))
  {
    var db' := Insert(db, doctype, key, data);
    InsertRows(db, doctype, key, data);
    GetAt(db', doctype, key, |db.rows|);
  }

  /** Inserting keeps the rows before the new one. */
  lemma InsertRows(db: Db, doctype: string, key: string, data: Fields)
    ensures |Insert(db, doctype, key, data).rows| == |db.rows| + 1
    ensures forall j :: 0 <= j < |db.rows| ==> Insert(db, doctype, key, data).rows[j] == db.rows[j]
    ensures Insert(db, doctype, key, data).rows[|db.rows|] == Row(MaxId(db.rows) + 1, doctype, key, data)
  {
  }

  lemma InsertValid(db: Db, doctype: string, key: string, data: Fields)
    requires Valid(db) && Get(db, doctype, key).value.None?
    ensures Valid(Insert(db, doctype, key, data))
  {
    var db' := Insert(db, doctype, key, data);
    assert forall j :: 0 <= j < |db.rows| ==> db'.rows[j] == db.rows[j];
  }

  lemma UpdateGet(db: Db, doctype: string, key: string, x: Row, data: Fields)
    requires Get(db, doctype, key) == Ok(Some(x))
    ensures Get(UpdateData(db, x.id, data), doctype, key) == Ok(Some(x.(data := data)))
  {
    var db' := UpdateData(db, x.id, data);
    var k := GetIndex(db, doctype, key);
    assert db'.rows[k] == x.(data := data);
    GetAt(db', doctype, key, k);
  }

  /** Under the store invariant the update touches exactly the row with that id. */
  lemma UpdateInPlace(db: Db, k: int, data: Fields)
    requires Valid(db) && 0 <= k < |db.rows|
    ensures UpdateData(db, db.rows[k].id, data).rows == db.rows[k := db.rows[k].(data := data)]
    ensures Valid(UpdateData(db, db.rows[k].id, data))
  {
  }

  /** `save(doctype, key, data)`: an upsert. The existing row for the key gets
      the new data in place and keeps its id; without one, a new row is
      appended. Afterwards `get` returns exactly the saved data. */
  function Save(db: Db, doctype: string, key: string, data: Fields): (r: Result<(Db, Row), DbError>)
    ensures r.Ok?
    ensures Get(r.value.0, doctype, key) == Ok(Some(r.value.1))
    ensures HasKey(r.value.1, doctype, key) && r.value.1.data == data
    ensures Get(db, doctype, key).value.Some? ==>
              r.value.1.id == Get(db, doctype, key).value.value.id && |r.value.0.rows| == |db.rows|
    ensures Get(db, doctype, key).value.None? ==>
              r.value.0.rows == db.rows + [r.value.1] && forall i :: 0 <= i < |db.rows| ==> db.rows[i].id < r.value.1.id
  {
    var existing := Get(db, doctype, key).value;
    if existing.Some? then
      var db' := UpdateData(db, existing.value.id, data);
      SaveUpdated(db, doctype, key, data, existing.value);
      var reread := Get(db', doctype, key).value;
      if reread.None? then Err(NotSaved) else Ok((db', reread.value))
    else
      var db' := Insert(db, doctype, key, data);
      SaveInserted(db, doctype, key, data);
      var reread := Get(db', doctype, key).value;
      if reread.None? then Err(NotSaved) else Ok((db', reread.value))
  }

  lemma SaveUpdated(db: Db, doctype: string, key: string, data: Fields, x: Row)
    requires Get(db, doctype, key) == Ok(Some(x))
    ensures var db' := UpdateData(db, x.id, data);
      && Get(db', doctype, key) == Ok(Some(x.(data := data)))
      && |db'.rows| == |db.rows|
      && (Valid(db) ==> Valid(db'))
      && (Valid(db) ==> exists k :: 0 <= k < |db.rows| && db.rows[k] == x && db'.rows == db.rows[k := x.(data := data)])
  {
    UpdateGet(db, doctype, key, x, data);
    var k :| 0 <= k < |db.rows| && db.rows[k] == x && HasKey(db.rows[k], doctype, key);
    if Valid(db) {
      UpdateInPlace(db, k, data);
    }
  }

  lemma SaveInserted(db: Db, doctype: string, key: string, data: Fields)
    requires Get(db, doctype, key).value.None?
    ensures var y := Row(MaxId(db.rows) + 1, doctype, key, data);
      var db' := Insert(db, doctype, key, data);
      && Get(db', doctype, key) == Ok(Some(y))
      && db'.rows == db.rows + [y]
      && (forall i :: 0 <= i < |db.rows| ==> db.rows[i].id < y.id)
      && (Valid(db) ==> Valid(db'))
  {
    InsertGet(db, doctype, key, data);
    if Valid(db) {
      InsertValid(db, doctype, key, data);
    }
  }

  /** A save keeps the store invariant, and on an existing key it replaces
      that one row where it stands. */
  lemma SaveKeepsValid(db: Db, doctype: string, key: string, data: Fields)
    ensures Valid(db) ==> Valid(Save(db, doctype, key, data).value.0)
    ensures Valid(db) && Get(db, doctype, key).value.Some? ==>
              exists k :: 0 <= k < |db.rows| && db.rows[k] == Get(db, doctype, key).value.value
                          && Save(db, doctype, key, data).value.0.rows == db.rows[k := Save(db, doctype, key, data).value.1]
  {
    var existing := Get(db, doctype, key).value;
    if existing.Some? {
      SaveUpdated(db, doctype, key, data, existing.value);
    } else {
      SaveInserted(db, doctype, key, data);
    }
  }

  /** A save leaves every other `(doctype, key)` as `get` sees it. */
  lemma SaveFrame(db: Db, doctype: string, key: string, data: Fields, doctype2: string, key2: string)
    requires Valid(db)
    requires doctype2 != doctype || key2 != key
    ensures Get(Save(db, doctype, key, data).value.0, doctype2, key2) == Get(db, doctype2, key2)
  {
    var existing := Get(db, doctype, key).value;
    var r := Save(db, doctype, key, data).value;
    if existing.Some? {
      SaveKeepsValid(db, doctype, key, data);
      var k :| 0 <= k < |db.rows| && db.rows[k] == existing.value && r.0.rows == db.rows[k := r.1];
      ReplaceFrame(db, r.0, k, r.1, doctype, key, doctype2, key2);
    } else {
      GetAppend(db, r.1, doctype2, key2);
    }
  }

  lemma ReplaceFrame(db: Db, db': Db, k: int, y: Row, doctype: string, key: string, doctype2: string, key2: string)
    requires 0 <= k < |db.rows| && db'.rows == db.rows[k := y]
    requires Get(db, doctype, key) == Ok(Some(db.rows[k])) && HasKey(y, doctype, key)
    requires doctype2 != doctype || key2 != key
    ensures Get(db', doctype2, key2) == Get(db, doctype2, key2)
  {
    var i :| 0 <= i < |db.rows| && db.rows[i] == db.rows[k] && HasKey(db.rows[i], doctype, key);
    GetFrame(db, db', doctype2, key2);
  }

  /** Saving the same key twice reuses the row: same id, no new row. */
  lemma SaveTwiceSameId(db: Db, doctype: string, key: string, data1: Fields, data2: Fields)
    ensures var r1 := Save(db, doctype, key, data1).value;
      var r2 := Save(r1.0, doctype, key, data2).value;
      && r2.1.id == r1.1.id
      && |r2.0.rows| == |r1.0.rows|
      && Get(r2.0, doctype, key).value.value.data == data2
  {
  }

  /** One `save(doctype, key, data)` call. */
  datatype Write = Write(doctype: string, key: string, data: Fields)

  /** A sequence of saves, in order. */
  function SaveAll(db: Db, ws: seq<Write>): (r: Db)
    ensures Valid(db) ==> Valid(r)
    ensures |r.rows| >= |db.rows|
    decreases |ws|
  {
    if |ws| == 0 then db
    else
      var db1 := Save(db, ws[0].doctype, ws[0].key, ws[0].data).value.0;
      SaveKeepsValid(db, ws[0].doctype, ws[0].key, ws[0].data);
      SaveAll(db1, ws[1..])
  }

  /** The data of the last write to `(doctype, key)`, if there is one. */
  function LastWrite(ws: seq<Write>, doctype: string, key: string): (r: Option<Fields>)
    ensures r.None? <==> forall i :: 0 <= i < |ws| ==> ws[i].doctype != doctype || ws[i].key != key
    ensures r.Some? ==> exists i :: 0 <= i < |ws| && ws[i].doctype == doctype && ws[i].key == key && ws[i].data == r.value
                                    && forall j :: i < j < |ws| ==> ws[j].doctype != doctype || ws[j].key != key
    decreases |ws|
  {
    if |ws| == 0 then None
    else
      var later := LastWrite(ws[1..], doctype, key);
      assert forall i :: 1 <= i < |ws| ==> ws[i] == ws[1..][i - 1];
      if later.Some? then later
      else if ws[0].doctype == doctype && ws[0].key == key then Some(ws[0].data)
      else None
  }

  /** After a sequence of saves, `get` sees the last data written to a key,
      and a key nobody wrote is as it was. */
  lemma {:induction false} SaveAllLastWins(db: Db, ws: seq<Write>, doctype: string, key: string)
    requires Valid(db)
    ensures LastWrite(ws, doctype, key).None? ==> Get(SaveAll(db, ws), doctype, key) == Get(db, doctype, key)
    ensures LastWrite(ws, doctype, key).Some? ==>
              && Get(SaveAll(db, ws), doctype, key).value.Some?
              && Get(SaveAll(db, ws), doctype, key).value.value.data == LastWrite(ws, doctype, key).value
    decreases |ws|
  {
    if |ws| > 0 {
      var w := ws[0];
      var db1 := Save(db, w.doctype, w.key, w.data).value.0;
      SaveKeepsValid(db, w.doctype, w.key, w.data);
      SaveAllLastWins(db1, ws[1..], doctype, key);
      if w.doctype != doctype || w.key != key {
        SaveFrame(db, w.doctype, w.key, w.data, doctype, key);
      }
    }
  }

  // ---------------------------------------------------------------------------
  // Document objects

  /** A `Document`: `id` stays `None` until the object is first saved. */
  datatype Document = Document(id: Option<int>, doctype: string, key: string, data: Fields)

  /** `Document.save()`: an upsert of the object's data under its doctype and
      key. The object takes the stored id only when it had none. */
  function DocumentSave(db: Db, doc: Document): (r: (Db, Document))
    ensures Get(r.0, doc.doctype, doc.key).value.Some?
    ensures Get(r.0, doc.doctype, doc.key).value.value.data == doc.data
    ensures doc.id.None? ==> r.1 == doc.(id := Some(Get(r.0, doc.doctype, doc.key).value.value.id))
    ensures doc.id.Some? ==> r.1 == doc
    ensures Valid(db) ==> Valid(r.0)
  {
    var saved := Save(db, doc.doctype, doc.key, doc.data).value;
    SaveKeepsValid(db, doc.doctype, doc.key, doc.data);
    (saved.0, if doc.id.None? then doc.(id := Some(saved.1.id)) else doc)
  }

  /** `process_row` as written: the object of the class registered for the
      row's doctype, built without passing the doctype on, so that a row of
      an unregistered doctype comes back as a base `Document` whose doctype is
      `"document"`. */
  function Materialize(x: Row, registered: set<string>): (d: Document)
    ensures d.id == Some(x.id) && d.key == x.key && d.data == x.data
    ensures d.doctype == x.doctype <==> x.doctype in registered || x.doctype == "document"
  {
    Document(Some(x.id), if x.doctype in registered then x.doctype else "document", x.key, x.data)
  }

  /** `process_row` with the row's doctype passed to the constructor. */
  function MaterializeFixed(x: Row): (d: Document)
    ensures d.id == Some(x.id) && d.doctype == x.doctype && d.key == x.key && d.data == x.data
  {
    Document(Some(x.id), x.doctype, x.key, x.data)
  }

  /** For a registered doctype the two agree. */
  lemma MaterializeRegistered(x: Row, registered: set<string>)
    requires x.doctype in registered
    ensures Materialize(x, registered) == MaterializeFixed(x)
  {
  }

  /** As written, reading a row of an unregistered doctype (say `number`),
      changing its data and saving the object back writes a new row under
      doctype `document` and leaves the original row unchanged. */
  lemma MaterializeLosesDoctype(db: Db, x: Row, registered: set<string>, data: Fields)
    requires Valid(db) && x in db.rows
    requires x.doctype !in registered && x.doctype != "document"
    requires Get(db, "document", x.key).value.None?
    ensures var doc := Materialize(x, registered);
      var r := DocumentSave(db, doc.(data := data));
      && doc.doctype == "document"
      && Get(r.0, x.doctype, x.key) == Ok(Some(x))
      && |r.0.rows| == |db.rows| + 1
      && Get(r.0, "document", x.key).value.value.data == data
  {
    GetUnique(db, x);
    SaveFrame(db, "document", x.key, data, x.doctype, x.key);
  }

  /** With the doctype passed on, reading a row, changing its data and saving
      it back updates that row in place. */
  lemma MaterializeFixedRoundTrip(db: Db, x: Row, data: Fields)
    requires Valid(db) && x in db.rows
    ensures var r := DocumentSave(db, MaterializeFixed(x).(data := data));
      && Get(r.0, x.doctype, x.key) == Ok(Some(x.(data := data)))
      && |r.0.rows| == |db.rows|
      && r.1.id == Some(x.id)
  {
    GetUnique(db, x);
  }
}

=== FILE: stored_outline.dfy ===
/** The outline a course document stores (riyaz/doctypes.py): its encoding
    as a JSON list of module objects and its decoding back, and the way
    `Course` reads the stored value as Python does — iterating it and
    subscripting its items by key, without asking anything more of it. */
module StoredOutline {
  import opened Wrappers
  import opened Values
  import opened Outline

  // ---------------------------------------------------------------------------
  // Encoding and decoding

  function EncodeLesson(l: Lesson): Value
  {
    Obj(l.extra["name" := Text(l.name)]["title" := Text(l.title)])
  }

  function EncodeLessons(lessons: seq<Lesson>): (v: Value)
    ensures v.Arr? && |v.items| == |lessons|
    ensures forall j :: 0 <= j < |lessons| ==> v.items[j] == EncodeLesson(lessons[j])
  {
    Arr(seq(|lessons|, j requires 0 <= j < |lessons| => EncodeLesson(lessons[j])))
  }

  function EncodeModule(m: Module): Value
  {
    Obj(m.extra["name" := Text(m.name)]["title" := Text(m.title)]["lessons" := EncodeLessons(m.lessons)])
  }

  /** An outline as the JSON list of module objects a course document holds. */
  function EncodeOutline(outline: seq<Module>): (v: Value)
    ensures v.Arr? && |v.items| == |outline|
    ensures forall i :: 0 <= i < |outline| ==> v.items[i] == EncodeModule(outline[i])
  {
    Arr(seq(|outline|, i requires 0 <= i < |outline| => EncodeModule(outline[i])))
  }

  /** The text of field `name`, when there is one. */
  function TextField(fields: Fields, name: string): (r: Option<string>)
    ensures r.Some? <==> name in fields && fields[name].Text?
    ensures r.Some? ==> fields[name] == Text(r.value)
  {
    if name in fields && fields[name].Text? then Some(fields[name].s) else None
  }

  /** Decodes every element, failing when one fails. */
  function DecodeEach<T>(vs: seq<Value>, decode: Value -> Option<T>): (r: Option<seq<T>>)
    ensures r.Some? <==> forall i :: 0 <= i < |vs| ==> decode(vs[i]).Some?
    ensures r.Some? ==> |r.value| == |vs| && forall i :: 0 <= i < |vs| ==> r.value[i] == decode(vs[i]).value
    decreases |vs|
  {
    if |vs| == 0 then Some([])
    else
      var head := decode(vs[0]);
      var tail := DecodeEach(vs[1..], decode);
      assert forall i :: 1 <= i < |vs| ==> vs[i] == vs[1..][i - 1];
      if head.None? || tail.None? then None else Some([head.value] + tail.value)
  }

  function DecodeLesson(v: Value): Option<Lesson>
  {
    if !v.Obj? then None
    else
      var name := TextField(v.fields, "name");
      var title := TextField(v.fields, "title");
      if name.None? || title.None? then None
      else Some(Lesson(name.value, title.value, v.fields - {"name", "title"}))
  }

  function DecodeModule(v: Value): Option<Module>
  {
    if !v.Obj? || "lessons" !in v.fields || !v.fields["lessons"].Arr? then None
    else
      var name := TextField(v.fields, "name");
      var title := TextField(v.fields, "title");
      var lessons := DecodeEach(v.fields["lessons"].items, DecodeLesson);
      if name.None? || title.None? || lessons.None? then None
      else Some(Module(name.value, title.value, v.fields - {"name", "title", "lessons"}, lessons.value))
  }

  /** A stored outline read back: a list of module objects, each with a text
      `name` and `title` and a list of lesson objects that have both too. */
  function DecodeOutline(v: Value): Option<seq<Module>>
  {
    if v.Arr? then DecodeEach(v.items, DecodeModule) else None
  }

  predicate LessonStorable(l: Lesson)
  {
    "name" !in l.extra && "title" !in l.extra
  }

  predicate ModuleStorable(m: Module)
  {
    && "name" !in m.extra && "title" !in m.extra && "lessons" !in m.extra
    && forall j :: 0 <= j < |m.lessons| ==> LessonStorable(m.lessons[j])
  }

  /** No extra field shadows one the encoding writes. */
  predicate Storable(outline: seq<Module>)
  {
    forall i :: 0 <= i < |outline| ==> ModuleStorable(outline[i])
  }

  lemma DecodeEncodeLesson(l: Lesson)
    requires LessonStorable(l)
    ensures DecodeLesson(EncodeLesson(l)) == Some(l)
  {
    var f := l.extra["name" := Text(l.name)]["title" := Text(l.title)];
    assert f - {"name", "title"} == l.extra;
  }

  lemma DecodeEncodeModule(m: Module)
    requires ModuleStorable(m)
    ensures DecodeModule(EncodeModule(m)) == Some(m)
  {
    var ls := EncodeLessons(m.lessons);
    forall j | 0 <= j < |m.lessons| ensures DecodeLesson(ls.items[j]) == Some(m.lessons[j]) {
      DecodeEncodeLesson(m.lessons[j]);
    }
    var decoded := DecodeEach(ls.items, DecodeLesson);
    assert decoded.value == m.lessons;
    var f := m.extra["name" := Text(m.name)]["title" := Text(m.title)]["lessons" := ls];
    assert f - {"name", "title", "lessons"} == m.extra;
  }

  /** Reading back a stored outline gives the outline that was stored. */
  lemma DecodeEncodeOutline(outline: seq<Module>)
    requires Storable(outline)
    ensures DecodeOutline(EncodeOutline(outline)) == Some(outline)
  {
    var v := EncodeOutline(outline);
    forall i | 0 <= i < |outline| ensures DecodeModule(v.items[i]) == Some(outline[i]) {
      DecodeEncodeModule(outline[i]);
    }
    assert DecodeEach(v.items, DecodeModule).value == outline;
  }

  lemma EncodeDecodeLesson(v: Value)
    requires DecodeLesson(v).Some?
    ensures LessonStorable(DecodeLesson(v).value) && EncodeLesson(DecodeLesson(v).value) == v
  {
    var l := DecodeLesson(v).value;
    assert l.extra["name" := Text(l.name)]["title" := Text(l.title)] == v.fields;
  }

  lemma EncodeDecodeModule(v: Value)
    requires DecodeModule(v).Some?
    ensures ModuleStorable(DecodeModule(v).value) && EncodeModule(DecodeModule(v).value) == v
  {
    var m := DecodeModule(v).value;
    var items := v.fields["lessons"].items;
    forall j | 0 <= j < |items| ensures LessonStorable(m.lessons[j]) && EncodeLesson(m.lessons[j]) == items[j] {
      EncodeDecodeLesson(items[j]);
    }
    assert EncodeLessons(m.lessons) == v.fields["lessons"];
    assert m.extra["name" := Text(m.name)]["title" := Text(m.title)]["lessons" := EncodeLessons(m.lessons)] == v.fields;
  }

  /** Anything that reads back as an outline is the encoding of what it reads
      back as. */
  lemma EncodeDecodeOutline(v: Value)
    requires DecodeOutline(v).Some?
    ensures Storable(DecodeOutline(v).value) && EncodeOutline(DecodeOutline(v).value) == v
  {
    var o := DecodeOutline(v).value;
    forall i | 0 <= i < |v.items| ensures ModuleStorable(o[i]) && EncodeModule(o[i]) == v.items[i] {
      EncodeDecodeModule(v.items[i]);
    }
    assert EncodeOutline(o).items == v.items;
  }

  /** Stripped outlines never have extra fields to shadow anything. */
  lemma WithoutContentStorable(outline: seq<Module>)
    ensures Storable(WithoutContent(outline))
  {
  }

  // ---------------------------------------------------------------------------
  // Reading the stored value as Python does

  /** `v[key]`: only a dict holding the key answers; a dict without it raises
      `KeyError` and any other value `TypeError`. */
  function Subscript(v: Value, key: string): (r: Option<Value>)
    ensures r.Some? <==> v.Obj? && key in v.fields
    ensures r.Some? ==> r.value == v.fields[key]
  {
    if v.Obj? && key in v.fields then Some(v.fields[key]) else None
  }

  /** The items `for item in v` visits, where every item visited is then
      subscripted by a key. A list gives its items and an empty string or
      dict gives none. A non-empty string or dict yields strings, and
      subscripting a string by a key raises at the first one; any other
      value is not iterable. Both of those are `None`. */
  function Elements(v: Value): (r: Option<seq<Value>>)
    ensures v.Arr? ==> r == Some(v.items)
    ensures v == Text("") || v == Obj(map[]) ==> r == Some([])
    ensures r.Some? <==> v.Arr? || v == Text("") || v == Obj(map[])
  {
    match v
    case Arr(items) => Some(items)
    case Text(s) => if |s| == 0 then Some([]) else None
    case Obj(fields) => if |fields| == 0 then Some([]) else None
    case _ => None
  }

  predicate HasNameField(v: Value)
  {
    v.Obj? && "name" in v.fields
  }

  /** `item["name"] == name` holds: Python's `==` between a stored value and
      a string is true only for that string. */
  predicate Named(v: Value, name: string)
  {
    HasNameField(v) && v.fields["name"] == Text(name)
  }

  /** `next((idx for idx, item in enumerate(items, 1) if item["name"] ==
      name), None)`: the generator stops at the first match, so only the
      items up to it are read. `None` is an exception raised by an item
      without a name on the way; `Some(None)` is no match. */
  function ScanNamed(items: seq<Value>, name: string): (r: Option<Option<nat>>)
    ensures r == Some(None) <==> forall i :: 0 <= i < |items| ==> HasNameField(items[i]) && !Named(items[i], name)
    ensures r.Some? && r.value.Some? ==>
              && 1 <= r.value.value <= |items| && Named(items[r.value.value - 1], name)
              && forall i :: 0 <= i < r.value.value - 1 ==> HasNameField(items[i]) && !Named(items[i], name)
    ensures r.None? ==> exists k :: 0 <= k < |items| && !HasNameField(items[k])
                                    && forall i :: 0 <= i < k ==> !Named(items[i], name)
  {
    ScanFrom(items, name, 0)
  }

  /** The same scan started at position `from` (0-based); an index found is
      still 1-based in `items`. */
  function ScanFrom(items: seq<Value>, name: string, from: nat): (r: Option<Option<nat>>)
    requires from <= |items|
    ensures r == Some(None) <==> forall i :: from <= i < |items| ==> HasNameField(items[i]) && !Named(items[i], name)
    ensures r.Some? && r.value.Some? ==>
              && from + 1 <= r.value.value <= |items| && Named(items[r.value.value - 1], name)
              && forall i :: from <= i < r.value.value - 1 ==> HasNameField(items[i]) && !Named(items[i], name)
    ensures r.None? ==> exists k :: from <= k < |items| && !HasNameField(items[k])
                                    && forall i :: from <= i < k ==> !Named(items[i], name)
    decreases |items| - from
  {
    if from == |items| then Some(None)
    else if !HasNameField(items[from]) then None
    else if Named(items[from], name) then Some(Some(from + 1))
    else ScanFrom(items, name, from + 1)
  }

  /** `Course.get_module_index` on the stored value. */
  function ModuleIndexRead(outline: Value, name: string): Option<Option<nat>>
  {
    var items := Elements(outline);
    if items.None? then None else ScanNamed(items.value, name)
  }

  /** `module["lessons"]` iterated. */
  function LessonItems(m: Value): (r: Option<seq<Value>>)
    ensures r.Some? <==> m.Obj? && "lessons" in m.fields && Elements(m.fields["lessons"]).Some?
    ensures r.Some? ==> r == Elements(m.fields["lessons"])
  {
    var lessons := Subscript(m, "lessons");
    if lessons.None? then None else Elements(lessons.value)
  }

  /** `Course.get_lesson_index` on the stored value: the module's index, then
      the scan of that module's `lessons`; `lesson_i and ...` is nothing when
      no lesson matches. */
  function LessonIndexRead(outline: Value, moduleName: string, lessonName: string): (r: Option<Option<(nat, nat)>>)
    ensures ModuleIndexRead(outline, moduleName) == Some(None) ==> r == Some(None)
  {
    var items := Elements(outline);
    if items.None? then None
    else
      var mi := ScanNamed(items.value, moduleName);
      if mi.None? then None
      else if mi.value.None? then Some(None)
      else
        var ls := LessonItems(items.value[mi.value.value - 1]);
        var li := if ls.None? then None else ScanNamed(ls.value, lessonName);
        if li.None? then None
        else if li.value.None? then Some(None)
        else Some(Some((mi.value.value, li.value.value)))
  }

  /** Module `r.0` of the stored outline is a mapping whose `lessons` is a
      list, and lesson `r.1` is the first in it named `lessonName` (both
      1-based). */
  predicate LessonAtIndex(outline: Value, lessonName: string, r: (nat, nat))
  {
    && outline.Arr? && 1 <= r.0 <= |outline.items|
    && var m := outline.items[r.0 - 1];
       && m.Obj? && "lessons" in m.fields && m.fields["lessons"].Arr?
       && var ls := m.fields["lessons"].items;
          && 1 <= r.1 <= |ls| && Named(ls[r.1 - 1], lessonName)
          && forall j :: 0 <= j < r.1 - 1 ==> !Named(ls[j], lessonName)
  }

  /** What a lesson index read from the stored value means: the module is
      the one `get_module_index` finds, and the lesson is the first in its
      `lessons` with the name. */
  lemma LessonIndexReadFound(outline: Value, moduleName: string, lessonName: string, r: (nat, nat))
    requires LessonIndexRead(outline, moduleName, lessonName) == Some(Some(r))
    ensures ModuleIndexRead(outline, moduleName) == Some(Some(r.0))
    ensures LessonAtIndex(outline, lessonName, r)
  {
  }

  /** An entry of the flattened outline,
      `{"module_name": module["name"], "lesson_name": lesson["name"]}`, with
      whatever values those fields hold. */
  datatype Entry = Entry(moduleName: Value, lessonName: Value)

  /** The entry of a place whose names are text. */
  function EntryOf(p: Pair): Entry
  {
    Entry(Text(p.moduleName), Text(p.lessonName))
  }

  function Lift(ps: seq<Pair>): (es: seq<Entry>)
    ensures |es| == |ps|
    ensures forall i :: 0 <= i < |ps| ==> es[i] == EntryOf(ps[i])
  {
    seq(|ps|, i requires 0 <= i < |ps| => EntryOf(ps[i]))
  }

  /** The entries of one module: each lesson reads the module's name, then its
      own. A module without lessons has its name never read. */
  function ModuleEntries(m: Value, lessons: seq<Value>): (r: Option<seq<Entry>>)
    ensures r.Some? <==> (|lessons| > 0 ==> HasNameField(m)) && forall j :: 0 <= j < |lessons| ==> HasNameField(lessons[j])
    ensures r.Some? ==> && |r.value| == |lessons|
                        && forall j :: 0 <= j < |lessons| ==> r.value[j] == Entry(m.fields["name"], lessons[j].fields["name"])
    decreases |lessons|
  {
    if |lessons| == 0 then Some([])
    else
      var moduleName := Subscript(m, "name");
      var lessonName := Subscript(lessons[0], "name");
      var rest := ModuleEntries(m, lessons[1..]);
      assert forall j :: 1 <= j < |lessons| ==> lessons[j] == lessons[1..][j - 1];
      if moduleName.None? || lessonName.None? || rest.None? then None
      else Some([Entry(moduleName.value, lessonName.value)] + rest.value)
  }

  /** The list comprehension over every module's `lessons`; it reads every
      module, so any unreadable one raises. */
  function RawFlatten(modules: seq<Value>): (r: Option<seq<Entry>>)
    decreases |modules|
  {
    if |modules| == 0 then Some([])
    else
      var lessons := Subscript(modules[0], "lessons");
      var items := if lessons.None? then None else Elements(lessons.value);
      var here := if items.None? then None else ModuleEntries(modules[0], items.value);
      var rest := RawFlatten(modules[1..]);
      if here.None? || rest.None? then None else Some(here.value + rest.value)
  }

  /** `flattened_lessons` for the stored value. */
  function FlatEntries(outline: Value): Option<seq<Entry>>
  {
    var items := Elements(outline);
    if items.None? then None else RawFlatten(items.value)
  }

  // ---------------------------------------------------------------------------
  // Reading agrees with decoding

  /** A first item named `name` at position `k`, every earlier one having a
      name, is what the scan finds. */
  lemma ScanNamedFirst(items: seq<Value>, name: string, k: nat)
    requires 1 <= k <= |items| && Named(items[k - 1], name)
    requires forall i :: 0 <= i < k - 1 ==> HasNameField(items[i]) && !Named(items[i], name)
    ensures ScanNamed(items, name) == Some(Some(k))
  {
  }

  lemma {:induction false} ScanEncodedModules(outline: seq<Module>, name: string)
    ensures ScanNamed(EncodeOutline(outline).items, name) == Some(ModuleIndex(outline, name))
  {
    var items := EncodeOutline(outline).items;
    forall i | 0 <= i < |items|
      ensures HasNameField(items[i]) && (Named(items[i], name) <==> outline[i].name == name)
    {
      EncodedModuleNamed(outline[i], name);
    }
    var mi := ModuleIndex(outline, name);
    if mi.Some? {
      ScanNamedFirst(items, name, mi.value);
    }
  }

  lemma EncodedModuleNamed(m: Module, name: string)
    ensures HasNameField(EncodeModule(m)) && (Named(EncodeModule(m), name) <==> m.name == name)
  {
    assert EncodeModule(m).fields["name"] == Text(m.name);
  }

  lemma {:induction false} ScanEncodedLessons(lessons: seq<Lesson>, name: string)
    ensures ScanNamed(EncodeLessons(lessons).items, name) == Some(LessonIndexIn(lessons, name))
  {
    var items := EncodeLessons(lessons).items;
    forall i | 0 <= i < |items|
      ensures HasNameField(items[i]) && (Named(items[i], name) <==> lessons[i].name == name)
    {
      EncodedLessonNamed(lessons[i], name);
    }
    var li := LessonIndexIn(lessons, name);
    if li.Some? {
      ScanNamedFirst(items, name, li.value);
    }
  }

  lemma EncodedLessonNamed(l: Lesson, name: string)
    ensures HasNameField(EncodeLesson(l)) && (Named(EncodeLesson(l), name) <==> l.name == name)
  {
    assert EncodeLesson(l).fields["name"] == Text(l.name);
  }

  /** On a value that decodes as an outline, `get_module_index` read as
      Python reads it is the index in the decoded outline. */
  lemma {:induction false} ModuleIndexReadDecoded(v: Value, name: string)
    requires DecodeOutline(v).Some?
    ensures ModuleIndexRead(v, name) == Some(ModuleIndex(DecodeOutline(v).value, name))
  {
    EncodeDecodeOutline(v);
    ScanEncodedModules(DecodeOutline(v).value, name);
  }

  lemma {:induction false} LessonIndexReadEncoded(o: seq<Module>, moduleName: string, lessonName: string)
    ensures LessonIndexRead(EncodeOutline(o), moduleName, lessonName) == Some(LessonIndex(o, moduleName, lessonName))
  {
    var mi := ModuleIndex(o, moduleName);
    if mi.Some? {
      LessonIndexReadEncodedModule(o, moduleName, lessonName, mi.value);
    } else {
      LessonIndexReadNoModule(o, moduleName, lessonName);
    }
  }

  lemma {:induction false} LessonIndexReadNoModule(o: seq<Module>, moduleName: string, lessonName: string)
    requires ModuleIndex(o, moduleName) == None
    ensures LessonIndexRead(EncodeOutline(o), moduleName, lessonName) == Some(None)
  {
    var items := EncodeOutline(o).items;
    assert EncodeOutline(o) == Arr(items);
    ScanEncodedModules(o, moduleName);
    assert ModuleIndexRead(Arr(items), moduleName) == Some(None);
  }

  /** Once the module is found at `k`, the lesson index is read from its
      `lessons`. */
  lemma {:induction false} LessonIndexReadEncodedModule(o: seq<Module>, moduleName: string, lessonName: string, k: nat)
    requires ModuleIndex(o, moduleName) == Some(k)
    ensures LessonIndexRead(EncodeOutline(o), moduleName, lessonName) == Some(LessonIndex(o, moduleName, lessonName))
  {
    var items := EncodeOutline(o).items;
    var lessons := o[k - 1].lessons;
    ScanEncodedModules(o, moduleName);
    assert items[k - 1] == EncodeModule(o[k - 1]);
    assert LessonItems(items[k - 1]) == Some(EncodeLessons(lessons).items);
    ScanEncodedLessons(lessons, lessonName);
    LessonIndexReadAt(items, moduleName, lessonName, k, EncodeLessons(lessons).items);
    LessonIndexAtModule(o, moduleName, lessonName, k);
  }

  /** Reading a lesson index once the module is found at `k`. */
  lemma LessonIndexReadAt(items: seq<Value>, moduleName: string, lessonName: string, k: nat, ls: seq<Value>)
    requires ScanNamed(items, moduleName) == Some(Some(k))
    requires LessonItems(items[k - 1]) == Some(ls)
    requires ScanNamed(ls, lessonName).Some?
    ensures var li := ScanNamed(ls, lessonName).value;
            LessonIndexRead(Arr(items), moduleName, lessonName) == if li.None? then Some(None) else Some(Some((k, li.value)))
  {
    assert Elements(Arr(items)) == Some(items);
  }

  /** The same for `get_lesson_index`. */
  lemma LessonIndexReadDecoded(v: Value, moduleName: string, lessonName: string)
    requires DecodeOutline(v).Some?
    ensures LessonIndexRead(v, moduleName, lessonName) == Some(LessonIndex(DecodeOutline(v).value, moduleName, lessonName))
  {
    EncodeDecodeOutline(v);
    LessonIndexReadEncoded(DecodeOutline(v).value, moduleName, lessonName);
  }

  lemma ModuleEntriesEncoded(m: Module)
    ensures ModuleEntries(EncodeModule(m), EncodeLessons(m.lessons).items) == Some(Lift(Places(m)))
  {
    var v := EncodeModule(m);
    var ls := EncodeLessons(m.lessons).items;
    assert HasNameField(v) && v.fields["name"] == Text(m.name);
    forall j | 0 <= j < |ls| ensures HasNameField(ls[j]) && ls[j].fields["name"] == Text(m.lessons[j].name) {
    }
    var r := ModuleEntries(v, ls);
    assert r.value == Lift(Places(m));
  }

  lemma EncodeOutlineTail(outline: seq<Module>)
    requires |outline| > 0
    ensures EncodeOutline(outline).items[1..] == EncodeOutline(outline[1..]).items
  {
  }

  lemma LiftAppend(a: seq<Pair>, b: seq<Pair>)
    ensures Lift(a + b) == Lift(a) + Lift(b)
  {
  }

  lemma {:induction false} RawFlattenEncoded(outline: seq<Module>)
    ensures RawFlatten(EncodeOutline(outline).items) == Some(Lift(Flatten(outline)))
    decreases |outline|
  {
    if |outline| > 0 {
      var items := EncodeOutline(outline).items;
      EncodeOutlineTail(outline);
      RawFlattenEncoded(outline[1..]);
      assert items[0].fields["lessons"] == EncodeLessons(outline[0].lessons);
      ModuleEntriesEncoded(outline[0]);
      LiftAppend(Places(outline[0]), Flatten(outline[1..]));
    }
  }

  /** On a value that decodes as an outline, the flattened entries are the
      places of the decoded outline, with their names as text. */
  lemma FlatEntriesDecoded(v: Value)
    requires DecodeOutline(v).Some?
    ensures FlatEntries(v) == Some(Lift(Flatten(DecodeOutline(v).value)))
  {
    EncodeDecodeOutline(v);
    RawFlattenEncoded(DecodeOutline(v).value);
  }

  /** Looking a place up among entries finds it where it stands among the
      places: entries of distinct places are distinct. */
  lemma {:induction false} LiftFirstIndex(ps: seq<Pair>, p: Pair)
    ensures FirstIndex(Lift(ps), EntryOf(p)) == FirstIndex(ps, p)
    decreases |ps|
  {
    if |ps| > 0 {
      assert Lift(ps)[1..] == Lift(ps[1..]);
      LiftFirstIndex(ps[1..], p);
    }
  }

  /** Every entry among lifted places has text names. */
  lemma LiftEntries(ps: seq<Pair>, e: Entry)
    requires e in Lift(ps)
    ensures e.moduleName.Text? && e.lessonName.Text?
    ensures EntryOf(Pair(e.moduleName.s, e.lessonName.s)) == e
    ensures Pair(e.moduleName.s, e.lessonName.s) in ps
  {
    var i :| 0 <= i < |ps| && Lift(ps)[i] == e;
    assert ps[i] == Pair(e.moduleName.s, e.lessonName.s);
  }

  /** Python reads an outline whose module lacks a title, which decoding
      refuses. */
  lemma UntitledModuleRead()
    ensures var v := Arr([Obj(map["name" := Text("a"), "lessons" := Arr([])])]);
            && DecodeOutline(v).None?
            && ModuleIndexRead(v, "a") == Some(Some(1))
  {
    var v := Arr([Obj(map["name" := Text("a"), "lessons" := Arr([])])]);
    assert DecodeModule(v.items[0]).None?;
    assert Named(v.items[0], "a");
  }

  /** Items after the first match are never read, so a malformed one after it
      does no harm. */
  lemma ItemsAfterMatchUnread()
    ensures var v := Arr([Obj(map["name" := Text("a"), "title" := Text("A"), "lessons" := Arr([])]), Int(5)]);
            && DecodeOutline(v).None?
            && ModuleIndexRead(v, "a") == Some(Some(1))
  {
    var v := Arr([Obj(map["name" := Text("a"), "title" := Text("A"), "lessons" := Arr([])]), Int(5)]);
    assert DecodeModule(v.items[1]).None?;
    assert Named(v.items[0], "a");
  }
}

=== FILE: strings.dfy ===
/** String helpers shared by the model: occurrence counts, `join`, one-character
    `split`, prefix tests, code-point ordering and decimal rendering. Strings
    are `seq<char>`; a char is a Unicode scalar value. */
module Strings {

  /** Number of occurrences of `c` in `s`. */
  function Count(s: string, c: char): (n: nat)
    ensures n <= |s|
    ensures n == 0 <==> c !in s
  {
    if |s| == 0 then 0
    else
      assert s == [s[0]] + s[1..];
      (if s[0] == c then 1 else 0) + Count(s[1..], c)
  }

  lemma {:induction false} CountConcat(a: string, b: string, c: char)
    ensures Count(a + b, c) == Count(a, c) + Count(b, c)
  {
    if |a| == 0 {
      assert a + b == b;
    } else {
      assert (a + b)[1..] == a[1..] + b;
      CountConcat(a[1..], b, c);
    }
  }

  /** `n` copies of `c`, Python's `c * n`. */
  function Repeat(c: char, n: nat): (s: string)
    ensures |s| == n
    ensures forall i :: 0 <= i < n ==> s[i] == c
  {
    if n == 0 then "" else [c] + Repeat(c, n - 1)
  }

  /** Python's `sep.join(parts)`. */
  function Join(parts: seq<string>, sep: string): string
  {
    if |parts| == 0 then ""
    else if |parts| == 1 then parts[0]
    else parts[0] + sep + Join(parts[1..], sep)
  }

  /** Sum of the occurrences of `c` over all `parts`. */
  function CountAll(parts: seq<string>, c: char): nat
  {
    if |parts| == 0 then 0 else Count(parts[0], c) + CountAll(parts[1..], c)
  }

  /** Joining with a separator free of `c` adds no occurrence of `c`. */
  lemma {:induction false} CountJoin(parts: seq<string>, sep: string, c: char)
    requires c !in sep
    ensures Count(Join(parts, sep), c) == CountAll(parts, c)
  {
    if |parts| == 0 {
    } else if |parts| == 1 {
    } else {
      CountJoin(parts[1..], sep, c);
      CountConcat(parts[0], sep, c);
      CountConcat(parts[0] + sep, Join(parts[1..], sep), c);
    }
  }

  /** Position of the first occurrence of `c` in `s`. */
  function IndexOf(s: string, c: char): (i: nat)
    requires c in s
    ensures i < |s| && s[i] == c
    ensures c !in s[..i]
  {
    if s[0] == c then 0
    else
      assert s == [s[0]] + s[1..];
      var j := IndexOf(s[1..], c);
      assert s[..j + 1] == [s[0]] + s[1..][..j];
      j + 1
  }

  /** `s.split(sep)` for a one-character separator: the pieces between the
      separators, in order. Python's `str.split` and JavaScript's
      `String.prototype.split` (without a limit) agree on this. */
  function Split(s: string, sep: char): (parts: seq<string>)
    ensures |parts| >= 1
    ensures forall k :: 0 <= k < |parts| ==> sep !in parts[k]
    decreases |s|
  {
    if sep !in s then [s]
    else
      var i := IndexOf(s, sep);
      [s[..i]] + Split(s[i + 1..], sep)
  }

  /** Joining the pieces back with the separator restores the string. */
  lemma {:induction false} JoinSplit(s: string, sep: char)
    ensures Join(Split(s, sep), [sep]) == s
    decreases |s|
  {
    if sep in s {
      var i := IndexOf(s, sep);
      var rest := Split(s[i + 1..], sep);
      assert Split(s, sep) == [s[..i]] + rest;
      assert ([s[..i]] + rest)[1..] == rest;
      JoinSplit(s[i + 1..], sep);
      assert s == s[..i] + [sep] + s[i + 1..];
    }
  }

  /** Splitting a join of separator-free pieces gives the pieces back. */
  lemma {:induction false} SplitJoin(parts: seq<string>, sep: char)
    requires |parts| >= 1
    requires forall k :: 0 <= k < |parts| ==> sep !in parts[k]
    ensures Split(Join(parts, [sep]), sep) == parts
  {
    if |parts| == 1 {
      assert Join(parts, [sep]) == parts[0];
      assert Split(parts[0], sep) == [parts[0]];
    } else {
      var tail := Join(parts[1..], [sep]);
      assert Join(parts, [sep]) == parts[0] + [sep] + tail;
      SplitAfter(parts[0], sep, tail);
      SplitJoin(parts[1..], sep);
      assert parts == [parts[0]] + parts[1..];
    }
  }

  /** Splitting at a separator that a leading piece lacks peels that piece
      off. */
  lemma SplitAfter(head: string, sep: char, rest: string)
    requires sep !in head
    ensures Split(head + [sep] + rest, sep) == [head] + Split(rest, sep)
  {
    var s := head + [sep] + rest;
    assert s[..|head|] == head && s[|head|] == sep;
    IndexOfAt(s, sep, |head|);
    assert s[|head| + 1..] == rest;
  }

  /** The text of `s` before the first `c`, or all of `s` when there is none. */
  function TakeUntil(s: string, c: char): (r: string)
    ensures r <= s
    ensures c !in r
    ensures |r| < |s| ==> s[|r|] == c
  {
    if |s| == 0 || s[0] == c then ""
    else
      assert s == [s[0]] + s[1..];
      [s[0]] + TakeUntil(s[1..], c)
  }

  /** The first occurrence of `c` is the position before which `c` is absent. */
  lemma {:induction false} IndexOfAt(s: string, c: char, k: nat)
    requires k < |s| && s[k] == c && c !in s[..k]
    ensures IndexOf(s, c) == k
  {
    if k > 0 {
      assert s[..k][0] == s[0];
      assert s[1..][..k - 1] == s[..k][1..];
      IndexOfAt(s[1..], c, k - 1);
    }
  }

  /** The first piece of a split is the text before the first separator. */
  lemma {:induction false} SplitHead(s: string, sep: char)
    ensures Split(s, sep)[0] == TakeUntil(s, sep)
    decreases |s|
  {
    if |s| > 0 && s[0] != sep {
      SplitHead(s[1..], sep);
      assert s == [s[0]] + s[1..];
      if sep in s {
        var i := IndexOf(s, sep);
        assert s[..i] == [s[0]] + s[1..][..i - 1];
      }
    }
  }

  /** String `<` of Python and JavaScript: lexicographic by code point, a
      proper prefix being smaller. */
  predicate StrLess(a: string, b: string)
  {
    if |b| == 0 then false
    else if |a| == 0 then true
    else if a[0] != b[0] then a[0] < b[0]
    else StrLess(a[1..], b[1..])
  }

  predicate IsDigit(c: char)
  {
    '0' <= c <= '9'
  }

  predicate IsDecimal(s: string)
  {
    |s| >= 1 && forall i :: 0 <= i < |s| ==> IsDigit(s[i])
  }

  function DigitChar(d: nat): (c: char)
    requires d < 10
    ensures IsDigit(c)
  {
    ('0' as int + d) as char
  }

  function DigitValue(c: char): (d: nat)
    requires IsDigit(c)
    ensures d < 10 && DigitChar(d) == c
  {
    c as int - '0' as int
  }

  /** Decimal rendering of a natural number, Python's `str(n)` for `n >= 0`. */
  function NatToString(n: nat): (s: string)
    ensures IsDecimal(s)
  {
    if n < 10 then [DigitChar(n)]
    else NatToString(n / 10) + [DigitChar(n % 10)]
  }

  /** Python's `str(i)` for an integer. */
  function IntToString(i: int): string
  {
    if i < 0 then "-" + NatToString(-i) else NatToString(i)
  }

  /** Value of a string of decimal digits. */
  function ParseNat(s: string): nat
    requires forall i :: 0 <= i < |s| ==> IsDigit(s[i])
  {
    if |s| == 0 then 0
    else ParseNat(s[..|s| - 1]) * 10 + DigitValue(s[|s| - 1])
  }

  /** Parsing a rendered number gives the number back. */
  lemma {:induction false} ParseNatToString(n: nat)
    ensures ParseNat(NatToString(n)) == n
  {
    var s := NatToString(n);
    if n >= 10 {
      var d := DigitChar(n % 10);
      assert s[..|s| - 1] == NatToString(n / 10);
      assert DigitValue(d) == n % 10 by {
        assert DigitChar(DigitValue(d)) == d;
      }
      ParseNatToString(n / 10);
    } else {
      assert DigitValue(s[0]) == n by {
        assert DigitChar(DigitValue(s[0])) == s[0];
      }
    }
  }
}

=== FILE: values.dfy ===
/** Document field values: a JSON-like shape, the one documents are stored
    as, also used for a parsed YAML course definition. Floating-point numbers,
    YAML dates and timestamps, sets and non-text mapping keys are not part of
    the model. */
module Values {

  datatype Value =
    | Null
    | Bool(b: bool)
    | Int(i: int)
    | Text(s: string)
    | Arr(items: seq<Value>)
    | Obj(fields: map<string, Value>)

  /** The fields of a document, `Document.data`. */
  type Fields = map<string, Value>

  /** A sequence of strings as a JSON list of strings. */
  function TextList(ss: seq<string>): (v: Value)
    ensures v.Arr? && |v.items| == |ss|
    ensures forall i :: 0 <= i < |ss| ==> v.items[i] == Text(ss[i])
  {
    Arr(seq(|ss|, i requires 0 <= i < |ss| => Text(ss[i])))
  }
}

=== FILE: version.dfy ===
/** The SQLite version gate that runs when riyaz/db.py is imported: the
    library's version string is split at dots and the pieces are compared
    with `['3', '38']`; a smaller version is refused.

    The pieces are compared as strings, so the gate orders versions by text
    rather than by number. `Accepts` is the gate as written; `AcceptsNumeric`
    compares the pieces as numbers, which is what the message
    "requires sqlite >= 3.38.0" promises. */
module SqliteVersion {
  import opened Wrappers
  import opened Strings

  /** Python's `<` on two lists of strings: the first differing position
      decides, and a proper prefix is smaller. */
  predicate ListLess(a: seq<string>, b: seq<string>)
  {
    if |b| == 0 then false
    else if |a| == 0 then true
    else if a[0] != b[0] then StrLess(a[0], b[0])
    else ListLess(a[1..], b[1..])
  }

  /** Python's `<` on two lists of numbers. */
  predicate NatListLess(a: seq<nat>, b: seq<nat>)
  {
    if |b| == 0 then false
    else if |a| == 0 then true
    else if a[0] != b[0] then a[0] < b[0]
    else NatListLess(a[1..], b[1..])
  }

  /** The gate as written: the version passes unless its pieces are smaller
      than `['3', '38']` as strings. */
  predicate Accepts(version: string)
  {
    !ListLess(Split(version, '.'), ["3", "38"])
  }

  /** A version string that is not dot-separated decimal numbers. */
  datatype VersionError = Malformed(version: string)

  /** `int(p)` for each piece: `None` when some piece is not decimal digits. */
  function ParsePieces(parts: seq<string>): (r: Option<seq<nat>>)
    ensures r.Some? <==> forall i :: 0 <= i < |parts| ==> IsDecimal(parts[i])
    ensures r.Some? ==> |r.value| == |parts|
    ensures r.Some? ==> forall i :: 0 <= i < |parts| ==> r.value[i] == ParseNat(parts[i])
  {
    if |parts| == 0 then Some([])
    else if !IsDecimal(parts[0]) then None
    else
      var rest := ParsePieces(parts[1..]);
      assert forall i :: 1 <= i < |parts| ==> parts[i] == parts[1..][i - 1];
      if rest.None? then None else Some([ParseNat(parts[0])] + rest.value)
  }

  /** Every dot-separated piece is a decimal number. */
  predicate WellFormed(version: string)
  {
    var parts := Split(version, '.');
    forall i :: 0 <= i < |parts| ==> IsDecimal(parts[i])
  }

  /** The gate comparing the pieces as numbers. */
  function AcceptsNumeric(version: string): (r: Result<bool, VersionError>)
    ensures r.Err? <==> !WellFormed(version)
  {
    var nums := ParsePieces(Split(version, '.'));
    if nums.None? then Err(Malformed(version))
    else Ok(!NatListLess(nums.value, [3, 38]))
  }

  /** The text of the version `a.b.c`. */
  function VersionText(a: nat, b: nat, c: nat): string
  {
    NatToString(a) + "." + NatToString(b) + "." + NatToString(c)
  }

  lemma DecimalHasNoDot(s: string)
    requires IsDecimal(s)
    ensures '.' !in s
  {
  }

  /** The pieces of `a.b.c` are the three numbers' texts. */
  lemma SplitVersionText(a: nat, b: nat, c: nat)
    ensures Split(VersionText(a, b, c), '.') == [NatToString(a), NatToString(b), NatToString(c)]
  {
    var parts := [NatToString(a), NatToString(b), NatToString(c)];
    assert Join(parts[2..], ".") == NatToString(c);
    assert Join(parts[1..], ".") == NatToString(b) + "." + NatToString(c);
    assert Join(parts, ".") == VersionText(a, b, c);
    DecimalHasNoDot(parts[0]);
    DecimalHasNoDot(parts[1]);
    DecimalHasNoDot(parts[2]);
    SplitJoin(parts, '.');
  }

  /** The numeric gate accepts `a.b.c` exactly when it is at least 3.38. */
  lemma AcceptsNumericMeaning(a: nat, b: nat, c: nat)
    ensures AcceptsNumeric(VersionText(a, b, c)) == Ok(a > 3 || (a == 3 && b >= 38))
  {
    SplitVersionText(a, b, c);
    var parts := [NatToString(a), NatToString(b), NatToString(c)];
    ParseNatToString(a);
    ParseNatToString(b);
    ParseNatToString(c);
    var nums := ParsePieces(parts);
    assert nums.Some?;
    assert nums.value[0] == a && nums.value[1] == b && nums.value[2] == c;
    assert nums.value == [a, b, c];
    assert [a, b, c][1..] == [b, c];
    assert [3, 38][1..] == [38];
    assert NatListLess([a, b, c], [3, 38]) <==> a < 3 || (a == 3 && NatListLess([b, c], [38]));
    assert [b, c][1..] == [c];
    assert NatListLess([b, c], [38]) <==> b < 38;
  }

  /** The decimal texts the examples below use. */
  lemma SmallTexts()
    ensures NatToString(0) == "0" && NatToString(3) == "3" && NatToString(4) == "4"
    ensures NatToString(10) == "10" && NatToString(38) == "38" && NatToString(100) == "100"
  {
    assert NatToString(10) == NatToString(1) + "0";
    assert NatToString(38) == NatToString(3) + "8";
    assert NatToString(100) == NatToString(10) + "0";
  }

  /** The textual comparison of a three-piece version with `['3', '38']`. */
  lemma ListLessThree(p0: string, p1: string, p2: string, q0: string, q1: string)
    ensures ListLess([p0, p1, p2], [q0, q1])
            == if p0 != q0 then StrLess(p0, q0) else if p1 != q1 then StrLess(p1, q1) else false
  {
    assert [p0, p1, p2][1..] == [p1, p2] && [q0, q1][1..] == [q1];
    assert [p1, p2][1..] == [p2] && [q1][1..] == [];
    if p0 == q0 {
      assert ListLess([p0, p1, p2], [q0, q1]) == ListLess([p1, p2], [q1]);
      if p1 == q1 {
        assert ListLess([p1, p2], [q1]) == ListLess([p2], []);
      }
    }
  }

  /** The gate as written refuses 3.100.0, which the numeric gate lets
      through. */
  lemma TextualRefuses3100()
    ensures !Accepts("3.100.0") && AcceptsNumeric("3.100.0") == Ok(true)
  {
    assert VersionText(3, 100, 0) == "3.100.0";
    AcceptsNumericMeaning(3, 100, 0);
    SplitVersionText(3, 100, 0);
    SmallTexts();
    assert Split("3.100.0", '.') == ["3", "100", "0"];
    ListLessThree("3", "100", "0", "3", "38");
    assert StrLess("100", "38");
  }

  /** The gate as written refuses 10.0.0, which the numeric gate lets
      through. */
  lemma TextualRefuses10()
    ensures !Accepts("10.0.0") && AcceptsNumeric("10.0.0") == Ok(true)
  {
    assert VersionText(10, 0, 0) == "10.0.0";
    AcceptsNumericMeaning(10, 0, 0);
    SplitVersionText(10, 0, 0);
    SmallTexts();
    assert Split("10.0.0", '.') == ["10", "0", "0"];
    ListLessThree("10", "0", "0", "3", "38");
    assert StrLess("10", "3");
  }

  /** The gate as written lets 3.4.0 through, which the numeric gate
      refuses. */
  lemma TextualAccepts34()
    ensures Accepts("3.4.0") && AcceptsNumeric("3.4.0") == Ok(false)
  {
    assert VersionText(3, 4, 0) == "3.4.0";
    AcceptsNumericMeaning(3, 4, 0);
    SplitVersionText(3, 4, 0);
    SmallTexts();
    assert Split("3.4.0", '.') == ["3", "4", "0"];
    ListLessThree("3", "4", "0", "3", "38");
    assert !StrLess("4", "38");
  }

  /** Both gates let 3.38.0 through. */
  lemma BothAccept338()
    ensures Accepts("3.38.0") && AcceptsNumeric("3.38.0") == Ok(true)
  {
    assert VersionText(3, 38, 0) == "3.38.0";
    AcceptsNumericMeaning(3, 38, 0);
    SplitVersionText(3, 38, 0);
    SmallTexts();
    assert Split("3.38.0", '.') == ["3", "38", "0"];
    ListLessThree("3", "38", "0", "3", "38");
  }
}

=== FILE: wrappers.dfy ===
/** Option and Result, the two failure-compatible wrappers the model uses in
    place of Python's `None` and raised exceptions. Result works with `:-`. */
module Wrappers {

  datatype Option<+T> = None | Some(value: T)

  datatype Result<+T, +E> = Ok(value: T) | Err(error: E) {

    predicate IsFailure() {
      Err?
    }

    function PropagateFailure<U>(): Result<U, E>
      requires Err?
    {
      Err(error)
    }

    function Extract(): T
      requires Ok?
    {
      value
    }
  }
}
